=== FILE: README.md ===
# smart-forms backend: the verified core

This project models, in Dafny, the deterministic core of the smart-forms backend: a Go service
where form owners lay out a question flow (a tree of question blocks), publish the form under
slugs, collect respondents' answers, and read analytics about the paths respondents took.

What is modelled:
- **Analytics.** There are two path aggregators.
  - The node calculator gives per-node visit, answer, skip, drop-off and time totals.
  - The flow calculator gives edge counts with a `DROP_OFF` sink.
  - Conservation laws link the two.
- **Analytics storage rules.** The status row, the metrics upsert loop and the label enrichment with its lookup memo.
- **The response ingestion buffer**, as a sequential state machine:
  - `Enqueue` and its synchronous fallback;
  - the worker loop, with `Item`, `Tick` and `Shutdown` events;
  - the all-or-nothing `insertBatch` transaction.
- **The cache-key scheme** and the keys each mutation evicts, over a cache modelled as a map with time-to-live.
- **The flow editor.**
  - `UpdateFlow` and its recursive `processBlock`.
  - The flat-to-tree `buildTree` that reads a flow back.
  - Template cloning in the forms handler.
- **The services' validators:**
  - form, question and plan input rules;
  - slug rules and the base64url automatic slug (section 5 of RFC 4648);
  - the submission checks;
  - paging clamps;
  - the bearer-header parser and role gate;
  - the plan repository's positional-placeholder `UPDATE` builder.

Conventions:
- Storage is an abstract map or sequence.
- Every database call, random draw, clock reading, UUID parse and token validation is a parameter of the operation that uses it.
- A database failure is an `Option<DbError>` "fault" argument, or an oracle function.
- Go's `strings.TrimSpace`, `strings.Split` and byte `len` are modelled in module `Text`.

Where the code and its documentation differ, the model records what the code does. Where the
code is evidently wrong, both behaviours are modelled: an as-written member shows the defect,
and a corrected member, which the rest of the model uses, states the intended property (see
Findings):
- The forms repository's `GetByID` does not read `is_template`. `FormsService.UpdateWith(false, …)` and `SoftDeleteWith(false, …)` are the code as written; `FormsService.Update` and `FormsService.SoftDelete` are the corrected operations.
- Publishing and toggling evict only the form's ID key. `LinksService.PublishFormAsWritten` and `ToggleAsWritten` are the code as written; `PublishForm` and `ToggleAcceptingResponses` are the corrected operations.
- The flow calculator keys edges by the string `source + "->" + target`, so a node named DROP_OFF collides with the drop-off sink. `FlowEdgeKeys.CalculateAsWritten` is the code as written; the pair-keyed `FlowCalculator.Calculate` is the corrected calculator.

Notes:
- The response-submission flow writes directly; it never goes through the buffer.
- The flow queries order rows by depth level and then order index, so rows tied on both may come back in any order. The round trips are proved for every such read, not only for the order the rows were written in.

## Model

| member | source | states |
|---|---|---|
| Text.TrimLeftDrops | internal/forms/service.go:52-53 | TrimSpace's left half: what it drops is all white space (Go's `unicode.IsSpace`), and what remains does not start with white space |
| Text.TrimRightDrops | internal/forms/service.go:52-53 | the right half: what it drops is all white space, and what remains does not end with white space |
| Text.TrimSpaceEnds | internal/forms/service.go:52-53 | a trimmed string neither starts nor ends with white space |
| Text.TrimSpaceInfix | internal/forms/service.go:52-53 | the trimmed string is an infix of the input, and everything around it is white space |
| Text.TrimSpaceEmptyIff | internal/forms/service.go:52-56 | a string is blank after trimming exactly when it is all white space, which is the "blank title" rule every validator uses |
| Text.TrimSpaceNoSpace | internal/forms/service.go:52-53 | a string without white space is its own trimming |
| Text.TrimSpaceIdempotent | internal/forms/service.go:52-53 | trimming twice is trimming once |
| Text.Split | internal/auth/middleware.go:17 | `strings.Split` with one separator character: every part is separator-free, there is one more part than there are separators, and joining the parts gives the input back |
| Text.SplitOfJoin | internal/auth/middleware.go:17 | Split undoes Join when no part contains the separator |
| Text.SplitAtSeparator | internal/auth/middleware.go:17 | a separator-free prefix followed by the separator is split off as the first part |
| Text.ByteLen | internal/links/service.go:167 | Go's `len` of a string counts UTF-8 bytes, never fewer than the characters |
| Text.AsciiByteLen | internal/links/service.go:167 | for ASCII text, the byte length is the character count |
| Cache.FormSlugKey | internal/cache/keys.go:12-14 | the slug key is the `form:slug:` prefix followed by the slug, so it is prefix-plus-slug long |
| Cache.FormIdKey | internal/cache/keys.go:17-19 | the ID key is the `form:id:` prefix followed by the ID |
| Cache.KeysInjective | internal/cache/keys.go:7-19 | two slug keys are equal exactly when their slugs are, and two ID keys exactly when their IDs are |
| Cache.KeySpacesDisjoint | internal/cache/keys.go:7-8 | a slug key is never an ID key, and `templates:list` is neither |
| Cache.Get | internal/cache/cache.go:60-63 | a lookup finds a value exactly when the key is stored, and it is the stored value |
| Cache.Set | internal/cache/cache.go:42-57 | after a set, the key holds the value with its time-to-live, and every other key reads as before |
| Cache.Delete | internal/cache/cache.go:65-68 | a blind delete: the key is gone, every other entry is unchanged, and deleting an absent key is a no-op |
| Cache.DeleteAll | internal/cache/cache.go:65-68 | deleting a list of keys removes exactly those keys and keeps every other entry |
| Cache.Advance | internal/cache/cache.go:42-57 | as time passes, entries whose time-to-live runs out disappear and the others age by the elapsed time |
| Cache.SetExpires | internal/cache/cache.go:42-57 | nothing outlives its time-to-live |
| FlowTree.BuildTreeLevels | internal/flows/service.go:130-153 | buildTree's top level is the rows whose parent equals the requested parent, with nil matching nil, in input order; each block's children are buildTree of that row's ID |
| FlowTree.CollectExpandsSiblings | internal/flows/service.go:130-153 | the scan over the rows builds one block per matching row, in row order |
| FlowTree.SiblingsAppend | internal/flows/service.go:131-147 | the parent filter distributes over concatenated rows |
| FlowTree.SiblingsOfFlatten | internal/flows/service.go:130-153 | in a flattened forest with distinct IDs, the rows below `p` are the roots, or the children of the block with ID `p`, or none |
| FlowTree.ChildrenOfFound | internal/flows/service.go:138-143 | a block with a given ID exists in the forest exactly when that ID is among the forest's IDs |
| FlowTree.RoundTrip | internal/flows/service.go:130-153 | flattening a forest with distinct block IDs into parent-linked rows and running buildTree over them gives the forest back, given fuel above its height |
| FlowTree.BuildTreeBySiblings | internal/flows/service.go:130-153 | buildTree depends only on each parent's list of child rows: two row lists with the same children in the same order for every parent build the same tree |
| FlowTree.HeightBound | internal/flows/service.go:130-153 | a forest is never taller than it has blocks, so row-count fuel always suffices |
| PathData.CountZeroIffAbsent | internal/analytics/calculators/node_calculator.go:64-76 | a node occurs zero times in a path exactly when it is not on the path |
| NodeCalculator.AnswerTimes | internal/analytics/calculators/node_calculator.go:53-61 | the per-response time map has an entry exactly for the nodes with a timed answer, and holds the time of the last timed answer for each |
| NodeCalculator.Calculate | internal/analytics/calculators/node_calculator.go:43-45 | zero responses give an empty result, not an error |
| NodeCalculator.FoldPathCounts | internal/analytics/calculators/node_calculator.go:64-95 | one path's fold adds the node's occurrences to its visits, and to its answers or its skips. It adds a drop-off when the path ends at the node, and occurrences times the recorded time |
| NodeCalculator.FoldResponsesCounts | internal/analytics/calculators/node_calculator.go:51-96 | the fold over all responses adds the reference sums of visits, answers, skips, drop-offs and time |
| NodeCalculator.FoldResponsesKeys | internal/analytics/calculators/node_calculator.go:65-71 | the fold creates a record for exactly the nodes on some path |
| NodeCalculator.CalculateMatchesReference | internal/analytics/calculators/node_calculator.go:36-108 | one record per distinct node on any path, tagged with the form. Each count is the reference sum: visits are all occurrences, repeats included; answers and skips split the visits by whether the response answered the node; drop-offs are paths ending there; time is occurrences times the last recorded time |
| NodeCalculator.AnswerPlusSkipReference | internal/analytics/calculators/node_calculator.go:78-89 | in the reference sums, answers plus skips equal visits |
| NodeCalculator.AnswerPlusSkipIsVisit | internal/analytics/calculators/node_calculator.go:78-89 | every record has answerCount + skipCount == visitCount |
| NodeCalculator.ReferencesAgree | internal/analytics/calculators/node_calculator.go:51-96 | two response lists that agree on a node's per-response data agree on all its counts |
| NodeCalculator.OffPathAnswerChangesNothing | internal/analytics/calculators/node_calculator.go:53-61 | adding an answer for a node that is not on the response's path changes no metric at all |
| FlowCalculator.EdgesFrom | internal/analytics/calculators/flow_calculator.go:38-69 | a path emits exactly one edge per position |
| FlowCalculator.Calculate | internal/analytics/calculators/flow_calculator.go:23-25 | zero responses give an empty edge map |
| FlowCalculator.EdgesFromShape | internal/analytics/calculators/flow_calculator.go:38-69 | the edge at each position leaves that position's node for its successor, which is the next node or the sink |
| FlowCalculator.PathContribution | internal/analytics/calculators/flow_calculator.go:38-69 | a path of length L gives L-1 node-to-node edges and then one drop-off edge from its last node; an empty path gives nothing |
| FlowCalculator.SourcesOfPath | internal/analytics/calculators/flow_calculator.go:38-69 | the sources of one path's edges are the path itself |
| FlowCalculator.SourcesAreVisits | internal/analytics/calculators/flow_calculator.go:36-70 | over all responses, the edge sources are exactly the visits, in order |
| FlowCalculator.DropOffTargetsAreNonEmptyPaths | internal/analytics/calculators/flow_calculator.go:55-68 | the number of drop-off edges emitted is the number of responses with a non-empty path |
| FlowCalculator.FoldResponseEdgesCounts | internal/analytics/calculators/flow_calculator.go:36-70 | the fold has a key for each emitted edge, and each value is the edge's emission count |
| FlowCalculator.CalculateCountsEdges | internal/analytics/calculators/flow_calculator.go:16-85 | the calculator's map has an entry for exactly the emitted edges, and each value is the edge's number of emissions |
| FlowCalculator.TransitionsWellFormed | internal/analytics/calculators/flow_calculator.go:73-83 | every output transition has a value of at least 1, is flagged drop-off only with target `DROP_OFF`, and stands for a calculated edge |
| FlowCalculator.SingleNodePath | internal/analytics/calculators/flow_calculator.go:41-68 | a one-node path contributes only its drop-off edge |
| FlowEdgeKeys.CalculateAsWritten | internal/analytics/calculators/flow_calculator.go:23-25 | the string-keyed calculator, as written, returns an empty map for zero responses |
| FlowEdgeKeys.EdgeKeySplitsUniquely | internal/analytics/calculators/flow_calculator.go:44 | with source IDs free of `->`, the key `source + "->" + target` determines source and target |
| FlowEdgeKeys.KeyOfInjective | internal/analytics/calculators/flow_calculator.go:44-57 | keys of well-formed edges are unique per (source, target) pair, and a drop-off key never equals a node-to-node key |
| FlowEdgeKeys.BumpCorresponds | internal/analytics/calculators/flow_calculator.go:46-67 | one increment of the string-keyed map mirrors one increment of the pair-keyed map |
| FlowEdgeKeys.FoldResponsesCorresponds | internal/analytics/calculators/flow_calculator.go:36-70 | with well-formed paths, the string-keyed fold mirrors the pair-keyed fold |
| FlowEdgeKeys.AsWrittenAgreesOnWellFormedIds | internal/analytics/calculators/flow_calculator.go:16-85 | when no node ID contains `->` and none is `DROP_OFF`, the string-keyed calculator reports exactly the pair-keyed transitions |
| FlowEdgeKeys.DropOffIdCollision | internal/analytics/calculators/flow_calculator.go:44-65 | for paths [A, DROP_OFF] and [A], the string-keyed map merges the real drop-off at A into the edge A->DROP_OFF, with value 2 and not flagged as a drop-off; the pair-keyed model keeps them apart |
| Conservation.OutSumCountsSources | internal/analytics/calculators/flow_calculator.go:38-69 | summing a node's edges over a duplicate-free target list that covers them counts the node's occurrences as a source |
| Conservation.DropSumCountsTargets | internal/analytics/calculators/flow_calculator.go:55-68 | summing drop-off edges over a duplicate-free list covering their sources counts the drop-off targets |
| Conservation.VisitsCountVisits | internal/analytics/calculators/node_calculator.go:64-76 | a node's occurrences in all paths is its reference visit count |
| Conservation.FlowConservation | internal/analytics/calculators/flow_calculator.go:38-69 | for every node, the values of its out-edges, including the drop-off edge, sum to the node calculator's visit count |
| Conservation.DropOffConservation | internal/analytics/calculators/flow_calculator.go:55-68 | the values of the drop-off edges sum to the number of responses with a non-empty path |
| Conservation.DropOffCountIsDropOffEdges | internal/analytics/calculators/node_calculator.go:91-94 | a node's reference drop-off count is the number of drop-off edges emitted from it |
| Conservation.DropOffAgreement | internal/analytics/calculators/node_calculator.go:91-94 | a node's drop-off count equals the value of its drop-off edge |
| Conservation.EdgeSourcesVisited | internal/analytics/calculators/flow_calculator.go:38-69 | every emitted edge leaves a visited node |
| Conservation.NodeDropOffsAreFlows | internal/analytics/calculators/node_calculator.go:91-94 | summed over any node list, the node calculator's drop-off counts equal the drop-off edge values |
| Conservation.NodeDropOffConservation | internal/analytics/calculators/node_calculator.go:91-94 | the node drop-off counts, summed over a duplicate-free list covering every reported node, equal the number of responses with a non-empty path |
| AnalyticsExample.FlowOfThreeResponses | internal/analytics/calculators/flow_calculator.go:36-70 | paths [A,B,C], [A,C], [A,B] give A->B: 2, A->C: 1, B->C: 1, B->DROP_OFF: 1, C->DROP_OFF: 2 |
| AnalyticsExample.NodesOfThreeResponses | internal/analytics/calculators/node_calculator.go:64-95 | in the same example, A is visited 3 times and B and C twice each; one respondent stops at B and two stop at C |
| AnalyticsExample.ExampleCounts | internal/analytics/calculators/node_calculator.go:64-95 | the reference visit and drop-off counts of each node in the example |
| Buffer.AnswerStatements | internal/responses/buffer/buffer.go:146-159 | one answer insert per answer row |
| Buffer.ResponseRows | internal/responses/buffer/buffer.go:133-143 | one response row per submission in the batch |
| Buffer.ExecuteBatch | internal/responses/buffer/buffer.go:133-160 | running a batch's statements appends its response rows and its answer rows, in batch order |
| Buffer.InsertBatch | internal/responses/buffer/buffer.go:117-169 | an empty batch is a successful no-op. Otherwise the call succeeds exactly when every statement and the commit succeed; a failure leaves the store unchanged (rollback), and success appends every response and its answers in batch order |
| Buffer.Enqueue | internal/responses/buffer/buffer.go:64-75 | a queue with room takes the submission and writes nothing. A full queue is unchanged, and the submission goes through one synchronous one-item insertBatch whose error is returned |
| Buffer.Step | internal/responses/buffer/buffer.go:78-114 | one worker iteration. An item below the batch size only grows the batch, and a tick on an empty batch does nothing. An item that fills the batch flushes the batch with it (Full), a tick on a non-empty batch flushes it (Timer), and shutdown flushes a non-empty batch (Final). Each flush writes the whole batch in one transaction and clears it whatever the outcome. Shutdown then stops the worker, and a stopped worker ignores every event |
| Buffer.FlushStore | internal/responses/buffer/buffer.go:89-109 | after a flush, the store holds exactly the rows of the committed flushes |
| Buffer.FlushAccounts | internal/responses/buffer/buffer.go:89-109 | a flush keeps the accounting invariant: the flushed submissions and the pending batch are everything received |
| Buffer.StepAccounts | internal/responses/buffer/buffer.go:81-113 | every event keeps the accounting invariant |
| Buffer.RunAccounts | internal/responses/buffer/buffer.go:81-113 | over any event sequence the invariant holds, and a stopped worker has an empty batch |
| Buffer.StoppedStays | internal/responses/buffer/buffer.go:104-111 | after Shutdown the worker has returned, and later events change nothing |
| Buffer.WorkerConservation | internal/responses/buffer/buffer.go:78-169 | from an empty start, the flushed batches followed by the pending batch are exactly the received submissions, in order. The store holds exactly the rows of the committed flushes, so a failed batch is dropped and not retried. Every flush is non-empty, and shutdown leaves nothing pending |
| Buffer.StepBounded | internal/responses/buffer/buffer.go:83-93 | with a batch size of at least 1, a step keeps the batch below the batch size |
| Buffer.BatchBoundFromStart | internal/responses/buffer/buffer.go:83-93 | from the start, the batch always stays below the batch size, and every size-triggered flush holds exactly batch-size submissions |
| Buffer.ZeroBatchSizeFlushesEachItem | internal/responses/buffer/buffer.go:79-92 | with a batch size of zero, every submission is flushed on its own as a full batch |
| Buffer.ScheduleIgnoresOutcomes | internal/responses/buffer/buffer.go:81-113 | which submissions are flushed, when, and what stays batched do not depend on the database's answers |
| FormsService.ReadSlugs | internal/forms/service.go:120 | the slug read returns the form's stored slugs; a missing form or a failed read gives two nil slugs, and the error is ignored |
| FormsService.ReadIsTemplate | internal/forms/service.go:123-124 | the template flag is true exactly when the form is read, owned by the caller and a template, and the query selects the flag; as written it does not (see Findings) |
| FormsService.Invalidate | internal/forms/service.go:132-147 | the ID key is always deleted, each non-empty slug's key is deleted, and `templates:list` is deleted for a template; every other entry is untouched |
| FormsService.Returned | internal/forms/repository.go:32-52 | the repository hands back only the RETURNING columns (ID, title, description, status); the user ID is empty, there are no slugs and both flags are false |
| FormsService.Create | internal/forms/service.go:45-60 | a blank trimmed title is rejected before the database is touched. A non-blank title with a succeeding insert always succeeds, with the inserted form's ID. The stored form carries the trimmed title and description and the caller's user, and no other form changes. The form handed back is the RETURNING projection of the stored row (forms/repository.go lines 32-52), not the row itself, and the cache is untouched |
| FormsService.CreatedFormIsEditable | internal/forms/service.go:45-194 | the creator of a form owns it, and can then update it with a valid title and status, and delete it, whenever the write succeeds |
| FormsService.Update | internal/forms/service.go:99-150 | corrected (see Findings): a blank title or an invalid status is InvalidInput, and nothing changes. Success happens exactly when the checks pass, the write succeeds and the caller owns the form. It stores the trimmed fields and evicts the ID key and the pre-update slug keys. Unlike the code as written (`UpdateWith(false, …)`), it also evicts the template list for a template |
| FormsService.SoftDelete | internal/forms/service.go:157-194 | corrected (see Findings): only the owner can delete, and a failed write changes nothing. A deleted form loses its ID key and its slug keys. Unlike the code as written (`SoftDeleteWith(false, …)`), it also evicts the template list when the form was a template |
| FormsService.InvalidateKeepsTemplateList | internal/forms/service.go:144-147 | invalidation without the template flag leaves the template list alone |
| FormsService.UpdateAsWrittenKeepsTemplateList | internal/forms/service.go:122-147 | Update as written never evicts the template list |
| FormsService.SoftDeleteAsWrittenKeepsTemplateList | internal/forms/service.go:166-191 | SoftDelete as written never evicts the template list |
| FormsService.TemplateListStaleAfterUpdate | internal/forms/service.go:122-147 | renaming a cached template as written keeps serving the old title from the list; with the flag read, the next listing shows the new title |
| FormsService.ToggleTemplate | internal/forms/service.go:217-231 | a failed write changes nothing; a successful one sets the flag and deletes only `templates:list` |
| FormsService.ListTemplates | internal/forms/service.go:234-255 | a cached list of the right type is returned without a query, and a query error caches nothing; a fetched list is returned and cached under `templates:list` for seven days |
| FormsService.ListTemplatesServesCachedList | internal/forms/service.go:238-243 | once listed, the list is served from the cache whatever the database now says |
| FormsService.ToggleTemplateForcesRefresh | internal/forms/service.go:227-228 | after a flag change, the next listing comes from the database |
| Base64Url.Char | internal/links/service.go:162 | section 5 of RFC 4648: every value below 64 maps into the URL-safe alphabet |
| Base64Url.Value | internal/links/service.go:162 | the alphabet is decoded back to its value, so Char is injective |
| Base64Url.EncodeQuantum | internal/links/service.go:162 | one quantum of one to three bytes is four characters |
| Base64Url.Encode | internal/links/service.go:162 | `EncodeToString` output has four characters per started three-byte group |
| Base64Url.QuantumRoundTrip | internal/links/service.go:162 | a quantum decodes back to its bytes, and padding appears exactly where bytes are missing |
| Base64Url.DecodeEncode | internal/links/service.go:162 | decoding undoes encoding for every byte string (sections 4 and 5 of RFC 4648) |
| Base64Url.EncodeEight | internal/links/service.go:160-162 | eight bytes encode to twelve characters whose only padding is the last one |
| Base64Url.AutoSlug | internal/links/service.go:159-163 | the automatic slug has 11 characters, all from `[A-Za-z0-9_-]` |
| Base64Url.AutoSlugDecodes | internal/links/service.go:159-163 | cutting off the padding loses nothing: the slug plus one pad decodes to the random bytes |
| Base64Url.AutoSlugInjective | internal/links/service.go:159-163 | distinct random draws give distinct automatic slugs |
| LinksService.IsValidSlugIff | internal/links/service.go:166-172 | a slug is valid exactly when it has 3 to 50 characters, all from `[a-z0-9-]`; since those are ASCII, the byte bound is a character bound |
| LinksService.AutoSlugValidIff | internal/links/service.go:159-172 | the automatic slug is always of valid length, so it passes the slug rules exactly when all its characters are in `[a-z0-9-]` |
| LinksService.AutoSlugNeedNotBeValid | internal/links/service.go:159-172 | the automatic slug is not held to the slug rules, and need not meet them: eight zero bytes give `AAAAAAAAAAA` |
| LinksService.PublishWrite | internal/links/repository.go:18-39 | a failed write or a form the caller does not own changes nothing. Success publishes the form with its slugs, accepts responses and evicts the ID key; the corrected variant also evicts the old and new slug keys |
| LinksService.PublishCustom | internal/links/service.go:35-47 | an invalid slug is InvalidSlug, a failed existence check returns its error, and a taken slug is SlugTaken, each before any write. Otherwise the form is published with it |
| LinksService.PublishFormAsWritten | internal/links/service.go:27-63 | as written, a successful publish deletes only the form's ID key; a failure changes nothing |
| LinksService.PublishForm | internal/links/service.go:27-63 | corrected (see Findings): a published form carries the 11-character automatic slug. A custom slug is published exactly when one was given non-empty, and it is the trimmed, valid, unused slug. InvalidSlug happens exactly for a non-empty slug whose trimming is invalid. Failures change nothing. Unlike the code as written (`PublishFormAsWritten`), it evicts the new slug keys and the form's previous slug keys |
| LinksService.ToggleWith | internal/links/service.go:66-78 | a failed write or a form the caller does not own changes nothing; success sets the flag and evicts the ID key |
| LinksService.ToggleAsWritten | internal/links/service.go:66-78 | as written, a successful toggle deletes only the ID key |
| LinksService.ToggleAcceptingResponses | internal/links/service.go:66-78 | the corrected toggle also evicts the form's slug keys |
| LinksService.Fetch | internal/links/service.go:93-124 | a read error is returned and caches nothing. Otherwise the public form carries the row's fields and is cached under the slug key and the ID key for five minutes; nothing else changes |
| LinksService.SlugRowFindsOnlyServer | internal/links/repository.go:61-77 | when exactly one live, published form has the slug as its automatic or custom slug, the slug lookup returns that form or a database failure |
| LinksService.GetPublicForm | internal/links/service.go:81-125 | a cached public form under the slug key is returned as is, and reading never changes the forms |
| LinksService.ServedFromCache | internal/links/service.go:83-90 | a second read of a slug returns the first read's form whatever the database now holds |
| LinksService.MissReads | internal/links/service.go:92-124 | a slug that is not cached is read from the database |
| LinksService.ToggleServesStale | internal/links/service.go:73-75 | as written, after a toggle, a read by slug still serves the cached form as it was |
| LinksService.ToggleRefreshes | internal/links/service.go:66-78 | with the slug keys evicted, the next read by a slug of the form goes to the database. When the slug lookup over the live forms returns this form, the read shows the new setting |
| LinksService.PublishServesOldSlug | internal/links/service.go:58-60 | as written, a republished form is still served from the cache under its old slug |
| LinksService.PublishRefreshes | internal/links/service.go:58-60 | with the corrected eviction, reads by old and new slugs go to the database |
| LinksService.FetchShowsSavedFlow | internal/links/service.go:99-105 | on a miss, a form whose flow the editor saved serves the saved tree, with trimmed questions under the generated IDs, for every row order the flow query may return |
| FlowsService.TrimQuestions | internal/flows/service.go:63 | trimming every question keeps the forest's shape and order |
| FlowsService.Assign | internal/flows/service.go:81-85 | the stored forest has one block per request block, each renamed to its generated connection ID |
| FlowsService.Items | internal/flows/service.go:117 | the flow query's rows become buildTree items one for one, in the order the query returned them |
| FlowsService.LayoutLength | internal/flows/service.go:81-97 | the walk writes one connection per block of the forest |
| FlowsService.ItemsOfLayout | internal/flows/service.go:81-97 | the rows in the order the walk writes them are the forest's pre-order flattening with parent links. This is a step of the proofs below, not the order of a read |
| FlowsService.AssignCount | internal/flows/service.go:81-97 | renaming keeps the number of blocks |
| FlowsService.AssignIds | internal/flows/service.go:81-97 | the block at pre-order position k gets the k-th generated connection ID |
| FlowsService.AssignHead | internal/flows/service.go:81-97 | the first stored block takes the first ID, and its children and the following siblings take the next IDs in pre-order |
| FlowsService.AssignDistinct | internal/flows/service.go:81-85 | generated IDs that never repeat give a stored forest with distinct IDs |
| FlowsService.AssignHeight | internal/flows/service.go:92-97 | renaming keeps the forest's height |
| FlowsService.AssignShape | internal/flows/service.go:81-97 | renaming keeps each block's type, question and nesting |
| FlowsService.SingleLayout | internal/flows/service.go:78-97 | a block writes its own connection first, with the given parent, order index and depth, and marked terminal exactly when it has no children. Then its children follow, with that connection as their parent, depth plus one, and sibling indexes from 0 |
| FlowsService.ProcessBlockLayout | internal/flows/service.go:61-100 | processBlock writes a prefix of the block's layout, and the whole layout when it succeeds |
| FlowsService.ProcessListLayout | internal/flows/service.go:93-97 | the sibling loop writes a prefix of its siblings' layouts, starting at the given order index, and all of it on success |
| FlowsService.ListLayoutNext | internal/flows/service.go:93-97 | a sibling written in full is followed by the rest at the next order index |
| FlowsService.ListLayoutStop | internal/flows/service.go:93-97 | a failing sibling stops the loop inside its own layout |
| FlowsService.LayoutSplit | internal/flows/service.go:93-97 | the layout of siblings from i on is that of sibling i followed by that of the rest |
| FlowsService.AllValidStep | internal/flows/service.go:63-66 | a list of blocks is valid exactly when each block has a non-empty trimmed question and type, and so do all its children |
| FlowsService.ProcessBlockOutcome | internal/flows/service.go:61-100 | the editor fails with InvalidInput only at an invalid block, and succeeds only on a valid tree. A valid tree with no database fault succeeds, and the clone never checks validity |
| FlowsService.ProcessListOutcome | internal/flows/service.go:93-97 | the same for a sibling list |
| FlowsService.ProcessBlockMapping | internal/flows/service.go:87-90 | a successful walk maps every non-empty client block ID, and only those; the clone leaves the mapping alone |
| FlowsService.ProcessListMapping | internal/flows/service.go:87-97 | the same for a sibling list |
| FlowsService.ProcessBlockTargets | internal/flows/service.go:87-90 | every ID the mapping gains is that of a connection the walk created |
| FlowsService.ProcessListTargets | internal/flows/service.go:87-97 | the same for a sibling list |
| FlowsService.InvalidateFlow | internal/flows/service.go:45-56 | the ID key and the keys of the slugs read back are evicted, and a failed slug read evicts only the ID key; the template list is never touched |
| FlowsService.UpdateFlow | internal/flows/service.go:22-59 | zero blocks is InvalidInput before the ownership check, and an ownership failure is returned before the old flow is deleted. A failure evicts nothing and leaves other forms' flows alone. Success happens exactly when every block is processed; it stores the planned rows, maps every client block ID to a created connection, and evicts the ID key and the non-empty slug keys. InvalidInput means an empty or invalid tree. Once the old flow is deleted, the form's flow is replaced by the rows written so far, even when a later block fails |
| FlowsService.FailedSaveDropsOldFlow | internal/flows/service.go:32-43 | the old flow is deleted before the new one is written and nothing rolls back: when the first connection insert fails, the save returns the error and the form is left with no flow at all |
| FlowsService.TrimKeepsIds | internal/flows/service.go:63 | trimming keeps client IDs, height and the block count |
| FlowsService.OrderedPermutationsAgree | internal/flows/repository.go:42 | two arrangements of the same rows agree when one is strictly increasing by (depth level, order index) and the other is ordered by that key |
| FlowsService.LayoutTopRows | internal/flows/service.go:81-97 | the rows the walk writes under the forest's own parent share one depth level and carry strictly increasing order indexes |
| FlowsService.LayoutInnerRows | internal/flows/service.go:81-97 | with distinct block IDs, the rows under any other parent are one block's children, again strictly increasing by order index at one depth |
| FlowsService.ReadKeepsChildRows | internal/flows/repository.go:42 | every read ordered by depth level and order index lists each parent's rows exactly as the walk wrote them |
| FlowsService.ReadAsWritten | internal/flows/service.go:130-153 | buildTree over any such read builds what it builds over the rows in write order, and the read has one row per stored row |
| FlowsService.SortRowsIsRead | internal/flows/repository.go:42 | sorting the stored rows by depth level and order index gives a read the query may return |
| FlowsService.ReadRoundTrip | internal/flows/service.go:117-153 | any read of a stored forest with distinct IDs, ordered by depth level and order index, built back with buildTree gives the forest, given fuel above its height |
| FlowsService.LayoutRoundTrip | internal/flows/service.go:102-153 | any read of the rows of a stored forest, ordered by depth level and order index with ties in any order, built back with buildTree gives the stored forest |
| FlowsService.PlanRoundTrip | internal/flows/service.go:22-153 | any ordered read of the rows written for a request gives back the request with trimmed questions and generated IDs |
| FlowsService.SaveThenLoad | internal/flows/service.go:22-153 | after a successful save, any read of the form's rows ordered by depth level and order index gives back the submitted tree, with trimmed questions and new IDs |
| FlowsService.LayoutRoundTripRowFuel | internal/flows/service.go:130-153 | the round trip over any ordered read also holds with fuel one more than the row count, the bound the tree reader uses |
| FlowsService.PlanRoundTripRowFuel | internal/flows/service.go:130-153 | the same for any ordered read of a request's planned rows |
| ResponsesService.CheckAnswer | internal/responses/service.go:45-63 | an answer passes exactly when its trimmed connection ID and answer text are non-empty, the ID parses as a UUID, and the connection belongs to the form |
| ResponsesService.CheckAnswersFirstFailure | internal/responses/service.go:45-63 | the answer loop passes exactly when every answer passes, and otherwise fails with the error of the first failing answer |
| ResponsesService.AllPassEvery | internal/responses/service.go:45-63 | the recursive "all answers pass" agrees with "every answer passes" |
| ResponsesService.CheckAnswersPass | internal/responses/service.go:45-63 | the loop passes exactly when every answer from the start position on passes |
| ResponsesService.CheckAnswersStop | internal/responses/service.go:45-63 | a failing loop names the first failing answer, and every answer before it passed |
| ResponsesService.RowsOf | internal/responses/service.go:72-77 | one answer row per submitted answer, in order, with the response's ID |
| ResponsesService.InsertAnswers | internal/responses/service.go:72-77 | the answer inserts stop at the first failure, with the rows before it still written |
| ResponsesService.SubmitResponse | internal/responses/service.go:19-80 | no answers, a negative total time or an empty path is InvalidInput before the form lookup. A failed lookup is FormNotFound, and a closed form is FormNotAccepting. Success happens exactly when every answer passes and every write succeeds, and it stores the response and all its answer rows. Nothing is written unless every answer passes, and a failed answer insert leaves the response and the earlier answers in place |
| ResponsesService.OfForm | internal/responses/repository.go:88-122 | the listing holds exactly the form's responses |
| ResponsesService.Page | internal/responses/repository.go:88-122 | a page has at most `size` rows, read from position `from` on |
| ResponsesService.Scanned | internal/responses/repository.go:101-115 | a row whose Scan fails is skipped and the loop goes on: the result holds exactly the rows at positions whose Scan succeeds, and is the whole page when none fails |
| ResponsesService.GetResponses | internal/responses/service.go:83-92 | a failed page query (repository.go lines 96-98) is returned as a database error; otherwise the call succeeds. The limit falls back to 10 outside 1..100 and a negative offset becomes 0. Every row returned is one of the form's responses, and when every row scans the page is exactly that window of the form's responses. A failed count query (repository.go line 119) is ignored and leaves the total at 0; otherwise the total counts every response of the form |
| ResponsesService.PagesCoverAll | internal/responses/repository.go:88-122 | reading page after page returns every row exactly once, in order |
| ResponsesService.ListingComplete | internal/responses/service.go:83-92 | pages of any accepted size, read from offset 0, list every response of the form, and with no fault the first call returns the first page and the full total |
| ResponsesService.GetResponseDetails | internal/responses/service.go:95-99 | the placeholder refuses every request with InvalidInput |
| AnalyticsRepository.UpdateStatus | internal/analytics/repository.go:49-69 | a failed statement changes nothing. Otherwise the form's row takes the status and the update time, and `calculated_at` is stamped exactly when the status is "completed"; other rows are untouched |
| AnalyticsRepository.Upsert | internal/analytics/repository.go:126-140 | the upsert keeps keys unique: the new row replaces the row with the same (form, connection) key, or is added |
| AnalyticsRepository.SaveNodeMetrics | internal/analytics/repository.go:120-144 | empty input is a no-op; otherwise the records are upserted in order until the first failure, whose error is returned with the earlier upserts kept |
| AnalyticsRepository.UpsertAllContents | internal/analytics/repository.go:120-144 | after the upserts, every written record is in the table with the write time, keys stay unique, and rows with other keys are kept |
| AnalyticsRepository.Joined | internal/analytics/repository.go:73-113 | the read returns exactly the form's rows whose connection still has a question, with its labels |
| AnalyticsRepository.Insert | internal/analytics/repository.go:90 | insertion keeps the multiset of rows |
| AnalyticsRepository.InsertSorted | internal/analytics/repository.go:90 | insertion keeps a listing sorted by decreasing visit count |
| AnalyticsRepository.SortByVisits | internal/analytics/repository.go:90 | sorting is a permutation |
| AnalyticsRepository.SortSorted | internal/analytics/repository.go:90 | the sorted listing is ordered by decreasing visit count |
| AnalyticsRepository.ReadNodeMetrics | internal/analytics/repository.go:73-113 | with every row scanning, the repository read is sorted by decreasing visit count and is a permutation of the form's joined rows: the same rows, each as often |
| AnalyticsRepository.WantedUpTo | internal/analytics/repository.go:248-295 | the IDs the first i transitions need labels for: every source, and every target that is not a drop-off |
| AnalyticsRepository.Resolve | internal/analytics/repository.go:259-285 | a label comes from the lookup, or falls back to the raw ID. It is remembered either way, including the fallback, and the lookup is queried only when the ID is not remembered |
| AnalyticsRepository.EnrichOne | internal/analytics/repository.go:252-293 | one loop iteration labels its transition and remembers its source and, unless it is a drop-off, its target |
| AnalyticsRepository.LabelledAll | internal/analytics/repository.go:248-295 | the labelled list has the input's length |
| AnalyticsRepository.LabelledAllAt | internal/analytics/repository.go:248-295 | position k of the labelled list labels input position k |
| AnalyticsRepository.EnrichFlowTransitions | internal/analytics/repository.go:240-298 | the output has the input's length and order, values and flags copied. Labels fall back to raw IDs, and a drop-off target is labelled "Drop-off" without a lookup. Each needed ID is looked up exactly once, and nothing else is looked up |
| AnalyticsService.Message | internal/analytics/service.go:49-59 | a status gets a message exactly when it is one of the four known ones; "completed" reads "Analytics are ready" |
| AnalyticsService.GetStatus | internal/analytics/service.go:34-62 | a failed read, the missing row included, is "not_started" with its message and no error; otherwise the stored status and calculation time are echoed with their message |
| AnalyticsService.CompletedIsReported | internal/analytics/service.go:34-62 | after marking a calculation completed, the next poll reports "completed", the time of the update and "Analytics are ready" |
| AnalyticsService.Converted | internal/analytics/service.go:109-123 | conversion keeps every calculated record, element by element, with no labels. The timestamp is copied from the calculator, which never sets it, so it is Go's zero time |
| AnalyticsService.GetNodeMetrics | internal/analytics/service.go:91-143 | stored metrics are returned without recalculating. A calculation error is returned, and an empty result is NoResponses with nothing saved. A save error is returned after the earlier upserts. A status-update error is ignored. On success the result is the read-back, or, when the read-back fails, the converted metrics, stamped with the zero time |
| AnalyticsService.CalculatedKeysDistinct | internal/analytics/calculators/node_calculator.go:36-108 | the calculator's records, in any order, have distinct node IDs and all carry the requested form ID, which is what the metrics save needs |
| AnalyticsService.FreshMetricsAreReturned | internal/analytics/service.go:99-142 | a fresh calculation comes back sorted by visits, with every record whose connection has a question, labelled |
| AnalyticsService.CalculatedMetricsAreReturned | internal/analytics/service.go:91-143 | with no stored metrics, the result of a fresh calculation over the form's responses is sorted by visits and shows every calculated node that has a label, with its calculated counts |
| AnalyticsService.GetAnalytics | internal/analytics/service.go:24-31 | the overview always answers that the calculation is pending |
| FormsHandler.StatusCode | internal/forms/handler.go:364-373 | the handler only answers 400, 404 or 500 |
| FormsHandler.MapServiceError | internal/forms/handler.go:364-373 | InvalidInput maps to 400 and NotFound to 404, and everything else to 500, each in both directions |
| FormsHandler.NotBlank | internal/forms/handler.go:266-267 | a title starting with a non-space character, such as "Copy of ..." followed by anything, passes the blank-title check |
| FormsHandler.CloneTemplate | internal/forms/handler.go:249-289 | a failed template read is mapped, and a failed flow read or form insert is 500, each before any write. A clone is a new form of the caller titled "Copy of " plus the template title, with the template's description, and no cache change; the response carries the RETURNING projection of the new form. The flow is copied only when the template has rows, and the clone's rows are a prefix of the replayed layout, all of it on success. A fault-free clone succeeds |
| FormsHandler.AssignTwice | internal/forms/handler.go:317-357 | renaming an already renamed forest forgets the old names |
| FormsHandler.SavedTemplateTree | internal/forms/handler.go:273-275 | the tree a clone builds from any ordered read of a flow the editor saved is that flow's stored forest |
| FormsHandler.ReplayReadsBack | internal/forms/handler.go:273-283 | replaying a saved flow, read in any order the query allows, under new connection IDs stores rows that, read again in any allowed order, give the same tree: trimmed questions, same order and nesting, new IDs |
| FormsHandler.RenumberedReadsBack | internal/forms/handler.go:317-357 | a forest stored under some IDs and laid out again under new IDs reads back as the forest under the new IDs |
| FormsHandler.CloneReadsBackAsTemplate | internal/forms/handler.go:249-289 | the clone of a template whose flow the editor saved, whatever order the two flow reads return tied rows in, reads back as that tree under the clone's own connection IDs |
| QuestionsService.Prepare | internal/questions/service.go:21-39 | a blank trimmed text is InvalidInput, checked before the type. Otherwise a type other than "question" or "option" is InvalidType. An accepted input has the trimmed text, and empty maps in place of missing rules or metadata |
| QuestionsService.PrepareIdempotent | internal/questions/service.go:21-39 | an accepted input is accepted again unchanged |
| QuestionsService.Create | internal/questions/service.go:21-39 | the repository is called, with the prepared input, exactly when the checks pass, and its answer is returned |
| QuestionsService.Update | internal/questions/service.go:56-74 | the same checks guard the update call |
| QuestionsService.ListWindow | internal/questions/service.go:45-54 | a non-positive limit becomes 10, with no upper bound, and a negative offset becomes 0 |
| PlansService.WithPlanFeatures | internal/plans/service.go:40-54 | a free plan gets 7 retention days and neither export nor full analytics, and a paid plan gets 0, true and true. The three keys override caller values, and other keys are kept |
| PlansService.PrepareCreate | internal/plans/service.go:28-54 | a request is accepted exactly when its trimmed name is non-blank and its type is free, monthly or yearly; an accepted request has the trimmed name and the forced features |
| PlansService.PrepareCreateIdempotent | internal/plans/service.go:28-54 | an accepted request is accepted again unchanged |
| PlansService.CreatePlan | internal/plans/service.go:27-57 | the repository sees only an accepted request |
| PlansService.PrepareUpdate | internal/plans/service.go:60-67 | an absent name passes, and a present one must be non-blank after trimming and is stored trimmed; other fields pass unchanged |
| PlansService.UpdatePlan | internal/plans/service.go:60-70 | the repository sees only an accepted update |
| PlansRepository.Decode | internal/plans/repository.go:82-84 | a row's features that do not decode become an empty map |
| PlansRepository.QueryError | internal/plans/repository.go:75-79 | a missing row is PlanNotFound, and every other query error is passed on |
| PlansRepository.Decimal | internal/plans/repository.go:128 | the decimal numeral of a number, as `strconv.Itoa` writes it |
| PlansRepository.Assignments | internal/plans/repository.go:126-151 | the columns an update sets are the present fields in the fixed order name, price, Razorpay ID, features, active flag; there are at most five |
| PlansRepository.AddItem | internal/plans/repository.go:126-131 | one builder step appends `, column = $k`, where k is the new argument's 1-based position, written as the single character `'0' + argCount`, and the argument |
| PlansRepository.BuildUpdate | internal/plans/repository.go:121-153 | the plan ID is argument 1 and the WHERE placeholder `$1`. Each present field is appended in the fixed order with the placeholder of its own argument position, so there are at most six arguments and the one-digit placeholder is the decimal one. With no fields, only `updated_at` is set |
| PlansRepository.ApplyUpdate | internal/plans/repository.go:121-153 | each column the request carries is replaced, and the others and the plan type are kept |
| PlansRepository.GetByID | internal/plans/repository.go:60-87 | a missing plan is PlanNotFound, and any other read error is passed on. A found plan is decoded, and soft-deleted plans are found too |
| PlansRepository.Update | internal/plans/repository.go:120-175 | a missing plan is PlanNotFound and changes nothing; success rewrites the row and returns it decoded |
| PlansRepository.Delete | internal/plans/repository.go:178-190 | zero affected rows is PlanNotFound, a statement error is passed on, and success marks the plan inactive |
| PlansRepository.UpdateThenGet | internal/plans/repository.go:60-175 | an update that went through reads back as what it returned |
| PlansRepository.UpdateTwice | internal/plans/repository.go:120-175 | repeating an update changes nothing more |
| PlansRepository.DeleteKeepsPlan | internal/plans/repository.go:60-190 | a deleted plan is still found, marked inactive, and deleting it again succeeds |
| AuthMiddleware.ParseBearerIff | internal/auth/middleware.go:12-22 | a header yields the token t exactly when it is `Bearer ` followed by t with no space in t. So an empty header, a wrong scheme, double spaces or extra parts are refused |
| AuthMiddleware.Authenticate | internal/auth/middleware.go:12-40 | every failure is Unauthorized. A success means the header is `Bearer ` plus a space-free token the validator accepted, and the request carries the token's user ID and a non-empty role |
| AuthMiddleware.AuthenticateBearer | internal/auth/middleware.go:22-37 | a well-formed header succeeds exactly when the validator accepts its token, passed verbatim, and an empty role claim becomes "user" |
| AuthMiddleware.RequireSuperAdmin | internal/auth/middleware.go:44-51 | the request passes exactly when the stored role is "super_admin"; a missing role is refused too, with Forbidden |
| AuthMiddleware.AdminGateIff | internal/auth/middleware.go:12-51 | through both guards exactly with a valid token whose role claim is "super_admin"; Unauthorized exactly when the validator refuses the token. A token without a role is an ordinary user |

## Left out

- SQL text, pgx pools, rows and transactions: each repository is an abstract map or sequence, and each statement's failure is an explicit fault argument or oracle. The exceptions are row Scan failures, which only `ResponsesService.Scanned` models; the other reads that skip such rows are listed below (`FlowsService.ReadOf`, `AnalyticsRepository.ReadNodeMetrics`).
- AnalyticsRepository.ReadNodeMetrics: the read assumes every joined row scans. `GetNodeMetrics` (internal/analytics/repository.go:105-107) skips a row whose Scan fails and goes on, so the real result can be a sub-multiset of the one stated; the model does not represent such rows.
- AnalyticsRepository.Upsert: a new row is stamped with the write time, but the INSERT branch (internal/analytics/repository.go:128-130) does not set `calculated_at`; only the ON CONFLICT branch (line 134) stamps it. The stamp on a fresh insert assumes the column defaults to the current time, and the schema is not part of this model. `UpsertAllContents` and `AnalyticsService.FreshMetricsAreReturned` rest on the same assumption.
- Buffer.Step: a negative batch size makes the worker panic at `make` (internal/responses/buffer/buffer.go:79) before it takes any event; the model does not represent the panic and treats such a size like zero.
- FlowsService.ProcessBlock: a failing question insert is one fault for the whole save (every new question fails), not a fault at one chosen position as for connection inserts; the lookup's own failure is taken to mean "not found", as the code treats it.
- FlowsService.ReadOf: the round trips assume every stored row scans. The flow repository's `GetByFormID` and the links repository's `GetFlowForPublicForm` skip a row whose Scan fails and go on; the model does not represent such rows.
- ResponsesService.SubmitResponse: the form lookup is an oracle (found or not, accepting or not) that is not tied to the forms map of the forms service.
- Goroutines, channels, the ticker and `select`: the buffer worker is a sequential event processor. The queue's `ctx.Done` branch of `Enqueue` and the races of `Close` are not modelled; the code does not guarantee that queued items survive shutdown.
- The order of Go map iteration: the calculators' results are maps, so the output slice order (unspecified in Go) is not modelled.
- NodeCalculator.CalculateMatchesReference: does not model the floating-point `AvgTimeSpent`; the integer total it is computed from is modelled.
- The ristretto cache internals: no JSON cost, admission policy or asynchronous buffers; the cache is a map with whole-second time-to-live.
- Randomness, clocks and identifiers: `crypto/rand` bytes, the current time, generated UUIDs and `uuid.Parse` are parameters.
- JWT signing and validation, bcrypt and the auth handlers: token validation is an oracle from token to optional claims.
- HTTP and fiber glue: the handlers other than the forms handler's clone, tree and error mapping; also `main.go`, `cmd/*` and the migrations.
- The forms handler's reflection-based ID extraction: a created connection simply has an ID.
- FlowTree.RoundTrip: buildTree is given fuel; the round trip is proved for fuel above the forest's height, which the row count always exceeds. Rows whose parent links form a cycle are not read back, and Go's buildTree would not terminate on them.
- FormsService.ToggleTemplate: the repository's toggle statement is not among the modelled files, so its effect is taken to be setting the flag on the form's row.
- FlowsService.UpdateFlow: `VerifyFormOwnership`, `DeleteByFormID` and the flow repository's slug read are not among the modelled files; their answers are fault arguments.
- The forms repository's listing and the questions and plans `List` and `Create` SQL: these are plain reads and inserts with no logic beyond what the services check.
- FlowsService.ReadOf: the flow repository's `GetByFormID` and the links repository's `GetFlowForPublicForm` are modelled only by their `ORDER BY depth_level, order_index`, as the set of reads they may return. `GetFlowWithQuestions`, which the editor's load and the clone use, is not among the modelled files; it is taken to order its rows the same way.
- NodeCalculator.CalculateMatchesReference: counts and the time total are unbounded integers; Go's 64-bit `int` wrap-around is not modelled, as it needs more than 2^63 visits or milliseconds.
- PlansService.PrepareCreate: the price is an unbounded integer; Go's `int` range is not modelled, and no arithmetic is done on the price.
- ResponsesService.OfForm: the listing's `ORDER BY submitted_at DESC` is not modelled; the model states which responses are listed, not their order.
- PlansService.CreatePlan: Go writes the default features into the caller's own `Features` map; the model returns a new map, so the caller's map is not changed.
- The path calculator and the path-metrics methods are placeholders with no behaviour, and `RefreshAnalytics` and `CalculateAnalytics` are empty stubs.
- The analytics summary and average computations in the analytics handler use floating point.
- ETags (SHA-256) of the forms and links handlers.

## Findings

| source | as written | input that shows it | evidently intended | confidence | as-written member | corrected member |
|---|---|---|---|---|---|---|
| internal/analytics/calculators/flow_calculator.go:44-65 | edges are keyed by the string `source + "->" + target`, and the drop-off key is `source + "->DROP_OFF"` | flow paths [A, DROP_OFF] and [A]: the real drop-off at A and the step from A to a node named DROP_OFF share one key, reported as A->DROP_OFF with value 2 and not flagged as a drop-off | one edge per (source, target) pair, the drop-off sink distinct from every node | medium, not executed; path entries are never validated | FlowEdgeKeys.DropOffIdCollision | Conservation.DropOffConservation |
| internal/forms/repository.go:72-79 | GetByID does not select `is_template`, so the service's template test is always false | renaming a cached template: the `templates:list` entry is not evicted and keeps the old title for seven days | Update and SoftDelete of a template evict the template list | high, not executed | FormsService.TemplateListStaleAfterUpdate | FormsService.Update |
| internal/links/service.go:73-75 | after a toggle, only the form's ID key is evicted | a form read by slug, then closed to responses: the next read by slug serves the cached form, still accepting | the public form read by slug shows the new setting | high, not executed | LinksService.ToggleServesStale | LinksService.ToggleRefreshes |
| internal/links/service.go:58-60 | after a publish, only the form's ID key is evicted | a form read by its old slug, then republished: the old slug still serves the cached form | reads by the form's old and new slugs go to the database | high, not executed | LinksService.PublishServesOldSlug | LinksService.PublishRefreshes |

=== FILE: analytics_example.dfy ===
/** A worked example for both path aggregators: three responses over the paths [A, B, C],
    [A, C] and [A, B], none of them with answers. */
module AnalyticsExample {
  import opened PathData
  import opened FlowCalculator
  import NodeCalculator

  function Responses(): seq<ResponseData> {
    [ResponseData("r1", ["A", "B", "C"], 0, []),
     ResponseData("r2", ["A", "C"], 0, []),
     ResponseData("r3", ["A", "B"], 0, [])]
  }

  lemma ExampleVisits()
    ensures Visits(Responses()) == ["A", "B", "C", "A", "C", "A", "B"]
  {
    var rs := Responses();
    assert rs[1..][1..] == [rs[2]] && [rs[2]][1..] == [];
  }

  /** Counting on a short path, one position at a time. */
  lemma CountOfPath(p: seq<string>, x: string)
    requires 1 <= |p| <= 3
    ensures Count(p, x) == (if p[0] == x then 1 else 0)
                         + (if |p| > 1 && p[1] == x then 1 else 0)
                         + (if |p| > 2 && p[2] == x then 1 else 0)
  {
    CountSuffixStep(p, 0, x);
    assert p[0..] == p;
    if |p| > 1 { CountSuffixStep(p, 1, x); }
    if |p| > 2 { CountSuffixStep(p, 2, x); }
    assert p[|p|..] == [];
  }

  lemma SumsOfThree(rs: seq<ResponseData>, x: string)
    requires |rs| == 3
    ensures NodeCalculator.VisitCount(rs, x) == Count(rs[0].flowPath, x) + Count(rs[1].flowPath, x) + Count(rs[2].flowPath, x)
    ensures NodeCalculator.DropOffCount(rs, x) ==
      (if EndsAt(rs[0], x) then 1 else 0) + (if EndsAt(rs[1], x) then 1 else 0) + (if EndsAt(rs[2], x) then 1 else 0)
  {
    var t := rs[1..];
    var u := t[1..];
    assert t[0] == rs[1] && u[0] == rs[2] && u[1..] == [];
    assert NodeCalculator.VisitCount(u, x) == Count(rs[2].flowPath, x);
    assert NodeCalculator.VisitCount(t, x) == Count(rs[1].flowPath, x) + Count(rs[2].flowPath, x);
    assert NodeCalculator.DropOffCount(u, x) == (if EndsAt(rs[2], x) then 1 else 0);
    assert NodeCalculator.DropOffCount(t, x) == (if EndsAt(rs[1], x) then 1 else 0) + (if EndsAt(rs[2], x) then 1 else 0);
  }

  /** The transitions are A->B: 2, A->C: 1, B->C: 1, and drop-offs at B: 1 and C: 2. */
  lemma FlowOfThreeResponses()
    ensures Calculate(Responses()) ==
      map[Edge("A", Node("B")) := 2, Edge("B", Node("C")) := 1, Edge("C", DropOff) := 2,
          Edge("A", Node("C")) := 1, Edge("B", DropOff) := 1]
  {
    var rs := Responses();
    var p1, p2, p3 := rs[0].flowPath, rs[1].flowPath, rs[2].flowPath;
    var ab, bc, cd, ac, bd := Edge("A", Node("B")), Edge("B", Node("C")), Edge("C", DropOff), Edge("A", Node("C")), Edge("B", DropOff);
    var m1 := map[ab := 1, bc := 1, cd := 1];
    assert FoldPathEdges(map[], p1, 0) == m1 by {
      assert FoldPathEdges(m1, p1, 3) == m1;
      assert FoldPathEdges(map[ab := 1, bc := 1], p1, 2) == m1;
      assert FoldPathEdges(map[ab := 1], p1, 1) == m1;
    }
    var m2 := map[ab := 1, bc := 1, cd := 2, ac := 1];
    assert FoldPathEdges(m1, p2, 0) == m2 by {
      assert FoldPathEdges(m2, p2, 2) == m2;
      assert FoldPathEdges(m1[ac := 1], p2, 1) == m2;
    }
    var m3 := map[ab := 2, bc := 1, cd := 2, ac := 1, bd := 1];
    assert FoldPathEdges(m2, p3, 0) == m3 by {
      assert FoldPathEdges(m3, p3, 2) == m3;
      assert FoldPathEdges(m2[ab := 2], p3, 1) == m3;
    }
    assert rs[1..][1..] == [rs[2]] && [rs[2]][1..] == [];
    assert FoldResponseEdges(m2, rs[1..][1..]) == m3;
    assert FoldResponseEdges(m1, rs[1..]) == m3;
  }

  lemma ExampleNodes()
    ensures (set x | x in Visits(Responses())) == {"A", "B", "C"}
  {
    ExampleVisits();
    var v := Visits(Responses());
    assert v[0] == "A" && v[1] == "B" && v[2] == "C";
  }

  /** The reference counts of one node in the example. */
  lemma ExampleCounts(x: string)
    requires x in {"A", "B", "C"}
    ensures NodeCalculator.VisitCount(Responses(), x) == (if x == "A" then 3 else 2)
    ensures NodeCalculator.DropOffCount(Responses(), x) == (if x == "A" then 0 else if x == "B" then 1 else 2)
  {
    var rs := Responses();
    var p1, p2, p3 := rs[0].flowPath, rs[1].flowPath, rs[2].flowPath;
    CountOfPath(p1, x); CountOfPath(p2, x); CountOfPath(p3, x);
    SumsOfThree(rs, x);
  }

  /** Node A is visited three times; B and C twice; one respondent stopped at B and two at C. */
  lemma NodesOfThreeResponses()
    ensures var nodes := NodeCalculator.Calculate("f", Responses());
            && nodes.Keys == {"A", "B", "C"}
            && nodes["A"].visitCount == 3 && nodes["A"].dropOffCount == 0
            && nodes["B"].visitCount == 2 && nodes["B"].dropOffCount == 1
            && nodes["C"].visitCount == 2 && nodes["C"].dropOffCount == 2
  {
    NodeCalculator.CalculateMatchesReference("f", Responses());
    ExampleNodes();
    ExampleCounts("A");
    ExampleCounts("B");
    ExampleCounts("C");
  }
}

=== FILE: analytics_repository.dfy ===
/** The analytics tables and the repository operations the service uses
    (internal/analytics/repository.go): the status row of a form, the per-node metrics rows with
    their upsert and their joined, ordered read, and the labelling of Sankey transitions. Time
    stamps are plain integers supplied by the caller. */
module AnalyticsRepository {
  import opened Wrappers
  import opened Storage
  import NodeCalculator
  import FlowCalculator

  // ---------------------------------------------------------------------------------------
  // Status rows (lines 21-69).

  /** One analytics_status row: the status text, when the calculation last completed, who
      triggered it and the update time. */
  datatype StatusRow = StatusRow(status: string, calculatedAt: Option<int>, triggeredBy: string, updatedAt: int)

  const Completed: string := "completed"

  /** UpdateStatus (lines 49-69): an UPDATE of the form's row that also stamps calculated_at
      exactly when the new status is "completed". A form without a row is left alone and no
      error is reported. */
  function UpdateStatus(rows: map<string, StatusRow>, formId: string, status: string, now: int, fault: Option<DbError>)
    : (r: (map<string, StatusRow>, Option<DbError>))
    ensures fault.Some? ==> r == (rows, fault)
    ensures fault.None? ==> r.1.None? && r.0.Keys == rows.Keys
    ensures forall id :: id in rows && id != formId ==> r.0[id] == rows[id]
    ensures fault.None? && formId in rows ==>
              && r.0[formId].status == status
              && r.0[formId].updatedAt == now
              && r.0[formId].triggeredBy == rows[formId].triggeredBy
              && (status == Completed ==> r.0[formId].calculatedAt == Some(now))
              && (status != Completed ==> r.0[formId].calculatedAt == rows[formId].calculatedAt)
  {
    if fault.Some? then (rows, fault)
    else if formId !in rows then (rows, None)
    else
      var row := rows[formId];
      var stamped := if status == Completed then Some(now) else row.calculatedAt;
      (rows[formId := row.(status := status, calculatedAt := stamped, updatedAt := now)], None)
  }

  // ---------------------------------------------------------------------------------------
  // Node metrics rows (lines 73-144).

  /** One analytics_nodes row: the integer metrics and when they were written. */
  datatype NodeRow = NodeRow(metrics: NodeCalculator.NodeMetrics, calculatedAt: int)

  /** The table's key: one row per (form, flow connection). */
  function Key(m: NodeCalculator.NodeMetrics): (string, string) {
    (m.formId, m.flowConnectionId)
  }

  predicate UniqueKeys(rows: seq<NodeRow>) {
    forall i, j :: 0 <= i < j < |rows| ==> Key(rows[i].metrics) != Key(rows[j].metrics)
  }

  /** The INSERT ... ON CONFLICT DO UPDATE of one metrics record: the row with the same key is
      overwritten, or a new row is added. */
  function Upsert(rows: seq<NodeRow>, m: NodeCalculator.NodeMetrics, now: int): (r: seq<NodeRow>)
    ensures UniqueKeys(rows) ==> UniqueKeys(r)
    ensures UniqueKeys(rows) ==> forall x :: x in r <==> x == NodeRow(m, now) || (x in rows && Key(x.metrics) != Key(m))
  {
    if |rows| == 0 then [NodeRow(m, now)]
    else if Key(rows[0].metrics) == Key(m) then
      assert UniqueKeys(rows) ==> forall x :: x in rows[1..] ==> Key(x.metrics) != Key(m) by {
        if UniqueKeys(rows) {
          forall x | x in rows[1..] ensures Key(x.metrics) != Key(m) {
            var k :| 0 <= k < |rows[1..]| && rows[1..][k] == x;
            assert rows[k + 1] == x;
          }
        }
      }
      [NodeRow(m, now)] + rows[1..]
    else [rows[0]] + Upsert(rows[1..], m, now)
  }

  function UpsertAll(rows: seq<NodeRow>, ms: seq<NodeCalculator.NodeMetrics>, now: int): seq<NodeRow>
    decreases |ms|
  {
    if |ms| == 0 then rows else UpsertAll(Upsert(rows, ms[0], now), ms[1..], now)
  }

  /** SaveNodeMetrics (lines 120-144): one upsert per record, in order; the first failing upsert
      ends the call with its error and the earlier upserts stay written. */
  function SaveNodeMetrics(rows: seq<NodeRow>, ms: seq<NodeCalculator.NodeMetrics>, now: int, failing: Option<(nat, DbError)>)
    : (r: (seq<NodeRow>, Option<DbError>))
    ensures |ms| == 0 ==> r == (rows, None)
    ensures failing.Some? && failing.value.0 < |ms| ==> r == (UpsertAll(rows, ms[..failing.value.0], now), Some(failing.value.1))
    ensures (failing.None? || failing.value.0 >= |ms|) ==> r == (UpsertAll(rows, ms, now), None)
  {
    if |ms| == 0 then (rows, None)
    else if failing.Some? && failing.value.0 < |ms| then (UpsertAll(rows, ms[..failing.value.0], now), Some(failing.value.1))
    else (UpsertAll(rows, ms, now), None)
  }

  predicate DistinctKeys(ms: seq<NodeCalculator.NodeMetrics>) {
    forall i, j :: 0 <= i < j < |ms| ==> Key(ms[i]) != Key(ms[j])
  }

  /** After the upserts, every record written is in the table with the write time, each key
      still occurs once, and a row whose key was not written is untouched. */
  lemma {:induction false} UpsertAllContents(rows: seq<NodeRow>, ms: seq<NodeCalculator.NodeMetrics>, now: int)
    requires UniqueKeys(rows) && DistinctKeys(ms)
    ensures var r := UpsertAll(rows, ms, now);
            && UniqueKeys(r)
            && (forall m :: m in ms ==> NodeRow(m, now) in r)
            && (forall x :: x in rows && (forall m :: m in ms ==> Key(m) != Key(x.metrics)) ==> x in r)
    decreases |ms|
  {
    if |ms| > 0 {
      var rows' := Upsert(rows, ms[0], now);
      assert DistinctKeys(ms[1..]) by {
        forall i, j | 0 <= i < j < |ms[1..]| ensures Key(ms[1..][i]) != Key(ms[1..][j]) {
          assert ms[1..][i] == ms[i + 1] && ms[1..][j] == ms[j + 1];
        }
      }
      UpsertAllContents(rows', ms[1..], now);
      var r := UpsertAll(rows, ms, now);
      forall m | m in ms ensures NodeRow(m, now) in r {
        if m != ms[0] {
          assert m in ms[1..];
        } else {
          forall m' | m' in ms[1..] ensures Key(m') != Key(NodeRow(m, now).metrics) {
            var k :| 0 <= k < |ms[1..]| && ms[1..][k] == m';
            assert ms[k + 1] == m';
          }
        }
      }
      forall x | x in rows && (forall m :: m in ms ==> Key(m) != Key(x.metrics)) ensures x in r {
        assert Key(ms[0]) != Key(x.metrics);
        forall m | m in ms[1..] ensures Key(m) != Key(x.metrics) {
          assert m in ms;
        }
      }
    }
  }

  // ---------------------------------------------------------------------------------------
  // The joined read (lines 73-113).

  /** A metrics record as the API returns it: the stored numbers plus the question's text and
      type (empty when not filled in). */
  datatype NodeView = NodeView(metrics: NodeCalculator.NodeMetrics, questionText: string, questionType: string, calculatedAt: int)

  /** The question text and type of each flow connection (the join of flow_connections with
      questions). */
  type Labels = map<string, (string, string)>

  predicate Joins(x: NodeRow, formId: string, labels: Labels) {
    x.metrics.formId == formId && x.metrics.flowConnectionId in labels
  }

  function ViewOf(x: NodeRow, labels: Labels): NodeView
    requires x.metrics.flowConnectionId in labels
  {
    var l := labels[x.metrics.flowConnectionId];
    NodeView(x.metrics, l.0, l.1, x.calculatedAt)
  }

  /** The rows of one form whose connection still exists, with their labels, in table order. */
  function Joined(rows: seq<NodeRow>, formId: string, labels: Labels): (r: seq<NodeView>)
    ensures forall v :: v in r <==> exists x :: x in rows && Joins(x, formId, labels) && v == ViewOf(x, labels)
    ensures |r| <= |rows|
  {
    if |rows| == 0 then []
    else
      var rest := Joined(rows[1..], formId, labels);
      assert forall x :: x in rows <==> x == rows[0] || x in rows[1..];
      if Joins(rows[0], formId, labels) then [ViewOf(rows[0], labels)] + rest else rest
  }

  predicate SortedByVisits(vs: seq<NodeView>) {
    forall i, j :: 0 <= i < j < |vs| ==> vs[i].metrics.visitCount >= vs[j].metrics.visitCount
  }

  function Insert(v: NodeView, vs: seq<NodeView>): (r: seq<NodeView>)
    ensures multiset(r) == multiset(vs) + multiset{v}
  {
    if |vs| == 0 || v.metrics.visitCount >= vs[0].metrics.visitCount then [v] + vs
    else
      assert vs == [vs[0]] + vs[1..];
      [vs[0]] + Insert(v, vs[1..])
  }

  /** A row followed by a sorted listing of rows visited at most as often is sorted. */
  lemma SortedCons(v: NodeView, vs: seq<NodeView>)
    requires SortedByVisits(vs)
    requires forall x :: x in vs ==> x.metrics.visitCount <= v.metrics.visitCount
    ensures SortedByVisits([v] + vs)
  {
    var r := [v] + vs;
    forall i, j | 0 <= i < j < |r| ensures r[i].metrics.visitCount >= r[j].metrics.visitCount {
      if i == 0 {
        assert r[j] in vs;
      } else {
        assert r[i] == vs[i - 1] && r[j] == vs[j - 1];
      }
    }
  }

  lemma {:induction false} InsertSorted(v: NodeView, vs: seq<NodeView>)
    requires SortedByVisits(vs)
    ensures SortedByVisits(Insert(v, vs))
  {
    if |vs| == 0 {
    } else if v.metrics.visitCount >= vs[0].metrics.visitCount {
      forall x | x in vs ensures x.metrics.visitCount <= v.metrics.visitCount {
        var k :| 0 <= k < |vs| && vs[k] == x;
        assert k == 0 || vs[0].metrics.visitCount >= vs[k].metrics.visitCount;
      }
      SortedCons(v, vs);
    } else {
      var tail := vs[1..];
      assert SortedByVisits(tail) by {
        forall i, j | 0 <= i < j < |tail| ensures tail[i].metrics.visitCount >= tail[j].metrics.visitCount {
          assert tail[i] == vs[i + 1] && tail[j] == vs[j + 1];
        }
      }
      InsertSorted(v, tail);
      var rest := Insert(v, tail);
      forall x | x in rest ensures x.metrics.visitCount <= vs[0].metrics.visitCount {
        assert x in multiset(rest);
        if x != v {
          assert x in multiset(tail);
          var k :| 0 <= k < |tail| && tail[k] == x;
          assert vs[k + 1] == x;
        }
      }
      SortedCons(vs[0], rest);
    }
  }

  /** ORDER BY visit_count DESC; rows with equal counts may come in any order, and this model
      picks one. */
  function SortByVisits(vs: seq<NodeView>): (r: seq<NodeView>)
    ensures multiset(r) == multiset(vs)
  {
    if |vs| == 0 then [] else
      assert vs == [vs[0]] + vs[1..];
      Insert(vs[0], SortByVisits(vs[1..]))
  }

  lemma {:induction false} SortSorted(vs: seq<NodeView>)
    ensures SortedByVisits(SortByVisits(vs))
  {
    if |vs| > 0 {
      SortSorted(vs[1..]);
      InsertSorted(vs[0], SortByVisits(vs[1..]));
    }
  }

  /** GetNodeMetrics of the repository: the form's rows that join to a question, most visited
      first. */
  function ReadNodeMetrics(rows: seq<NodeRow>, formId: string, labels: Labels): (r: seq<NodeView>)
    ensures SortedByVisits(r)
    ensures multiset(r) == multiset(Joined(rows, formId, labels))
    ensures forall v :: v in r <==> exists x :: x in rows && Joins(x, formId, labels) && v == ViewOf(x, labels)
  {
    var j := Joined(rows, formId, labels);
    var r := SortByVisits(j);
    SortSorted(j);
    assert forall v :: v in r <==> v in multiset(r);
    assert forall v :: v in j <==> v in multiset(j);
    r
  }

  // ---------------------------------------------------------------------------------------
  // Transition labels (lines 240-298).

  /** A Sankey transition with display labels. */
  datatype LabelledTransition = LabelledTransition(source: string, target: string, value: nat)

  const DropOffLabel: string := "Drop-off"

  /** The label of a node: its question text, or the node ID when the lookup fails. */
  function Label(lookup: string -> Option<string>, id: string): string {
    lookup(id).GetOr(id)
  }

  /** A transition with the labels of its source and target; the drop-off sink keeps its fixed
      label. */
  function Labelled(lookup: string -> Option<string>, t: FlowCalculator.FlowTransition): LabelledTransition {
    LabelledTransition(Label(lookup, t.sourceId), if t.isDropOff then DropOffLabel else Label(lookup, t.targetId), t.value)
  }

  /** The node IDs a transition needs labels for: its source, and its target unless it is the
      drop-off sink. */
  predicate NeedsLabel(t: FlowCalculator.FlowTransition, id: string) {
    id == t.sourceId || (!t.isDropOff && id == t.targetId)
  }

  /** The IDs the first `i` transitions need labels for. */
  function WantedUpTo(ts: seq<FlowCalculator.FlowTransition>, i: nat): (ids: set<string>)
    requires i <= |ts|
    ensures forall id :: id in ids <==> exists k :: 0 <= k < i && NeedsLabel(ts[k], id)
  {
    if i == 0 then {}
    else
      var t := ts[i - 1];
      WantedUpTo(ts, i - 1) + {t.sourceId} + (if t.isDropOff then {} else {t.targetId})
  }

  /** The remembered labels of one call: exactly the IDs looked up so far, each once, with
      the label the lookup gave. */
  ghost predicate Memo(lookup: string -> Option<string>, memo: map<string, string>, queried: seq<string>) {
    && (forall id :: id in memo <==> id in queried)
    && (forall id :: id in memo ==> memo[id] == Label(lookup, id))
    && (forall a, b :: 0 <= a < b < |queried| ==> queried[a] != queried[b])
  }

  /** The label of `id`, looked up only when it is not remembered yet. */
  function Resolve(lookup: string -> Option<string>, memo: map<string, string>, queried: seq<string>, id: string)
    : (r: (string, map<string, string>, seq<string>))
    requires Memo(lookup, memo, queried)
    ensures Memo(lookup, r.1, r.2)
    ensures r.0 == Label(lookup, id)
    ensures r.1.Keys == memo.Keys + {id}
    ensures id in memo ==> r.2 == queried
    ensures id !in memo ==> r.2 == queried + [id]
  {
    if id in memo then (memo[id], memo, queried)
    else
      var text := Label(lookup, id);
      (text, memo[id := text], queried + [id])
  }

  /** EnrichFlowTransitions: the output lists the input transitions in order with their labels
      and unchanged values; the lookups made are exactly the IDs some transition needs, each
      once, a failed lookup included (its fallback is remembered). */
  method EnrichFlowTransitions(ts: seq<FlowCalculator.FlowTransition>, lookup: string -> Option<string>)
    returns (out: seq<LabelledTransition>, queried: seq<string>)
    ensures |out| == |ts|
    ensures forall i :: 0 <= i < |ts| ==>
              out[i] == LabelledTransition(Label(lookup, ts[i].sourceId),
                                           if ts[i].isDropOff then DropOffLabel else Label(lookup, ts[i].targetId),
                                           ts[i].value)
    ensures forall i, j :: 0 <= i < j < |queried| ==> queried[i] != queried[j]
    ensures forall id :: id in queried <==> exists i :: 0 <= i < |ts| && NeedsLabel(ts[i], id)
  {
    out, queried := [], [];
    if |ts| == 0 {
      return;
    }
    var memo: map<string, string> := map[];
    var i := 0;
    while i < |ts|
      invariant 0 <= i <= |ts| && |out| == i
      invariant out == LabelledAll(lookup, ts[..i])
      invariant memo.Keys == WantedUpTo(ts, i)
      invariant Memo(lookup, memo, queried)
    {
      var r := EnrichOne(lookup, memo, queried, ts[i]);
      assert ts[..i + 1][..i] == ts[..i];
      out, memo, queried := out + [r.0], r.1, r.2;
      i := i + 1;
    }
    assert ts[..i] == ts;
    LabelledAllAt(lookup, ts);
  }

  /** The labelled transitions of `ts`, in order. */
  function LabelledAll(lookup: string -> Option<string>, ts: seq<FlowCalculator.FlowTransition>): (r: seq<LabelledTransition>)
    ensures |r| == |ts|
  {
    if |ts| == 0 then [] else LabelledAll(lookup, ts[..|ts| - 1]) + [Labelled(lookup, ts[|ts| - 1])]
  }

  lemma {:induction false} LabelledAllAt(lookup: string -> Option<string>, ts: seq<FlowCalculator.FlowTransition>)
    ensures forall k :: 0 <= k < |ts| ==> LabelledAll(lookup, ts)[k] == Labelled(lookup, ts[k])
  {
    if |ts| > 0 {
      var init := ts[..|ts| - 1];
      LabelledAllAt(lookup, init);
      forall k | 0 <= k < |ts| ensures LabelledAll(lookup, ts)[k] == Labelled(lookup, ts[k]) {
        if k < |ts| - 1 {
          assert LabelledAll(lookup, ts)[k] == LabelledAll(lookup, init)[k];
          assert ts[k] == init[k];
        }
      }
    }
  }

  /** One iteration of the loop: the labels of transition `t`, looked up through the memo. */
  function EnrichOne(lookup: string -> Option<string>, memo: map<string, string>, queried: seq<string>,
                     t: FlowCalculator.FlowTransition)
    : (r: (LabelledTransition, map<string, string>, seq<string>))
    requires Memo(lookup, memo, queried)
    ensures Memo(lookup, r.1, r.2)
    ensures r.0 == Labelled(lookup, t)
    ensures r.1.Keys == memo.Keys + {t.sourceId} + (if t.isDropOff then {} else {t.targetId})
  {
    var s := Resolve(lookup, memo, queried, t.sourceId);
    if t.isDropOff then (LabelledTransition(s.0, DropOffLabel, t.value), s.1, s.2)
    else
      var g := Resolve(lookup, s.1, s.2, t.targetId);
      (LabelledTransition(s.0, g.0, t.value), g.1, g.2)
  }
}

=== FILE: analytics_service.dfy ===
/** The analytics service (internal/analytics/service.go): the status poll, the node metrics
    read-through (stored metrics, or calculate, save and read back), and the overview, which is
    not implemented yet and always reports a pending calculation. */
module AnalyticsService {
  import opened Wrappers
  import opened Storage
  import NodeCalculator
  import PathData
  import opened AnalyticsRepository

  datatype AnalyticsError = NoResponses | CalculationPending | Db(cause: DbError)

  /** The analytics tables and the question labels of the flow connections. */
  datatype AnalyticsDb = AnalyticsDb(status: map<string, StatusRow>, nodes: seq<NodeRow>, labels: Labels)

  // ---------------------------------------------------------------------------------------
  // GetStatus (lines 34-60).

  datatype StatusResponse = StatusResponse(status: string, calculatedAt: Option<int>, message: string)

  const NotStarted: string := "not_started"

  /** The message shown for a stored status; statuses outside the four known ones get none. */
  function Message(status: string): (m: string)
    ensures m != "" <==> status in {"calculating", Completed, "failed", "pending"}
    ensures status == Completed ==> m == "Analytics are ready"
  {
    match status
    case "calculating" => "Analytics calculation in progress"
    case "completed" => "Analytics are ready"
    case "failed" => "Analytics calculation failed"
    case "pending" => "Analytics calculation queued"
    case _ => ""
  }

  /** A failed read, the missing row included, is reported as "not started" and not as an
      error; otherwise the stored status is echoed with its message. */
  function GetStatus(rows: map<string, StatusRow>, formId: string, fault: Option<DbError>): (r: StatusResponse)
    ensures fault.Some? || formId !in rows ==>
              r == StatusResponse(NotStarted, None, "Analytics have not been calculated yet")
    ensures fault.None? && formId in rows ==>
              && r.status == rows[formId].status
              && r.calculatedAt == rows[formId].calculatedAt
              && r.message == Message(rows[formId].status)
  {
    if fault.Some? || formId !in rows then StatusResponse(NotStarted, None, "Analytics have not been calculated yet")
    else StatusResponse(rows[formId].status, rows[formId].calculatedAt, Message(rows[formId].status))
  }

  /** Marking a form's calculation completed is what the next poll reports, with the time of
      the update. */
  lemma CompletedIsReported(rows: map<string, StatusRow>, formId: string, now: int)
    requires formId in rows
    ensures GetStatus(UpdateStatus(rows, formId, Completed, now, None).0, formId, None)
              == StatusResponse(Completed, Some(now), "Analytics are ready")
  {
  }

  // ---------------------------------------------------------------------------------------
  // GetNodeMetrics (lines 90-143).

  /** Which of the repository calls fail: the first read, an upsert (by position), the status
      update and the read-back. */
  datatype MetricsFaults = MetricsFaults(
    firstRead: Option<DbError>,
    save: Option<(nat, DbError)>,
    status: Option<DbError>,
    readBack: Option<DbError>)

  /** Go's zero time.Time (January 1 of year 1, UTC) in Unix seconds. The node calculator
      never sets its records' CalculatedAt, so a record copied from it carries this time. */
  const ZeroTime: int := -62135596800

  /** The calculator's records as the API returns them when the read-back fails (lines
      111-123): each record's counts copied, no question labels, and the calculator's unset
      calculation time. */
  function Converted(ms: seq<NodeCalculator.NodeMetrics>): (vs: seq<NodeView>)
    ensures |vs| == |ms|
    ensures forall i :: 0 <= i < |ms| ==>
              && vs[i].metrics == ms[i] && vs[i].calculatedAt == ZeroTime
              && vs[i].questionText == "" && vs[i].questionType == ""
  {
    if |ms| == 0 then [] else [NodeView(ms[0], "", "", ZeroTime)] + Converted(ms[1..])
  }

  /** `ms` is the slice the calculator returns for the map `r` (node_calculator.go lines
      98-105): each of the map's records once, in Go's unspecified map order. */
  predicate ValuesOf(ms: seq<NodeCalculator.NodeMetrics>, r: map<string, NodeCalculator.NodeMetrics>) {
    && (forall i :: 0 <= i < |ms| ==> ms[i].flowConnectionId in r && r[ms[i].flowConnectionId] == ms[i])
    && (forall i, j :: 0 <= i < j < |ms| ==> ms[i].flowConnectionId != ms[j].flowConnectionId)
    && (forall n :: n in r ==> r[n] in ms)
  }

  /** The calculator's slice for a form has one record per connection, all of that form. */
  lemma CalculatedKeysDistinct(formId: string, rs: seq<PathData.ResponseData>, ms: seq<NodeCalculator.NodeMetrics>)
    requires ValuesOf(ms, NodeCalculator.Calculate(formId, rs))
    ensures DistinctKeys(ms)
    ensures forall m :: m in ms ==> m.formId == formId
  {
    NodeCalculator.CalculateMatchesReference(formId, rs);
  }

  predicate HasStored(db: AnalyticsDb, formId: string, faults: MetricsFaults) {
    faults.firstRead.None? && |ReadNodeMetrics(db.nodes, formId, db.labels)| > 0
  }

  /** GetNodeMetrics. `calculated` is the calculator's answer (NodeCalculator.Calculate over the
      form's responses, or the error of fetching them); `now` is the write time. */
  function GetNodeMetrics(db: AnalyticsDb, formId: string, calculated: Result<seq<NodeCalculator.NodeMetrics>, DbError>,
                          faults: MetricsFaults, now: int): (r: (AnalyticsDb, Result<seq<NodeView>, AnalyticsError>))
    ensures HasStored(db, formId, faults) ==> r == (db, Ok(ReadNodeMetrics(db.nodes, formId, db.labels)))
    ensures !HasStored(db, formId, faults) && calculated.Err? ==> r == (db, Err(Db(calculated.error)))
    ensures !HasStored(db, formId, faults) && calculated.Ok? && |calculated.value| == 0 ==> r == (db, Err(NoResponses))
    ensures r.1.Err? && r.1.error.Db? && calculated.Ok? && |calculated.value| > 0 ==>
              && faults.save.Some? && faults.save.value.0 < |calculated.value|
              && r.0 == db.(nodes := UpsertAll(db.nodes, calculated.value[..faults.save.value.0], now))
    ensures r.0.labels == db.labels && r.0.status.Keys == db.status.Keys
    ensures r.0.status != db.status ==> r.1.Ok? && faults.status.None? && formId in db.status
    ensures r.1.Ok? && !HasStored(db, formId, faults) ==>
              && calculated.Ok? && |calculated.value| > 0
              && r.0.nodes == UpsertAll(db.nodes, calculated.value, now)
              && (formId in db.status && faults.status.None? ==>
                    r.0.status[formId].status == Completed && r.0.status[formId].calculatedAt == Some(now))
              && r.1.value == (if faults.readBack.Some? then Converted(calculated.value)
                               else ReadNodeMetrics(r.0.nodes, formId, db.labels))
  {
    if HasStored(db, formId, faults) then (db, Ok(ReadNodeMetrics(db.nodes, formId, db.labels)))
    else if calculated.Err? then (db, Err(Db(calculated.error)))
    else if |calculated.value| == 0 then (db, Err(NoResponses))
    else
      var ms := calculated.value;
      var (nodes, err) := SaveNodeMetrics(db.nodes, ms, now, faults.save);
      if err.Some? then (db.(nodes := nodes), Err(Db(err.value)))
      else
        var status := UpdateStatus(db.status, formId, Completed, now, faults.status).0;
        var db' := db.(nodes := nodes, status := status);
        if faults.readBack.Some? then (db', Ok(Converted(ms)))
        else (db', Ok(ReadNodeMetrics(nodes, formId, db.labels)))
  }

  /** A fresh calculation is what the read-back returns: every calculated record whose
      connection still has a question comes back with that question's text and type, most
      visited first. */
  lemma FreshMetricsAreReturned(db: AnalyticsDb, formId: string, ms: seq<NodeCalculator.NodeMetrics>, faults: MetricsFaults, now: int)
    requires UniqueKeys(db.nodes) && DistinctKeys(ms)
    requires forall m :: m in ms ==> m.formId == formId
    requires GetNodeMetrics(db, formId, Ok(ms), faults, now).1.Ok?
    requires !HasStored(db, formId, faults) && faults.readBack.None?
    ensures var vs := GetNodeMetrics(db, formId, Ok(ms), faults, now).1.value;
            && SortedByVisits(vs)
            && forall m :: m in ms && m.flowConnectionId in db.labels ==>
                 NodeView(m, db.labels[m.flowConnectionId].0, db.labels[m.flowConnectionId].1, now) in vs
  {
    var nodes := UpsertAll(db.nodes, ms, now);
    UpsertAllContents(db.nodes, ms, now);
    forall m | m in ms && m.flowConnectionId in db.labels
      ensures NodeView(m, db.labels[m.flowConnectionId].0, db.labels[m.flowConnectionId].1, now)
                in ReadNodeMetrics(nodes, formId, db.labels)
    {
      var x := NodeRow(m, now);
      assert x in nodes && Joins(x, formId, db.labels);
      assert ViewOf(x, db.labels) == NodeView(m, db.labels[m.flowConnectionId].0, db.labels[m.flowConnectionId].1, now);
    }
  }

  /** The same for the calculator's own answer: after a fresh calculation from the form's
      responses the read-back holds, for every node on some response's path whose connection
      has a question, the node's record with that question's text and type, most visited
      first. */
  lemma CalculatedMetricsAreReturned(db: AnalyticsDb, formId: string, rs: seq<PathData.ResponseData>,
                                     ms: seq<NodeCalculator.NodeMetrics>, faults: MetricsFaults, now: int)
    requires ValuesOf(ms, NodeCalculator.Calculate(formId, rs))
    requires UniqueKeys(db.nodes)
    requires GetNodeMetrics(db, formId, Ok(ms), faults, now).1.Ok?
    requires !HasStored(db, formId, faults) && faults.readBack.None?
    ensures var vs := GetNodeMetrics(db, formId, Ok(ms), faults, now).1.value;
            var r := NodeCalculator.Calculate(formId, rs);
            && SortedByVisits(vs)
            && forall n :: n in r && n in db.labels ==>
                 NodeView(r[n], db.labels[n].0, db.labels[n].1, now) in vs
  {
    var r := NodeCalculator.Calculate(formId, rs);
    CalculatedKeysDistinct(formId, rs, ms);
    FreshMetricsAreReturned(db, formId, ms, faults, now);
    NodeCalculator.CalculateMatchesReference(formId, rs);
    forall n | n in r && n in db.labels
      ensures r[n] in ms && r[n].flowConnectionId == n
    {
    }
  }

  // ---------------------------------------------------------------------------------------
  // GetAnalytics (lines 24-31).

  datatype Overview = Overview(formId: string, totalResponses: nat, nodeMetrics: seq<NodeView>)

  /** The overview is a placeholder: every request is told the calculation is pending. */
  function GetAnalytics(formId: string, userId: string): (r: Result<Overview, AnalyticsError>)
    ensures r == Err(CalculationPending)
  {
    Err(CalculationPending)
  }
}

=== FILE: auth_middleware.dfy ===
/** The two request guards in front of the protected routes: the bearer-token check that puts the
    caller's user id and role on the request, and the super-admin gate on the plan-management
    routes. Token validation itself (JWT signature and expiry) is an oracle. */
module AuthMiddleware {
  import opened Wrappers
  import Text

  datatype AuthError = Unauthorized | Forbidden

  /** What a valid access token carries; `role` is empty in tokens issued before roles existed. */
  datatype Claims = Claims(userId: string, role: string)

  /** What the guard stores on the request for the handlers behind it. */
  datatype Principal = Principal(userId: string, role: string)

  const BearerPrefix: string := "Bearer "
  const DefaultRole: string := "user"
  const SuperAdminRole: string := "super_admin"

  /** The token of an `Authorization` header: the header must split on single spaces into exactly
      the word `Bearer` and one more part. */
  function ParseBearer(header: string): Option<string> {
    if header == "" then None
    else
      var parts := Text.Split(header, ' ');
      if |parts| != 2 || parts[0] != "Bearer" then None else Some(parts[1])
  }

  /** The header is accepted exactly when it is `Bearer ` followed by a token without spaces
      (the token may be empty; the validator then rejects it). */
  lemma ParseBearerIff(header: string, t: string)
    ensures ParseBearer(header) == Some(t) <==> header == BearerPrefix + t && ' ' !in t
  {
    assert BearerPrefix == "Bearer" + [' '];
    if ParseBearer(header) == Some(t) {
      var parts := Text.Split(header, ' ');
      assert parts[1..] == [t];
      assert Text.Join(parts, ' ') == "Bearer" + [' '] + t;
    }
    if header == BearerPrefix + t && ' ' !in t {
      assert ' ' !in "Bearer";
      Text.SplitAtSeparator("Bearer", ' ', t);
      Text.SplitWithoutSeparator(t, ' ');
    }
  }

  /** JWTAuthMiddleware: a missing or malformed header and a token the validator rejects are all
      Unauthorized; otherwise the claims' user id and role go on the request, an empty role
      read as the default role. */
  function Authenticate(header: string, validate: string -> Option<Claims>): (r: Result<Principal, AuthError>)
    ensures r.Err? ==> r.error == Unauthorized
    ensures r.Ok? ==> |header| >= |BearerPrefix| && header[..|BearerPrefix|] == BearerPrefix
                      && ' ' !in header[|BearerPrefix|..]
                      && validate(header[|BearerPrefix|..]).Some?
                      && r.value.userId == validate(header[|BearerPrefix|..]).value.userId
    ensures r.Ok? ==> r.value.role != ""
  {
    match ParseBearer(header)
    case None => Err(Unauthorized)
    case Some(t) =>
      ParseBearerIff(header, t);
      assert header[|BearerPrefix|..] == t;
      match validate(t)
      case None => Err(Unauthorized)
      case Some(c) => Ok(Principal(c.userId, if c.role == "" then DefaultRole else c.role))
  }

  /** A well-formed bearer header is decided by the validator alone. */
  lemma AuthenticateBearer(t: string, validate: string -> Option<Claims>)
    requires ' ' !in t
    ensures var r := Authenticate(BearerPrefix + t, validate);
            && (r.Ok? <==> validate(t).Some?)
            && (r.Ok? ==> r.value.userId == validate(t).value.userId
                          && (validate(t).value.role != "" ==> r.value.role == validate(t).value.role)
                          && (validate(t).value.role == "" ==> r.value.role == DefaultRole))
  {
    ParseBearerIff(BearerPrefix + t, t);
  }

  /** RequireSuperAdmin: the request passes only when the stored role is the super-admin role;
      a request without a stored role is refused too. */
  function RequireSuperAdmin(role: Option<string>): (r: Option<AuthError>)
    ensures r.None? <==> role == Some(SuperAdminRole)
    ensures r.Some? ==> r.value == Forbidden
  {
    if role.None? || role.value != SuperAdminRole then Some(Forbidden) else None
  }

  /** The plan-management routes run both guards in turn. */
  function AdminGate(header: string, validate: string -> Option<Claims>): Option<AuthError> {
    match Authenticate(header, validate)
    case Err(e) => Some(e)
    case Ok(p) => RequireSuperAdmin(Some(p.role))
  }

  /** Through both guards exactly with a valid bearer token whose claims name the super-admin
      role; a token without a role is an ordinary user. */
  lemma AdminGateIff(t: string, validate: string -> Option<Claims>)
    requires ' ' !in t
    ensures AdminGate(BearerPrefix + t, validate).None?
            <==> validate(t).Some? && validate(t).value.role == SuperAdminRole
    ensures AdminGate(BearerPrefix + t, validate) == Some(Unauthorized) <==> validate(t).None?
  {
    AuthenticateBearer(t, validate);
  }
}

=== FILE: base64url.dfy ===
/** The URL- and filename-safe base64 alphabet of section 5 of RFC 4648, with the `=` padding
    of section 4, as Go's `base64.URLEncoding` produces it. */
module Base64Url {

  type Byte = x: int | 0 <= x < 256

  const Pad: char := '='

  predicate InAlphabet(c: char) {
    ('A' <= c <= 'Z') || ('a' <= c <= 'z') || ('0' <= c <= '9') || c == '-' || c == '_'
  }

  /** Section 5, table 2: values 0-25 are `A`-`Z`, 26-51 `a`-`z`, 52-61 `0`-`9`, then `-` and `_`. */
  function Char(v: nat): (c: char)
    requires v < 64
    ensures InAlphabet(c)
  {
    if v < 26 then ('A' as int + v) as char
    else if v < 52 then ('a' as int + v - 26) as char
    else if v < 62 then ('0' as int + v - 52) as char
    else if v == 62 then '-'
    else '_'
  }

  /** The value of an alphabet character. */
  function Value(c: char): (v: nat)
    requires InAlphabet(c)
    ensures v < 64 && Char(v) == c
  {
    if 'A' <= c <= 'Z' then c as int - 'A' as int
    else if 'a' <= c <= 'z' then c as int - 'a' as int + 26
    else if '0' <= c <= '9' then c as int - '0' as int + 52
    else if c == '-' then 62
    else 63
  }

  lemma ValueOfChar(v: nat)
    requires v < 64
    ensures Value(Char(v)) == v
  {
  }

  /** One quantum of section 4: the 24 bits of up to three bytes (missing ones as zero bits)
      as four 6-bit characters, a character that carries no input bit replaced by padding. */
  function EncodeQuantum(b: seq<Byte>): (s: string)
    requires 1 <= |b| <= 3
    ensures |s| == 4
  {
    var b1 := if |b| > 1 then b[1] else 0;
    var b2 := if |b| > 2 then b[2] else 0;
    [Char(b[0] / 4), Char(b[0] % 4 * 16 + b1 / 16)]
    + (if |b| > 1 then [Char(b1 % 16 * 4 + b2 / 64)] else [Pad])
    + (if |b| > 2 then [Char(b2 % 64)] else [Pad])
  }

  /** `EncodeToString`: whole quanta, the last one padded. */
  function Encode(b: seq<Byte>): (s: string)
    ensures |s| == 4 * ((|b| + 2) / 3)
    decreases |b|
  {
    if |b| == 0 then []
    else if |b| <= 3 then EncodeQuantum(b)
    else
      assert (|b[3..]| + 2) / 3 + 1 == (|b| + 2) / 3;
      EncodeQuantum(b[..3]) + Encode(b[3..])
  }

  /** Four characters back to the bytes they encode. */
  function DecodeQuantum(s: string): seq<Byte>
    requires |s| == 4 && InAlphabet(s[0]) && InAlphabet(s[1])
    requires s[2] == Pad || InAlphabet(s[2])
    requires s[3] == Pad || InAlphabet(s[3])
  {
    var v0 := Value(s[0]);
    var v1 := Value(s[1]);
    var v2 := if s[2] == Pad then 0 else Value(s[2]);
    var v3 := if s[3] == Pad then 0 else Value(s[3]);
    [v0 * 4 + v1 / 16]
    + (if s[2] != Pad then [v1 % 16 * 16 + v2 / 4] else [])
    + (if s[2] != Pad && s[3] != Pad then [v2 % 4 * 64 + v3] else [])
  }

  /** Whether every quantum of `s` is well formed: two alphabet characters, then alphabet
      characters or padding, padding only at the end. */
  predicate WellFormed(s: string)
    decreases |s|
  {
    && |s| % 4 == 0
    && (|s| == 0 ||
         (&& InAlphabet(s[0]) && InAlphabet(s[1])
          && (s[2] == Pad || InAlphabet(s[2]))
          && (s[3] == Pad || InAlphabet(s[3]))
          && (s[2] == Pad ==> s[3] == Pad)
          && (|s| > 4 ==> s[3] != Pad && WellFormed(s[4..]))))
  }

  function Decode(s: string): seq<Byte>
    requires WellFormed(s)
    decreases |s|
  {
    if |s| == 0 then [] else DecodeQuantum(s[..4]) + Decode(s[4..])
  }

  /** The four 6-bit values of three bytes, and the bytes recomputed from them. */
  lemma Sextets(b0: nat, b1: nat, b2: nat)
    requires b0 < 256 && b1 < 256 && b2 < 256
    ensures var v0, v1, v2, v3 := b0 / 4, b0 % 4 * 16 + b1 / 16, b1 % 16 * 4 + b2 / 64, b2 % 64;
            && v0 < 64 && v1 < 64 && v2 < 64 && v3 < 64
            && v0 * 4 + v1 / 16 == b0
            && v1 % 16 * 16 + v2 / 4 == b1
            && v2 % 4 * 64 + v3 == b2
  {
    var q1, r1 := b0 % 4, b1 / 16;
    assert (q1 * 16 + r1) / 16 == q1 && (q1 * 16 + r1) % 16 == r1;
    var q2, r2 := b1 % 16, b2 / 64;
    assert (q2 * 4 + r2) / 4 == q2 && (q2 * 4 + r2) % 4 == r2;
  }

  lemma QuantumRoundTrip(b: seq<Byte>)
    requires 1 <= |b| <= 3
    ensures var s := EncodeQuantum(b);
            && InAlphabet(s[0]) && InAlphabet(s[1])
            && (s[2] == Pad <==> |b| == 1) && (s[3] == Pad <==> |b| < 3)
            && (s[2] != Pad ==> InAlphabet(s[2])) && (s[3] != Pad ==> InAlphabet(s[3]))
            && DecodeQuantum(s) == b
  {
    var b1 := if |b| > 1 then b[1] else 0;
    var b2 := if |b| > 2 then b[2] else 0;
    Sextets(b[0], b1, b2);
    var v0, v1, v2, v3 := b[0] / 4, b[0] % 4 * 16 + b1 / 16, b1 % 16 * 4 + b2 / 64, b2 % 64;
    ValueOfChar(v0);
    ValueOfChar(v1);
    ValueOfChar(v2);
    ValueOfChar(v3);
    var s := EncodeQuantum(b);
    assert s[0] == Char(v0) && s[1] == Char(v1);
    assert |b| > 1 ==> s[2] == Char(v2);
    assert |b| > 2 ==> s[3] == Char(v3);
  }

  /** A full quantum in front of well-formed text decodes on its own. */
  lemma DecodeCons(q: string, t: string)
    requires |q| == 4 && InAlphabet(q[0]) && InAlphabet(q[1]) && InAlphabet(q[2]) && InAlphabet(q[3])
    requires WellFormed(t) && |t| > 0
    ensures WellFormed(q + t) && Decode(q + t) == DecodeQuantum(q) + Decode(t)
  {
    var s := q + t;
    assert s[..4] == q && s[4..] == t;
    assert s[0] == q[0] && s[1] == q[1] && s[2] == q[2] && s[3] == q[3];
    WellFormedCons(s);
  }

  lemma WellFormedCons(s: string)
    requires |s| > 4 && InAlphabet(s[0]) && InAlphabet(s[1]) && InAlphabet(s[2]) && InAlphabet(s[3])
    requires WellFormed(s[4..])
    ensures WellFormed(s)
  {
    assert |s| % 4 == 0 by {
      assert |s[4..]| % 4 == 0;
    }
  }

  /** Decoding undoes encoding (sections 4 and 5 of RFC 4648). */
  lemma {:induction false} DecodeEncode(b: seq<Byte>)
    ensures WellFormed(Encode(b)) && Decode(Encode(b)) == b
    decreases |b|
  {
    if |b| == 0 {
    } else if |b| <= 3 {
      QuantumRoundTrip(b);
      var s := EncodeQuantum(b);
      assert Encode(b) == s;
      assert s[..4] == s && s[4..] == [];
    } else {
      var q := EncodeQuantum(b[..3]);
      var t := Encode(b[3..]);
      assert Encode(b) == q + t;
      QuantumRoundTrip(b[..3]);
      DecodeEncode(b[3..]);
      DecodeCons(q, t);
      assert b == b[..3] + b[3..];
    }
  }

  predicate AllInAlphabet(s: string) {
    forall i :: 0 <= i < |s| ==> InAlphabet(s[i])
  }

  lemma AlphabetAppend(a: string, b: string)
    requires AllInAlphabet(a) && AllInAlphabet(b)
    ensures AllInAlphabet(a + b)
  {
    forall i | 0 <= i < |a + b| ensures InAlphabet((a + b)[i]) {
      if i >= |a| { assert (a + b)[i] == b[i - |a|]; }
    }
  }

  /** A quantum of `n` bytes starts with `n + 1` alphabet characters; the rest is padding. */
  lemma QuantumShape(b: seq<Byte>)
    requires 1 <= |b| <= 3
    ensures var s := EncodeQuantum(b);
            && AllInAlphabet(s[..|b| + 1])
            && (|b| < 3 ==> s[3] == Pad)
  {
    var s := EncodeQuantum(b);
    assert InAlphabet(s[0]) && InAlphabet(s[1]);
    assert |b| > 1 ==> InAlphabet(s[2]);
    assert |b| > 2 ==> InAlphabet(s[3]);
  }

  lemma EncodeSplit(b: seq<Byte>)
    requires |b| > 3
    ensures Encode(b) == EncodeQuantum(b[..3]) + Encode(b[3..])
  {
  }

  /** The characters of eight encoded bytes: two full quanta and one of two bytes, whose last
      character is the only padding. */
  lemma EncodeEight(b: seq<Byte>)
    requires |b| == 8
    ensures var s := Encode(b);
            |s| == 12 && s[11] == Pad && AllInAlphabet(s[..11])
  {
    var q0, q1, q2 := EncodeQuantum(b[..3]), EncodeQuantum(b[3..6]), EncodeQuantum(b[6..]);
    QuantumShape(b[..3]);
    QuantumShape(b[3..6]);
    QuantumShape(b[6..]);
    assert q0[..4] == q0 && q1[..4] == q1;
    assert Encode(b) == q0 + (q1 + q2) by {
      EncodeSplit(b);
      EncodeSplit(b[3..]);
      assert b[3..][..3] == b[3..6] && b[3..][3..] == b[6..];
    }
    assert (q0 + (q1 + q2))[..11] == q0 + (q1 + q2[..3]);
    AlphabetAppend(q1, q2[..3]);
    AlphabetAppend(q0, q1 + q2[..3]);
    assert (q0 + (q1 + q2))[11] == q2[3];
  }

  /** The automatic slug of a form (links/service.go lines 159-163): eight random bytes
      encoded, with the one padding character cut off. */
  function AutoSlug(b: seq<Byte>): (s: string)
    requires |b| == 8
    ensures |s| == 11 && AllInAlphabet(s)
  {
    EncodeEight(b);
    Encode(b)[..11]
  }

  /** Cutting the padding loses nothing: the slug still determines the bytes. */
  lemma AutoSlugDecodes(b: seq<Byte>)
    requires |b| == 8
    ensures WellFormed(AutoSlug(b) + [Pad]) && Decode(AutoSlug(b) + [Pad]) == b
  {
    EncodeEight(b);
    DecodeEncode(b);
    var e := Encode(b);
    assert AutoSlug(b) + [Pad] == e[..11] + [e[11]] == e;
  }

  lemma AutoSlugInjective(a: seq<Byte>, b: seq<Byte>)
    requires |a| == 8 && |b| == 8
    ensures AutoSlug(a) == AutoSlug(b) <==> a == b
  {
    AutoSlugDecodes(a);
    AutoSlugDecodes(b);
  }
}

=== FILE: buffer.dfy ===
/** The response ingestion buffer (internal/responses/buffer/buffer.go): a bounded queue in front
    of a single worker that groups submissions into batches and writes each batch in one database
    transaction. The worker's `select` is modelled as a state machine over the events it reacts to;
    the database transaction is driven by an oracle saying which call fails. */
module Buffer {
  import opened Wrappers
  import Seqs
  import opened Storage

  /** An answer row as enqueued; it carries its own response ID. */
  datatype AnswerRow = AnswerRow(responseId: string, flowConnectionId: string, answerText: string, timeSpent: Option<int>)

  /** A complete submission as enqueued. */
  datatype Submission = Submission(
    responseId: string,
    formId: string,
    totalTimeSpent: int,
    flowPath: seq<string>,
    answers: seq<AnswerRow>)

  /** A row of form_responses. */
  datatype ResponseRow = ResponseRow(id: string, formId: string, totalTimeSpent: int, flowPath: seq<string>)

  /** The two tables the buffer writes, in insertion order. */
  datatype Store = Store(responses: seq<ResponseRow>, answers: seq<AnswerRow>)

  /** One INSERT statement of a transaction. */
  datatype Statement = InsertResponse(row: ResponseRow) | InsertAnswer(answer: AnswerRow)

  /** How one transaction goes: whether Begin fails, which statement (by position) fails, and
      whether Commit fails. */
  datatype TxOracle = TxOracle(beginError: Option<DbError>, failingStatement: Option<(nat, DbError)>, commitError: Option<DbError>)

  /** The result of insertBatch: the store afterwards and the returned error. */
  datatype Outcome = Outcome(store: Store, err: Option<DbError>)

  function RowOf(d: Submission): ResponseRow {
    ResponseRow(d.responseId, d.formId, d.totalTimeSpent, d.flowPath)
  }

  function AnswerStatements(answers: seq<AnswerRow>): (ss: seq<Statement>)
    ensures |ss| == |answers|
  {
    if |answers| == 0 then [] else [InsertAnswer(answers[0])] + AnswerStatements(answers[1..])
  }

  /** The statements insertBatch executes, in order: each response row followed by its answers. */
  function Statements(batch: seq<Submission>): seq<Statement> {
    if |batch| == 0 then []
    else [InsertResponse(RowOf(batch[0]))] + AnswerStatements(batch[0].answers) + Statements(batch[1..])
  }

  function Execute(store: Store, ss: seq<Statement>): Store
    decreases |ss|
  {
    if |ss| == 0 then store
    else
      var s := match ss[0]
        case InsertResponse(row) => store.(responses := store.responses + [row])
        case InsertAnswer(a) => store.(answers := store.answers + [a]);
      Execute(s, ss[1..])
  }

  /** The response rows of a batch, independently of statement order. */
  function ResponseRows(batch: seq<Submission>): (rows: seq<ResponseRow>)
    ensures |rows| == |batch|
  {
    if |batch| == 0 then [] else [RowOf(batch[0])] + ResponseRows(batch[1..])
  }

  /** The answer rows of a batch: every submission's answers, concatenated in order. */
  function AnswerRows(batch: seq<Submission>): seq<AnswerRow> {
    if |batch| == 0 then [] else batch[0].answers + AnswerRows(batch[1..])
  }

  /** Whether a transaction over `count` statements goes through. */
  predicate TxSucceeds(tx: TxOracle, count: nat) {
    && tx.beginError.None?
    && (tx.failingStatement.None? || tx.failingStatement.value.0 >= count)
    && tx.commitError.None?
  }

  lemma {:induction false} ExecuteAppend(store: Store, a: seq<Statement>, b: seq<Statement>)
    ensures Execute(store, a + b) == Execute(Execute(store, a), b)
    decreases |a|
  {
    if |a| == 0 {
      assert a + b == b;
    } else {
      assert (a + b)[1..] == a[1..] + b;
      var s := match a[0]
        case InsertResponse(row) => store.(responses := store.responses + [row])
        case InsertAnswer(x) => store.(answers := store.answers + [x]);
      ExecuteAppend(s, a[1..], b);
    }
  }

  lemma {:induction false} ExecuteAnswers(store: Store, answers: seq<AnswerRow>)
    ensures Execute(store, AnswerStatements(answers)) == store.(answers := store.answers + answers)
    decreases |answers|
  {
    if |answers| > 0 {
      ExecuteAnswers(store.(answers := store.answers + [answers[0]]), answers[1..]);
      assert store.answers + [answers[0]] + answers[1..] == store.answers + answers;
    } else {
      assert store.answers + answers == store.answers;
    }
  }

  /** Executing a batch's statements appends its response rows and its answer rows. */
  lemma {:induction false} ExecuteBatch(store: Store, batch: seq<Submission>)
    ensures Execute(store, Statements(batch)) ==
            Store(store.responses + ResponseRows(batch), store.answers + AnswerRows(batch))
    decreases |batch|
  {
    if |batch| == 0 {
      assert store.responses + [] == store.responses;
      assert store.answers + [] == store.answers;
    } else {
      var d := batch[0];
      var head := [InsertResponse(RowOf(d))];
      var s1 := store.(responses := store.responses + [RowOf(d)]);
      var s2 := s1.(answers := store.answers + d.answers);
      assert Statements(batch) == head + AnswerStatements(d.answers) + Statements(batch[1..]);
      ExecuteAppend(store, head + AnswerStatements(d.answers), Statements(batch[1..]));
      ExecuteAppend(store, head, AnswerStatements(d.answers));
      assert Execute(store, head) == s1 by {
        assert head[1..] == [];
      }
      ExecuteAnswers(s1, d.answers);
      ExecuteBatch(s2, batch[1..]);
      RowsStep(store, batch);
    }
  }

  lemma RowsStep(store: Store, batch: seq<Submission>)
    requires |batch| > 0
    ensures store.responses + [RowOf(batch[0])] + ResponseRows(batch[1..]) == store.responses + ResponseRows(batch)
    ensures store.answers + batch[0].answers + AnswerRows(batch[1..]) == store.answers + AnswerRows(batch)
  {
    assert ResponseRows(batch) == [RowOf(batch[0])] + ResponseRows(batch[1..]);
    assert AnswerRows(batch) == batch[0].answers + AnswerRows(batch[1..]);
    Seqs.Associative(store.responses, [RowOf(batch[0])], ResponseRows(batch[1..]));
    Seqs.Associative(store.answers, batch[0].answers, AnswerRows(batch[1..]));
  }

  /** insertBatch (lines 117-169): an empty batch is a no-op; otherwise the statements run in one
      transaction that is rolled back on any failure. */
  function InsertBatch(store: Store, batch: seq<Submission>, tx: TxOracle): (o: Outcome)
    ensures o.err.None? <==> (|batch| == 0 || TxSucceeds(tx, |Statements(batch)|))
    ensures o.err.Some? ==> o.store == store
    ensures o.err.None? ==> o.store == Store(store.responses + ResponseRows(batch), store.answers + AnswerRows(batch))
  {
    if |batch| == 0 then Outcome(store, None)
    else if tx.beginError.Some? then Outcome(store, tx.beginError)
    else if tx.failingStatement.Some? && tx.failingStatement.value.0 < |Statements(batch)| then
      Outcome(store, Some(tx.failingStatement.value.1))
    else if tx.commitError.Some? then Outcome(store, tx.commitError)
    else
      ExecuteBatch(store, batch);
      Outcome(Execute(store, Statements(batch)), None)
  }

  // ---------------------------------------------------------------------------------------
  // Enqueue

  /** The caller's view of Enqueue: the queue, the store, and the error returned. */
  datatype Enqueued = Enqueued(queue: seq<Submission>, store: Store, err: Option<DbError>)

  /** Enqueue (lines 64-75) on an open buffer: a queue with room takes the submission; a full
      queue falls back to an immediate one-submission insertBatch whose error is returned. */
  function Enqueue(queue: seq<Submission>, capacity: nat, store: Store, d: Submission, tx: TxOracle): (r: Enqueued)
    ensures |queue| < capacity ==> r == Enqueued(queue + [d], store, None)
    ensures |queue| >= capacity ==> r.queue == queue
    ensures |queue| >= capacity && r.err.Some? ==> r.store == store
    ensures |queue| >= capacity && r.err.None? ==>
              r.store == Store(store.responses + [RowOf(d)], store.answers + d.answers)
    ensures |queue| >= capacity ==> (r.err.None? <==> TxSucceeds(tx, 1 + |d.answers|))
  {
    if |queue| < capacity then Enqueued(queue + [d], store, None)
    else
      var o := InsertBatch(store, [d], tx);
      assert [d][1..] == [];
      assert Statements([d]) == [InsertResponse(RowOf(d))] + AnswerStatements(d.answers);
      assert AnswerRows([d]) == d.answers;
      Enqueued(queue, o.store, o.err)
  }

  // ---------------------------------------------------------------------------------------
  // The worker loop

  /** What the worker's select receives: a queued submission, a ticker tick, or cancellation. */
  datatype Event = Item(d: Submission) | Tick | Shutdown

  /** Which trigger flushed a batch. */
  datatype Trigger = Full | Timer | Final

  /** A flush the worker performed: the submissions, the trigger and the logged error. */
  datatype Flush = Flush(items: seq<Submission>, trigger: Trigger, err: Option<DbError>)

  datatype Worker = Worker(batch: seq<Submission>, store: Store, flushes: seq<Flush>, stopped: bool)

  function Initial(store: Store): Worker {
    Worker([], store, [], false)
  }

  /** Flush the batch, log the error, and clear the batch whatever the outcome. */
  function FlushBatch(w: Worker, items: seq<Submission>, trigger: Trigger, tx: TxOracle, stop: bool): Worker {
    var o := InsertBatch(w.store, items, tx);
    Worker([], o.store, w.flushes + [Flush(items, trigger, o.err)], stop)
  }

  /** One iteration of the worker's loop (lines 81-113). A stopped worker has returned. */
  function Step(batchSize: int, w: Worker, e: Event, tx: TxOracle): (w': Worker)
    ensures w.stopped ==> w' == w
    ensures !w.stopped && e.Shutdown? ==> w'.stopped && w'.batch == []
    ensures !w.stopped && !e.Shutdown? ==> !w'.stopped
    ensures !w.stopped && e.Item? && |w.batch| + 1 < batchSize ==> w' == w.(batch := w.batch + [e.d])
    ensures !w.stopped && e.Tick? && w.batch == [] ==> w' == w
    ensures !w.stopped && e.Item? && |w.batch| + 1 >= batchSize ==>
              && w'.batch == [] && w'.store == InsertBatch(w.store, w.batch + [e.d], tx).store
              && w'.flushes == w.flushes + [Flush(w.batch + [e.d], Full, InsertBatch(w.store, w.batch + [e.d], tx).err)]
    ensures !w.stopped && e.Tick? && w.batch != [] ==>
              && w'.batch == [] && w'.store == InsertBatch(w.store, w.batch, tx).store
              && w'.flushes == w.flushes + [Flush(w.batch, Timer, InsertBatch(w.store, w.batch, tx).err)]
    ensures !w.stopped && e.Shutdown? && w.batch != [] ==>
              && w'.store == InsertBatch(w.store, w.batch, tx).store
              && w'.flushes == w.flushes + [Flush(w.batch, Final, InsertBatch(w.store, w.batch, tx).err)]
    ensures !w.stopped && e.Shutdown? && w.batch == [] ==> w' == w.(stopped := true)
    ensures !w.stopped && |w'.flushes| > |w.flushes| ==>
              && w'.batch == [] && |w'.flushes| == |w.flushes| + 1
              && w'.flushes[|w.flushes|].items == (if e.Item? then w.batch + [e.d] else w.batch)
              && w'.flushes[|w.flushes|].err == InsertBatch(w.store, w'.flushes[|w.flushes|].items, tx).err
  {
    if w.stopped then w
    else match e
      case Item(d) =>
        var batch := w.batch + [d];
        if |batch| >= batchSize then FlushBatch(w, batch, Full, tx, false)
        else w.(batch := batch)
      case Tick =>
        if |w.batch| > 0 then FlushBatch(w, w.batch, Timer, tx, false) else w
      case Shutdown =>
        if |w.batch| > 0 then FlushBatch(w, w.batch, Final, tx, true) else w.(batch := [], stopped := true)
  }

  /** Runs the worker over a sequence of events; the n-th flush uses transaction oracle `txs(n)`. */
  function Run(batchSize: int, w: Worker, events: seq<Event>, txs: nat -> TxOracle): Worker
    decreases |events|
  {
    if |events| == 0 then w
    else Run(batchSize, Step(batchSize, w, events[0], txs(|w.flushes|)), events[1..], txs)
  }

  /** The submissions the worker takes from the queue before it stops. */
  function Received(events: seq<Event>): seq<Submission> {
    if |events| == 0 then []
    else match events[0]
      case Item(d) => [d] + Received(events[1..])
      case Tick => Received(events[1..])
      case Shutdown => []
  }

  function Flushed(fs: seq<Flush>): seq<Submission> {
    if |fs| == 0 then [] else fs[0].items + Flushed(fs[1..])
  }

  /** The submissions of the flushes that committed. */
  function Committed(fs: seq<Flush>): seq<Submission> {
    if |fs| == 0 then [] else (if fs[0].err.None? then fs[0].items else []) + Committed(fs[1..])
  }

  lemma {:induction false} FlushedAppend(fs: seq<Flush>, f: Flush)
    ensures Flushed(fs + [f]) == Flushed(fs) + f.items
    ensures Committed(fs + [f]) == Committed(fs) + (if f.err.None? then f.items else [])
  {
    if |fs| == 0 {
      assert fs + [f] == [f] && [f][1..] == [];
    } else {
      assert (fs + [f])[0] == fs[0] && (fs + [f])[1..] == fs[1..] + [f];
      FlushedAppend(fs[1..], f);
      var c := if fs[0].err.None? then fs[0].items else [];
      Seqs.Associative(fs[0].items, Flushed(fs[1..]), f.items);
      Seqs.Associative(c, Committed(fs[1..]), if f.err.None? then f.items else []);
    }
  }

  lemma {:induction false} ResponseRowsAppend(a: seq<Submission>, b: seq<Submission>)
    ensures ResponseRows(a + b) == ResponseRows(a) + ResponseRows(b)
    ensures AnswerRows(a + b) == AnswerRows(a) + AnswerRows(b)
  {
    if |a| == 0 {
      assert a + b == b;
    } else {
      assert (a + b)[0] == a[0] && (a + b)[1..] == a[1..] + b;
      ResponseRowsAppend(a[1..], b);
      Seqs.Associative([RowOf(a[0])], ResponseRows(a[1..]), ResponseRows(b));
      Seqs.Associative(a[0].answers, AnswerRows(a[1..]), AnswerRows(b));
    }
  }

  /** What the worker guarantees at every point: nothing received is lost or duplicated (each
      submission is either flushed or still batched, in order), the store holds exactly the rows
      of the committed flushes, and no flush is empty. */
  predicate Accounts(w: Worker, base: Store, received: seq<Submission>) {
    && Flushed(w.flushes) + w.batch == received
    && w.store == Store(base.responses + ResponseRows(Committed(w.flushes)), base.answers + AnswerRows(Committed(w.flushes)))
    && (forall k :: 0 <= k < |w.flushes| ==> |w.flushes[k].items| > 0)
  }

  /** The store after a flush holds the committed flushes' rows. */
  lemma FlushStore(w: Worker, base: Store, items: seq<Submission>, f: Flush, o: Outcome)
    requires w.store == Store(base.responses + ResponseRows(Committed(w.flushes)), base.answers + AnswerRows(Committed(w.flushes)))
    requires f.items == items && f.err == o.err
    requires o.err.Some? ==> o.store == w.store
    requires o.err.None? ==> o.store == Store(w.store.responses + ResponseRows(items), w.store.answers + AnswerRows(items))
    ensures o.store == Store(base.responses + ResponseRows(Committed(w.flushes + [f])), base.answers + AnswerRows(Committed(w.flushes + [f])))
  {
    FlushedAppend(w.flushes, f);
    if o.err.None? {
      FlushStoreCommitted(base, Committed(w.flushes), items);
    } else {
      assert Committed(w.flushes) + [] == Committed(w.flushes);
    }
  }

  /** The rows of the committed batches, followed by those of one more committed batch. */
  lemma FlushStoreCommitted(base: Store, c: seq<Submission>, items: seq<Submission>)
    ensures base.responses + ResponseRows(c) + ResponseRows(items) == base.responses + ResponseRows(c + items)
    ensures base.answers + AnswerRows(c) + AnswerRows(items) == base.answers + AnswerRows(c + items)
  {
    ResponseRowsAppend(c, items);
    Seqs.Associative(base.responses, ResponseRows(c), ResponseRows(items));
    Seqs.Associative(base.answers, AnswerRows(c), AnswerRows(items));
  }

  lemma FlushAccounts(w: Worker, base: Store, received: seq<Submission>, items: seq<Submission>, trigger: Trigger, tx: TxOracle, stop: bool)
    requires Accounts(w, base, received) && |items| > 0
    ensures Accounts(FlushBatch(w, items, trigger, tx, stop), base, Flushed(w.flushes) + items)
  {
    var o := InsertBatch(w.store, items, tx);
    var f := Flush(items, trigger, o.err);
    FlushedAppend(w.flushes, f);
    FlushStore(w, base, items, f, o);
    var w' := FlushBatch(w, items, trigger, tx, stop);
    assert w' == Worker([], o.store, w.flushes + [f], stop);
    assert Flushed(w'.flushes) + w'.batch == Flushed(w.flushes) + items;
    forall k | 0 <= k < |w'.flushes|
      ensures |w'.flushes[k].items| > 0
    {
      if k < |w.flushes| { assert w'.flushes[k] == w.flushes[k]; }
    }
  }

  lemma StepAccounts(batchSize: int, w: Worker, base: Store, received: seq<Submission>, e: Event, tx: TxOracle)
    requires Accounts(w, base, received) && !w.stopped
    ensures Accounts(Step(batchSize, w, e, tx), base, received + Gain(e))
  {
    match e
    case Item(d) =>
      var batch := w.batch + [d];
      assert Flushed(w.flushes) + batch == received + [d];
      if |batch| >= batchSize {
        FlushAccounts(w, base, received, batch, Full, tx, false);
      }
    case Tick =>
      if |w.batch| > 0 {
        FlushAccounts(w, base, received, w.batch, Timer, tx, false);
      }
    case Shutdown =>
      if |w.batch| > 0 {
        FlushAccounts(w, base, received, w.batch, Final, tx, true);
      } else {
        assert Flushed(w.flushes) + [] == received;
      }
  }

  function Gain(e: Event): seq<Submission> {
    if e.Item? then [e.d] else []
  }

  lemma ReceivedStep(received: seq<Submission>, events: seq<Event>)
    requires |events| > 0 && !events[0].Shutdown?
    ensures received + Gain(events[0]) + Received(events[1..]) == received + Received(events)
  {
    var g := Gain(events[0]);
    var t := Received(events[1..]);
    assert Received(events) == g + t by {
      if events[0].Tick? {
        assert g + t == t;
      }
    }
    Seqs.Associative(received, g, t);
  }

  /** A Shutdown ends the run with the batch drained and nothing more received. */
  lemma ShutdownAccounts(batchSize: int, w: Worker, base: Store, received: seq<Submission>, events: seq<Event>, txs: nat -> TxOracle)
    requires Accounts(w, base, received) && !w.stopped
    requires |events| > 0 && events[0].Shutdown?
    ensures var w' := Run(batchSize, w, events, txs);
            && Accounts(w', base, received + Received(events))
            && w'.stopped && w'.batch == []
  {
    var w1 := Step(batchSize, w, events[0], txs(|w.flushes|));
    StepAccounts(batchSize, w, base, received, events[0], txs(|w.flushes|));
    StoppedStays(batchSize, w1, events[1..], txs);
    assert received + Received(events) == received + Gain(events[0]);
  }

  /** Shutting down drains the batch: once the worker stops, every submission it received has
      gone to some flush. */
  lemma {:induction false} RunAccounts(batchSize: int, w: Worker, base: Store, received: seq<Submission>, events: seq<Event>, txs: nat -> TxOracle)
    requires Accounts(w, base, received) && !w.stopped
    ensures var w' := Run(batchSize, w, events, txs);
            && Accounts(w', base, received + Received(events))
            && (w'.stopped ==> w'.batch == [])
    decreases |events|
  {
    if |events| == 0 {
      assert received + [] == received;
    } else if events[0].Shutdown? {
      ShutdownAccounts(batchSize, w, base, received, events, txs);
    } else {
      var e := events[0];
      var w1 := Step(batchSize, w, e, txs(|w.flushes|));
      StepAccounts(batchSize, w, base, received, e, txs(|w.flushes|));
      RunAccounts(batchSize, w1, base, received + Gain(e), events[1..], txs);
      ReceivedStep(received, events);
    }
  }

  /** After Shutdown the worker has returned: later events change nothing. */
  lemma {:induction false} StoppedStays(batchSize: int, w: Worker, events: seq<Event>, txs: nat -> TxOracle)
    requires w.stopped
    ensures Run(batchSize, w, events, txs) == w
    decreases |events|
  {
    if |events| > 0 {
      StoppedStays(batchSize, w, events[1..], txs);
    }
  }

  /** The worker loop never loses or duplicates a submission and writes exactly the committed
      flushes: starting empty, the flushed submissions followed by the pending batch are the
      received submissions in order; the store gains the rows of the committed flushes only, so
      a failed flush drops its submissions for good. */
  lemma WorkerConservation(batchSize: int, base: Store, events: seq<Event>, txs: nat -> TxOracle)
    ensures var w := Run(batchSize, Initial(base), events, txs);
            && Flushed(w.flushes) + w.batch == Received(events)
            && w.store.responses == base.responses + ResponseRows(Committed(w.flushes))
            && w.store.answers == base.answers + AnswerRows(Committed(w.flushes))
            && (forall k :: 0 <= k < |w.flushes| ==> |w.flushes[k].items| > 0)
            && (w.stopped ==> w.batch == [])
  {
    assert Flushed([]) + [] == [];
    assert ResponseRows([]) == [] && AnswerRows([]) == [];
    assert base.responses + [] == base.responses && base.answers + [] == base.answers;
    RunAccounts(batchSize, Initial(base), base, [], events, txs);
    assert [] + Received(events) == Received(events);
  }

  /** The batch bound: with a positive batch size the pending batch stays below it and a
      size-triggered flush carries exactly `batchSize` submissions. */
  predicate Bounded(batchSize: int, w: Worker) {
    && |w.batch| < batchSize
    && (forall k :: 0 <= k < |w.flushes| && w.flushes[k].trigger == Full ==> |w.flushes[k].items| == batchSize)
  }

  lemma StepBounded(batchSize: int, w: Worker, e: Event, tx: TxOracle)
    requires batchSize >= 1 && Bounded(batchSize, w)
    ensures Bounded(batchSize, Step(batchSize, w, e, tx))
  {
    var w' := Step(batchSize, w, e, tx);
    if !w.stopped && |w'.flushes| > |w.flushes| {
      forall k | 0 <= k < |w'.flushes| && w'.flushes[k].trigger == Full
        ensures |w'.flushes[k].items| == batchSize
      {
        if k < |w.flushes| { assert w'.flushes[k] == w.flushes[k]; }
      }
    }
  }

  lemma {:induction false} BatchBound(batchSize: int, w: Worker, events: seq<Event>, txs: nat -> TxOracle)
    requires batchSize >= 1 && Bounded(batchSize, w)
    ensures Bounded(batchSize, Run(batchSize, w, events, txs))
    decreases |events|
  {
    if |events| > 0 {
      StepBounded(batchSize, w, events[0], txs(|w.flushes|));
      BatchBound(batchSize, Step(batchSize, w, events[0], txs(|w.flushes|)), events[1..], txs);
    }
  }

  /** From the initial state the batch never reaches `batchSize`, and every size-triggered flush
      holds exactly `batchSize` submissions. */
  lemma BatchBoundFromStart(batchSize: int, base: Store, events: seq<Event>, txs: nat -> TxOracle)
    requires batchSize >= 1
    ensures var w := Run(batchSize, Initial(base), events, txs);
            && |w.batch| < batchSize
            && forall k :: 0 <= k < |w.flushes| && w.flushes[k].trigger == Full ==> |w.flushes[k].items| == batchSize
  {
    BatchBound(batchSize, Initial(base), events, txs);
  }

  /** With a batch size of zero, every received submission is flushed on its own. (A negative
      batch size never gets this far: the worker's `make` panics on a negative capacity.) */
  lemma ZeroBatchSizeFlushesEachItem(batchSize: int, w: Worker, d: Submission, tx: TxOracle)
    requires batchSize == 0 && !w.stopped && w.batch == []
    ensures var w' := Step(batchSize, w, Item(d), tx);
            && w'.batch == [] && |w'.flushes| == |w.flushes| + 1
            && w'.flushes[|w.flushes|].items == [d] && w'.flushes[|w.flushes|].trigger == Full
  {
  }

  /** The flush schedule does not depend on the database: which submissions are flushed, when,
      and what stays batched are the same whatever the transactions do. */
  lemma {:induction false} ScheduleIgnoresOutcomes(batchSize: int, w1: Worker, w2: Worker, events: seq<Event>, txs1: nat -> TxOracle, txs2: nat -> TxOracle)
    requires w1.batch == w2.batch && w1.stopped == w2.stopped && |w1.flushes| == |w2.flushes|
    requires forall k :: 0 <= k < |w1.flushes| ==> w1.flushes[k].items == w2.flushes[k].items && w1.flushes[k].trigger == w2.flushes[k].trigger
    ensures var r1, r2 := Run(batchSize, w1, events, txs1), Run(batchSize, w2, events, txs2);
            && r1.batch == r2.batch && r1.stopped == r2.stopped && |r1.flushes| == |r2.flushes|
            && forall k :: 0 <= k < |r1.flushes| ==> r1.flushes[k].items == r2.flushes[k].items && r1.flushes[k].trigger == r2.flushes[k].trigger
    decreases |events|
  {
    if |events| > 0 {
      var s1 := Step(batchSize, w1, events[0], txs1(|w1.flushes|));
      var s2 := Step(batchSize, w2, events[0], txs2(|w2.flushes|));
      assert s1.batch == s2.batch && s1.stopped == s2.stopped && |s1.flushes| == |s2.flushes|;
      forall k | 0 <= k < |s1.flushes|
        ensures s1.flushes[k].items == s2.flushes[k].items && s1.flushes[k].trigger == s2.flushes[k].trigger
      {
        if k < |w1.flushes| {
          assert s1.flushes[k] == w1.flushes[k] || s1 == w1;
        }
      }
      ScheduleIgnoresOutcomes(batchSize, s1, s2, events[1..], txs1, txs2);
    }
  }
}

=== FILE: cache.dfy ===
/** The cache keys (internal/cache/keys.go) and the in-memory cache as a map from key to value
    with a time-to-live in seconds. */
module Cache {
  import opened Wrappers

  const PrefixFormSlug: string := "form:slug:"
  const PrefixFormId: string := "form:id:"
  /** The key the forms service uses for the public template list. */
  const TemplatesListKey: string := "templates:list"
  /** Five minutes, for public forms. */
  const PublicFormTtl: nat := 300
  /** Seven days, for the template list. */
  const TemplatesTtl: nat := 7 * 24 * 60 * 60

  function FormSlugKey(slug: string): (k: string)
    ensures |k| == |PrefixFormSlug| + |slug|
  {
    PrefixFormSlug + slug
  }

  function FormIdKey(formId: string): (k: string)
    ensures |k| == |PrefixFormId| + |formId|
  {
    PrefixFormId + formId
  }

  /** Distinct slugs have distinct keys, and so do distinct form IDs. */
  lemma KeysInjective(a: string, b: string)
    ensures FormSlugKey(a) == FormSlugKey(b) <==> a == b
    ensures FormIdKey(a) == FormIdKey(b) <==> a == b
  {
    if FormSlugKey(a) == FormSlugKey(b) {
      assert a == FormSlugKey(a)[|PrefixFormSlug|..] == FormSlugKey(b)[|PrefixFormSlug|..] == b;
    }
    if FormIdKey(a) == FormIdKey(b) {
      assert a == FormIdKey(a)[|PrefixFormId|..] == FormIdKey(b)[|PrefixFormId|..] == b;
    }
  }

  /** A slug key is never an ID key, and the template-list key is neither. */
  lemma KeySpacesDisjoint(a: string, b: string)
    ensures FormSlugKey(a) != FormIdKey(b)
    ensures TemplatesListKey != FormSlugKey(a) && TemplatesListKey != FormIdKey(b)
  {
    assert FormSlugKey(a)[5] == 's' && FormIdKey(b)[5] == 'i';
    assert FormSlugKey(a)[0] == 'f' && FormIdKey(b)[0] == 'f' && TemplatesListKey[0] == 't';
  }

  /** A cached value and the seconds it has left to live. */
  datatype Entry<V> = Entry(value: V, ttl: nat)

  type Store<V> = map<string, Entry<V>>

  function Get<V>(c: Store<V>, key: string): (r: Option<V>)
    ensures r.Some? <==> key in c
    ensures r.Some? ==> r.value == c[key].value
  {
    if key in c then Some(c[key].value) else None
  }

  function Set<V>(c: Store<V>, key: string, v: V, ttl: nat): (c': Store<V>)
    ensures Get(c', key) == Some(v) && c'[key].ttl == ttl
    ensures forall k :: k != key ==> Get(c', k) == Get(c, k)
    ensures c'.Keys == c.Keys + {key}
  {
    c[key := Entry(v, ttl)]
  }

  /** Deleting a key that is absent is a no-op. */
  function Delete<V>(c: Store<V>, key: string): (c': Store<V>)
    ensures key !in c'
    ensures forall k :: k != key ==> (k in c' <==> k in c) && (k in c ==> c'[k] == c[k])
    ensures key !in c ==> c' == c
  {
    c - {key}
  }

  /** Deletes each of `keys`, in order. */
  function DeleteAll<V>(c: Store<V>, keys: seq<string>): (c': Store<V>)
    ensures forall k :: k in keys ==> k !in c'
    ensures forall k :: k !in keys ==> (k in c' <==> k in c) && (k in c ==> c'[k] == c[k])
  {
    if |keys| == 0 then c else DeleteAll(Delete(c, keys[0]), keys[1..])
  }

  /** The passage of `seconds`: entries whose time is up disappear, the others age. */
  function Advance<V>(c: Store<V>, seconds: nat): (c': Store<V>)
    ensures forall k :: k in c' <==> k in c && c[k].ttl > seconds
    ensures forall k :: k in c' ==> c'[k] == Entry(c[k].value, c[k].ttl - seconds)
  {
    map k | k in c && c[k].ttl > seconds :: Entry(c[k].value, c[k].ttl - seconds)
  }

  /** Nothing outlives its time-to-live: after `ttl` seconds an entry set with it is gone. */
  lemma SetExpires<V>(c: Store<V>, key: string, v: V, ttl: nat, seconds: nat)
    requires seconds >= ttl
    ensures key !in Advance(Set(c, key, v, ttl), seconds)
  {
  }
}

=== FILE: conservation.dfy ===
/** The conservation laws linking the two path aggregators: every visit to a node leaves it along
    exactly one edge (to the next node or to the drop-off sink), so a node's out-edges sum to its
    visit count and the drop-off edges sum to the number of non-empty responses. */
module Conservation {
  import opened PathData
  import NodeCalculator
  import opened FlowCalculator

  predicate Distinct<T(==)>(s: seq<T>) {
    forall i, j :: 0 <= i < j < |s| ==> s[i] != s[j]
  }

  /** The calculated values of the edges from `n` to each of `ts`, summed. */
  function OutFlow(m: map<Edge, nat>, n: string, ts: seq<Target>): nat {
    if |ts| == 0 then 0 else Lookup(m, Edge(n, ts[0])) + OutFlow(m, n, ts[1..])
  }

  /** The calculated values of the drop-off edges from each of `ns`, summed. */
  function DropOffFlow(m: map<Edge, nat>, ns: seq<string>): nat {
    if |ns| == 0 then 0 else Lookup(m, Edge(ns[0], DropOff)) + DropOffFlow(m, ns[1..])
  }

  /** The node calculator's drop-off counts of each of `ns`, summed. */
  function NodeDropOffs(r: map<string, NodeCalculator.NodeMetrics>, formId: string, ns: seq<string>): nat {
    if |ns| == 0 then 0 else NodeCalculator.Get(r, formId, ns[0]).dropOffCount + NodeDropOffs(r, formId, ns[1..])
  }

  // ---------------------------------------------------------------------------------------
  // Sums over edge sequences.

  function OutSum(es: seq<Edge>, n: string, ts: seq<Target>): nat {
    if |ts| == 0 then 0 else Count(es, Edge(n, ts[0])) + OutSum(es, n, ts[1..])
  }

  function DropSum(es: seq<Edge>, ns: seq<string>): nat {
    if |ns| == 0 then 0 else Count(es, Edge(ns[0], DropOff)) + DropSum(es, ns[1..])
  }

  lemma {:induction false} OutSumCons(e: Edge, rest: seq<Edge>, n: string, ts: seq<Target>)
    requires Distinct(ts)
    ensures OutSum([e] + rest, n, ts) == (if e.source == n && e.target in ts then 1 else 0) + OutSum(rest, n, ts)
  {
    if |ts| > 0 {
      assert Distinct(ts[1..]);
      OutSumCons(e, rest, n, ts[1..]);
      assert ([e] + rest)[1..] == rest;
      assert ts == [ts[0]] + ts[1..];
      assert e.target == ts[0] ==> e.target !in ts[1..];
    }
  }

  lemma {:induction false} OutSumCountsSources(es: seq<Edge>, n: string, ts: seq<Target>)
    requires Distinct(ts)
    requires forall k :: 0 <= k < |es| && es[k].source == n ==> es[k].target in ts
    ensures OutSum(es, n, ts) == Count(Sources(es), n)
  {
    if |es| == 0 {
      ZeroOutSum(es, n, ts);
    } else {
      OutSumCountsSources(es[1..], n, ts);
      assert es == [es[0]] + es[1..];
      OutSumCons(es[0], es[1..], n, ts);
    }
  }

  lemma {:induction false} ZeroOutSum(es: seq<Edge>, n: string, ts: seq<Target>)
    requires |es| == 0
    ensures OutSum(es, n, ts) == 0
  {
    if |ts| > 0 {
      ZeroOutSum(es, n, ts[1..]);
    }
  }

  lemma {:induction false} DropSumCons(e: Edge, rest: seq<Edge>, ns: seq<string>)
    requires Distinct(ns)
    ensures DropSum([e] + rest, ns) == (if e.target == DropOff && e.source in ns then 1 else 0) + DropSum(rest, ns)
  {
    if |ns| > 0 {
      assert Distinct(ns[1..]);
      DropSumCons(e, rest, ns[1..]);
      assert ([e] + rest)[1..] == rest;
      assert ns == [ns[0]] + ns[1..];
      assert e.source == ns[0] ==> e.source !in ns[1..];
    }
  }

  lemma {:induction false} DropSumCountsTargets(es: seq<Edge>, ns: seq<string>)
    requires Distinct(ns)
    requires forall k :: 0 <= k < |es| && es[k].target == DropOff ==> es[k].source in ns
    ensures DropSum(es, ns) == Count(Targets(es), DropOff)
  {
    if |es| == 0 {
      ZeroDropSum(es, ns);
    } else {
      DropSumCountsTargets(es[1..], ns);
      assert es == [es[0]] + es[1..];
      DropSumCons(es[0], es[1..], ns);
    }
  }

  lemma {:induction false} ZeroDropSum(es: seq<Edge>, ns: seq<string>)
    requires |es| == 0
    ensures DropSum(es, ns) == 0
  {
    if |ns| > 0 {
      ZeroDropSum(es, ns[1..]);
    }
  }

  // ---------------------------------------------------------------------------------------
  // From the calculators' maps to the edge sequence.

  lemma {:induction false} OutFlowIsOutSum(rs: seq<ResponseData>, n: string, ts: seq<Target>)
    ensures OutFlow(Calculate(rs), n, ts) == OutSum(AllEdges(rs), n, ts)
  {
    if |ts| > 0 {
      CalculateCountsEdges(rs);
      OutFlowIsOutSum(rs, n, ts[1..]);
    }
  }

  lemma {:induction false} DropOffFlowIsDropSum(rs: seq<ResponseData>, ns: seq<string>)
    ensures DropOffFlow(Calculate(rs), ns) == DropSum(AllEdges(rs), ns)
  {
    if |ns| > 0 {
      CalculateCountsEdges(rs);
      DropOffFlowIsDropSum(rs, ns[1..]);
    }
  }

  lemma {:induction false} VisitsCountVisits(rs: seq<ResponseData>, n: string)
    ensures Count(Visits(rs), n) == NodeCalculator.VisitCount(rs, n)
  {
    if |rs| > 0 {
      VisitsCountVisits(rs[1..], n);
      CountAppend(rs[0].flowPath, Visits(rs[1..]), n);
    }
  }

  /** Conservation of flow: for every node `n` and any duplicate-free list `ts` of targets that
      covers every calculated edge leaving `n`, the values of `n`'s out-edges sum to `n`'s visit
      count from the node calculator. */
  lemma FlowConservation(formId: string, rs: seq<ResponseData>, n: string, ts: seq<Target>)
    requires Distinct(ts)
    requires forall e :: e in Calculate(rs) && e.source == n ==> e.target in ts
    ensures OutFlow(Calculate(rs), n, ts) == NodeCalculator.Get(NodeCalculator.Calculate(formId, rs), formId, n).visitCount
  {
    CalculateCountsEdges(rs);
    var es := AllEdges(rs);
    forall k | 0 <= k < |es| && es[k].source == n
      ensures es[k].target in ts
    {
      assert es[k] in Calculate(rs);
    }
    OutSumCountsSources(es, n, ts);
    OutFlowIsOutSum(rs, n, ts);
    SourcesAreVisits(rs);
    VisitsCountVisits(rs, n);
    NodeCalculator.CalculateMatchesReference(formId, rs);
    if n !in NodeCalculator.Calculate(formId, rs) {
      CountZeroIffAbsent(Visits(rs), n);
    }
  }

  /** Drop-off conservation: for any duplicate-free list `ns` covering the sources of all
      calculated drop-off edges, the drop-off edge values sum to the number of responses with a
      non-empty path. */
  lemma DropOffConservation(rs: seq<ResponseData>, ns: seq<string>)
    requires Distinct(ns)
    requires forall e :: e in Calculate(rs) && e.target == DropOff ==> e.source in ns
    ensures DropOffFlow(Calculate(rs), ns) == NonEmptyPaths(rs)
  {
    CalculateCountsEdges(rs);
    var es := AllEdges(rs);
    forall k | 0 <= k < |es| && es[k].target == DropOff
      ensures es[k].source in ns
    {
      assert es[k] in Calculate(rs);
    }
    DropSumCountsTargets(es, ns);
    DropOffFlowIsDropSum(rs, ns);
    DropOffTargetsAreNonEmptyPaths(rs);
  }

  lemma {:induction false} PathDropOffEdges(path: seq<string>, i: nat, n: string)
    requires i <= |path|
    ensures Count(EdgesFrom(path, i), Edge(n, DropOff)) == (if i < |path| && path[|path| - 1] == n then 1 else 0)
    decreases |path| - i
  {
    if i < |path| {
      PathDropOffEdges(path, i + 1, n);
      var es := EdgesFrom(path, i);
      assert es[0] == Edge(path[i], Successor(path, i)) && es[1..] == EdgesFrom(path, i + 1);
      assert es[0] == Edge(n, DropOff) <==> i == |path| - 1 && path[i] == n;
    }
  }

  lemma {:induction false} DropOffCountIsDropOffEdges(rs: seq<ResponseData>, n: string)
    ensures NodeCalculator.DropOffCount(rs, n) == Count(AllEdges(rs), Edge(n, DropOff))
  {
    if |rs| > 0 {
      DropOffCountIsDropOffEdges(rs[1..], n);
      PathDropOffEdges(rs[0].flowPath, 0, n);
      CountAppend(EdgesFrom(rs[0].flowPath, 0), AllEdges(rs[1..]), Edge(n, DropOff));
    }
  }

  /** A node's drop-off count equals the value of its drop-off edge. */
  lemma DropOffAgreement(formId: string, rs: seq<ResponseData>, n: string)
    ensures NodeCalculator.Get(NodeCalculator.Calculate(formId, rs), formId, n).dropOffCount
         == Lookup(Calculate(rs), Edge(n, DropOff))
  {
    NodeCalculator.CalculateMatchesReference(formId, rs);
    CalculateCountsEdges(rs);
    DropOffCountIsDropOffEdges(rs, n);
    if n !in NodeCalculator.Calculate(formId, rs) {
      CountZeroIffAbsent(Visits(rs), n);
      EdgeSourcesVisited(rs);
      CountZeroIffAbsent(AllEdges(rs), Edge(n, DropOff));
    }
  }

  /** Every emitted edge leaves a visited node. */
  lemma EdgeSourcesVisited(rs: seq<ResponseData>)
    ensures forall e :: e in AllEdges(rs) ==> e.source in Visits(rs)
  {
    SourcesAreVisits(rs);
    forall e | e in AllEdges(rs)
      ensures e.source in Visits(rs)
    {
      var k :| 0 <= k < |AllEdges(rs)| && AllEdges(rs)[k] == e;
      SourcesIndex(AllEdges(rs), k);
    }
  }

  lemma {:induction false} SourcesIndex(es: seq<Edge>, k: nat)
    requires k < |es|
    ensures |Sources(es)| == |es| && Sources(es)[k] == es[k].source
  {
    if k > 0 {
      SourcesIndex(es[1..], k - 1);
    } else if |es| > 1 {
      SourcesIndex(es[1..], 0);
    }
  }

  lemma {:induction false} NodeDropOffsAreFlows(formId: string, rs: seq<ResponseData>, ns: seq<string>)
    ensures NodeDropOffs(NodeCalculator.Calculate(formId, rs), formId, ns) == DropOffFlow(Calculate(rs), ns)
  {
    if |ns| > 0 {
      DropOffAgreement(formId, rs, ns[0]);
      NodeDropOffsAreFlows(formId, rs, ns[1..]);
    }
  }

  /** The node calculator's drop-off counts, summed over any duplicate-free list covering every
      node it reports, equal the number of responses with a non-empty path. */
  lemma NodeDropOffConservation(formId: string, rs: seq<ResponseData>, ns: seq<string>)
    requires Distinct(ns)
    requires forall n :: n in NodeCalculator.Calculate(formId, rs) ==> n in ns
    ensures NodeDropOffs(NodeCalculator.Calculate(formId, rs), formId, ns) == NonEmptyPaths(rs)
  {
    NodeCalculator.CalculateMatchesReference(formId, rs);
    CalculateCountsEdges(rs);
    EdgeSourcesVisited(rs);
    NodeDropOffsAreFlows(formId, rs, ns);
    DropOffConservation(rs, ns);
  }
}

=== FILE: flow_calculator.dfy ===
/** The transition-count fold of internal/analytics/calculators/flow_calculator.go, which feeds the
    Sankey diagram. Edges are keyed by the ordered pair (source, target), the target being a node
    or the drop-off sink. The Go code keys its map by the string `source + "->" + target`; that
    string-keyed variant is modelled as well (`CalculateAsWritten`), together with the input on
    which the two disagree. */
module FlowCalculator {
  import opened PathData
  import Text

  /** Where a visit leads: the next node of the path, or the drop-off sink after the last node. */
  datatype Target = Node(id: string) | DropOff

  datatype Edge = Edge(source: string, target: Target)

  /** The output record of the calculator (labels are filled in later by the repository). */
  datatype FlowTransition = FlowTransition(sourceId: string, targetId: string, value: nat, isDropOff: bool)

  /** The sentinel target ID of drop-off edges. */
  const DropOffId: string := "DROP_OFF"

  function TargetId(t: Target): string {
    match t
    case Node(id) => id
    case DropOff => DropOffId
  }

  /** The target of the edge leaving position `i` of `path`. */
  function Successor(path: seq<string>, i: nat): Target
    requires i < |path|
  {
    if i < |path| - 1 then Node(path[i + 1]) else DropOff
  }

  /** The edges emitted for positions `i..` of one path: one per position. */
  function EdgesFrom(path: seq<string>, i: nat): (es: seq<Edge>)
    requires i <= |path|
    ensures |es| == |path| - i
    decreases |path| - i
  {
    if i == |path| then [] else [Edge(path[i], Successor(path, i))] + EdgesFrom(path, i + 1)
  }

  /** Every edge emitted for every response, in order. */
  function AllEdges(rs: seq<ResponseData>): seq<Edge> {
    if |rs| == 0 then [] else EdgesFrom(rs[0].flowPath, 0) + AllEdges(rs[1..])
  }

  function Lookup(m: map<Edge, nat>, e: Edge): nat {
    if e in m then m[e] else 0
  }

  /** `transitionCounts[key].count++`, creating the entry with count 0 first if needed. */
  function Bump(m: map<Edge, nat>, e: Edge): map<Edge, nat> {
    m[e := Lookup(m, e) + 1]
  }

  /** The loop over one path (lines 38-69). */
  function FoldPathEdges(m: map<Edge, nat>, path: seq<string>, i: nat): map<Edge, nat>
    requires i <= |path|
    decreases |path| - i
  {
    if i == |path| then m else FoldPathEdges(Bump(m, Edge(path[i], Successor(path, i))), path, i + 1)
  }

  function FoldResponseEdges(m: map<Edge, nat>, rs: seq<ResponseData>): map<Edge, nat>
    decreases |rs|
  {
    if |rs| == 0 then m else FoldResponseEdges(FoldPathEdges(m, rs[0].flowPath, 0), rs[1..])
  }

  /** flowCalculator.Calculate: zero responses give an empty edge set, not an error. */
  function Calculate(rs: seq<ResponseData>): (m: map<Edge, nat>)
    ensures |rs| == 0 ==> m == map[]
  {
    if |rs| == 0 then map[] else FoldResponseEdges(map[], rs)
  }

  /** The conversion of the map into output records (lines 73-83). */
  function Transitions(m: map<Edge, nat>): set<FlowTransition> {
    set e | e in m :: FlowTransition(e.source, TargetId(e.target), m[e], e.target == DropOff)
  }

  // ---------------------------------------------------------------------------------------
  // What one path contributes.

  function Sources(es: seq<Edge>): seq<string> {
    if |es| == 0 then [] else [es[0].source] + Sources(es[1..])
  }

  function Targets(es: seq<Edge>): seq<Target> {
    if |es| == 0 then [] else [es[0].target] + Targets(es[1..])
  }

  lemma {:induction false} EdgesFromShape(path: seq<string>, i: nat)
    requires i <= |path|
    ensures var es := EdgesFrom(path, i);
            && |es| == |path| - i
            && (forall k :: i <= k < |path| ==> es[k - i] == Edge(path[k], Successor(path, k)))
    decreases |path| - i
  {
    if i < |path| {
      EdgesFromShape(path, i + 1);
      var es := EdgesFrom(path, i);
      var rest := EdgesFrom(path, i + 1);
      forall k | i < k < |path|
        ensures es[k - i] == Edge(path[k], Successor(path, k))
      {
        assert es[k - i] == ([Edge(path[i], Successor(path, i))] + rest)[k - i] == rest[k - (i + 1)];
      }
    }
  }

  /** A path of length L contributes L-1 edges to the next node and then exactly one drop-off
      edge from its last node; an empty path contributes nothing. */
  lemma PathContribution(path: seq<string>)
    ensures var es := EdgesFrom(path, 0);
            && |es| == |path|
            && (forall k :: 0 <= k < |path| - 1 ==> es[k] == Edge(path[k], Node(path[k + 1])))
            && (|path| > 0 ==> es[|path| - 1] == Edge(path[|path| - 1], DropOff))
            && Count(Targets(es), DropOff) == (if |path| > 0 then 1 else 0)
  {
    EdgesFromShape(path, 0);
    DropOffTargetsOfPath(path, 0);
  }

  lemma {:induction false} DropOffTargetsOfPath(path: seq<string>, i: nat)
    requires i <= |path|
    ensures Count(Targets(EdgesFrom(path, i)), DropOff) == (if i < |path| then 1 else 0)
    decreases |path| - i
  {
    if i < |path| {
      DropOffTargetsOfPath(path, i + 1);
      var es := EdgesFrom(path, i);
      assert es[1..] == EdgesFrom(path, i + 1);
    }
  }

  /** Each visit emits exactly one edge, leaving the visited node: the sources of the emitted
      edges are the path itself. */
  lemma {:induction false} SourcesOfPath(path: seq<string>, i: nat)
    requires i <= |path|
    ensures Sources(EdgesFrom(path, i)) == path[i..]
    decreases |path| - i
  {
    if i < |path| {
      SourcesOfPath(path, i + 1);
      var es := EdgesFrom(path, i);
      assert es[1..] == EdgesFrom(path, i + 1);
      assert path[i..] == [path[i]] + path[i + 1..];
    } else {
      assert path[i..] == [];
    }
  }

  lemma {:induction false} SourcesAppend(a: seq<Edge>, b: seq<Edge>)
    ensures Sources(a + b) == Sources(a) + Sources(b)
  {
    if |a| == 0 {
      assert a + b == b;
    } else {
      assert (a + b)[1..] == a[1..] + b;
      SourcesAppend(a[1..], b);
    }
  }

  lemma {:induction false} TargetsAppend(a: seq<Edge>, b: seq<Edge>)
    ensures Targets(a + b) == Targets(a) + Targets(b)
  {
    if |a| == 0 {
      assert a + b == b;
    } else {
      assert (a + b)[1..] == a[1..] + b;
      TargetsAppend(a[1..], b);
    }
  }

  /** Over all responses, the sources of the emitted edges are exactly the visits, in order. */
  lemma {:induction false} SourcesAreVisits(rs: seq<ResponseData>)
    ensures Sources(AllEdges(rs)) == Visits(rs)
  {
    if |rs| > 0 {
      SourcesAreVisits(rs[1..]);
      SourcesOfPath(rs[0].flowPath, 0);
      SourcesAppend(EdgesFrom(rs[0].flowPath, 0), AllEdges(rs[1..]));
      assert rs[0].flowPath[0..] == rs[0].flowPath;
    }
  }

  /** Over all responses, the number of drop-off edges is the number of non-empty paths. */
  lemma {:induction false} DropOffTargetsAreNonEmptyPaths(rs: seq<ResponseData>)
    ensures Count(Targets(AllEdges(rs)), DropOff) == NonEmptyPaths(rs)
  {
    if |rs| > 0 {
      DropOffTargetsAreNonEmptyPaths(rs[1..]);
      DropOffTargetsOfPath(rs[0].flowPath, 0);
      TargetsAppend(EdgesFrom(rs[0].flowPath, 0), AllEdges(rs[1..]));
      CountAppend(Targets(EdgesFrom(rs[0].flowPath, 0)), Targets(AllEdges(rs[1..])), DropOff);
    }
  }

  // ---------------------------------------------------------------------------------------
  // The fold counts the emitted edges.

  lemma {:induction false} FoldPathEdgesCounts(m: map<Edge, nat>, path: seq<string>, i: nat)
    requires i <= |path|
    ensures var r := FoldPathEdges(m, path, i);
            && r.Keys == m.Keys + (set e | e in EdgesFrom(path, i))
            && forall e :: Lookup(r, e) == Lookup(m, e) + Count(EdgesFrom(path, i), e)
    decreases |path| - i
  {
    if i < |path| {
      var e0 := Edge(path[i], Successor(path, i));
      FoldPathEdgesCounts(Bump(m, e0), path, i + 1);
      var es := EdgesFrom(path, i);
      assert es[1..] == EdgesFrom(path, i + 1);
      assert es == [e0] + EdgesFrom(path, i + 1);
    }
  }

  lemma {:induction false} FoldResponseEdgesCounts(m: map<Edge, nat>, rs: seq<ResponseData>)
    ensures var r := FoldResponseEdges(m, rs);
            && r.Keys == m.Keys + (set e | e in AllEdges(rs))
            && forall e :: Lookup(r, e) == Lookup(m, e) + Count(AllEdges(rs), e)
    decreases |rs|
  {
    if |rs| > 0 {
      var m1 := FoldPathEdges(m, rs[0].flowPath, 0);
      FoldPathEdgesCounts(m, rs[0].flowPath, 0);
      FoldResponseEdgesCounts(m1, rs[1..]);
      forall e ensures Count(AllEdges(rs), e) == Count(EdgesFrom(rs[0].flowPath, 0), e) + Count(AllEdges(rs[1..]), e) {
        CountAppend(EdgesFrom(rs[0].flowPath, 0), AllEdges(rs[1..]), e);
      }
    }
  }

  /** The calculator's value for an edge is the number of times that edge is emitted, and it has
      an entry for exactly the emitted edges. */
  lemma CalculateCountsEdges(rs: seq<ResponseData>)
    ensures var m := Calculate(rs);
            && m.Keys == (set e | e in AllEdges(rs))
            && forall e :: Lookup(m, e) == Count(AllEdges(rs), e)
  {
    if |rs| > 0 {
      FoldResponseEdgesCounts(map[], rs);
    }
  }

  /** Every output record carries a value of at least one, and it is flagged as a drop-off
      exactly when its edge ends in the sink, whose target ID is then "DROP_OFF". */
  lemma TransitionsWellFormed(rs: seq<ResponseData>)
    ensures forall t :: t in Transitions(Calculate(rs)) ==>
              && t.value >= 1
              && (t.isDropOff ==> t.targetId == DropOffId)
              && Edge(t.sourceId, if t.isDropOff then DropOff else Node(t.targetId)) in Calculate(rs)
  {
    var m := Calculate(rs);
    CalculateCountsEdges(rs);
    forall t | t in Transitions(m)
      ensures && t.value >= 1
              && (t.isDropOff ==> t.targetId == DropOffId)
              && Edge(t.sourceId, if t.isDropOff then DropOff else Node(t.targetId)) in m
    {
      var e :| e in m && t == FlowTransition(e.source, TargetId(e.target), m[e], e.target == DropOff);
      assert Lookup(m, e) == m[e];
      CountZeroIffAbsent(AllEdges(rs), e);
    }
  }

  /** A one-node path contributes only its drop-off edge, never a node-to-node edge. */
  lemma SingleNodePath(r: ResponseData)
    requires |r.flowPath| == 1
    ensures Calculate([r]) == map[Edge(r.flowPath[0], DropOff) := 1]
  {
    var m := Calculate([r]);
    CalculateCountsEdges([r]);
    var e0 := Edge(r.flowPath[0], DropOff);
    assert AllEdges([r]) == [e0] by {
      assert [r][1..] == [];
      assert EdgesFrom(r.flowPath, 1) == [];
      assert Successor(r.flowPath, 0) == DropOff;
      assert EdgesFrom(r.flowPath, 0) == [e0];
    }
    assert Count([e0], e0) == 1;
    assert m.Keys == {e0};
    assert Lookup(m, e0) == 1;
  }
}

=== FILE: flow_keys.dfy ===
/** The Go calculator keys its counting map by the string `source + "->" + target` and stores the
    drop-off flag in the entry created first under that key. This module models that string-keyed
    map as written, shows the input on which it merges a drop-off with a node-to-node transition,
    and proves that it agrees with the pair-keyed `FlowCalculator.Calculate` whenever no node ID
    contains "->" and none is literally "DROP_OFF" (flow-path entries are never validated, so
    nothing guarantees this). */
module FlowEdgeKeys {
  import opened Wrappers
  import opened PathData
  import opened FlowCalculator
  import Text

  /** The per-key record of the Go map. */
  datatype KeyedEntry = KeyedEntry(sourceId: string, targetId: string, count: nat, isDropOff: bool)

  function EdgeKey(sourceId: string, targetId: string): string {
    sourceId + "->" + targetId
  }

  /** Count one transition under its string key; a new entry takes the flag of this transition. */
  function BumpKeyed(m: map<string, KeyedEntry>, sourceId: string, targetId: string, isDropOff: bool): map<string, KeyedEntry> {
    var key := EdgeKey(sourceId, targetId);
    if key in m then m[key := m[key].(count := m[key].count + 1)]
    else m[key := KeyedEntry(sourceId, targetId, 1, isDropOff)]
  }

  function FoldPathKeyed(m: map<string, KeyedEntry>, path: seq<string>, i: nat): map<string, KeyedEntry>
    requires i <= |path|
    decreases |path| - i
  {
    if i == |path| then m
    else if i < |path| - 1 then FoldPathKeyed(BumpKeyed(m, path[i], path[i + 1], false), path, i + 1)
    else FoldPathKeyed(BumpKeyed(m, path[i], DropOffId, true), path, i + 1)
  }

  function FoldResponsesKeyed(m: map<string, KeyedEntry>, rs: seq<ResponseData>): map<string, KeyedEntry>
    decreases |rs|
  {
    if |rs| == 0 then m else FoldResponsesKeyed(FoldPathKeyed(m, rs[0].flowPath, 0), rs[1..])
  }

  /** flowCalculator.Calculate as written, with its string-keyed map. */
  function CalculateAsWritten(rs: seq<ResponseData>): (m: map<string, KeyedEntry>)
    ensures |rs| == 0 ==> m == map[]
  {
    if |rs| == 0 then map[] else FoldResponsesKeyed(map[], rs)
  }

  function TransitionsAsWritten(m: map<string, KeyedEntry>): set<FlowTransition> {
    set k | k in m :: FlowTransition(m[k].sourceId, m[k].targetId, m[k].count, m[k].isDropOff)
  }

  /** A node ID that cannot confuse the string key. */
  predicate WellFormedId(id: string) {
    !Text.HasInfix(id, "->") && id != DropOffId
  }

  predicate WellFormedEdge(e: Edge) {
    WellFormedId(e.source) && (e.target.Node? ==> WellFormedId(e.target.id))
  }

  function KeyOf(e: Edge): string {
    EdgeKey(e.source, TargetId(e.target))
  }

  /** With arrow-free IDs, the key determines the source and the target ID. */
  lemma {:induction false} EdgeKeySplitsUniquely(s1: string, t1: string, s2: string, t2: string)
    requires !Text.HasInfix(s1, "->") && !Text.HasInfix(s2, "->")
    requires EdgeKey(s1, t1) == EdgeKey(s2, t2)
    ensures s1 == s2 && t1 == t2
  {
    var k := EdgeKey(s1, t1);
    assert k[|s1|] == '-' && k[|s1| + 1] == '>';
    assert k[|s2|] == '-' && k[|s2| + 1] == '>';
    if |s1| + 1 < |s2| {
      assert s2[|s1|..|s1| + 2] == k[|s1|..|s1| + 2] == "->";
      assert Text.InfixAt(s2, "->", |s1|);
    } else if |s2| + 1 < |s1| {
      assert s1[|s2|..|s2| + 2] == k[|s2|..|s2| + 2] == "->";
      assert Text.InfixAt(s1, "->", |s2|);
    } else {
      assert |s1| == |s2|;
      assert s1 == k[..|s1|] == s2;
      assert t1 == k[|s1| + 2..] == t2;
    }
  }

  /** Keys of well-formed edges are unique per (source, target) pair. */
  lemma KeyOfInjective(e1: Edge, e2: Edge)
    requires WellFormedEdge(e1) && WellFormedEdge(e2)
    requires KeyOf(e1) == KeyOf(e2)
    ensures e1 == e2
  {
    EdgeKeySplitsUniquely(e1.source, TargetId(e1.target), e2.source, TargetId(e2.target));
  }

  /** The string-keyed map holds, under the key of each counted edge, that edge's count and flag. */
  predicate Corresponds(km: map<string, KeyedEntry>, m: map<Edge, nat>) {
    && (forall e :: e in m ==> WellFormedEdge(e))
    && (forall e :: e in m ==> KeyOf(e) in km && km[KeyOf(e)] == KeyedEntry(e.source, TargetId(e.target), m[e], e.target == DropOff))
    && (forall k :: k in km ==> exists e :: e in m && KeyOf(e) == k)
  }

  lemma BumpCorresponds(km: map<string, KeyedEntry>, m: map<Edge, nat>, e: Edge)
    requires Corresponds(km, m) && WellFormedEdge(e)
    ensures Corresponds(BumpKeyed(km, e.source, TargetId(e.target), e.target == DropOff), Bump(m, e))
  {
    var km' := BumpKeyed(km, e.source, TargetId(e.target), e.target == DropOff);
    var m' := Bump(m, e);
    if KeyOf(e) in km {
      var e0 :| e0 in m && KeyOf(e0) == KeyOf(e);
      KeyOfInjective(e0, e);
    }
    forall e' | e' in m'
      ensures KeyOf(e') in km' && km'[KeyOf(e')] == KeyedEntry(e'.source, TargetId(e'.target), m'[e'], e'.target == DropOff)
    {
      if e' != e {
        if KeyOf(e') == KeyOf(e) { KeyOfInjective(e', e); }
      }
    }
    forall k | k in km'
      ensures exists e' :: e' in m' && KeyOf(e') == k
    {
      if k != KeyOf(e) {
        var e0 :| e0 in m && KeyOf(e0) == k;
        assert e0 in m';
      } else {
        assert e in m';
      }
    }
  }

  predicate WellFormedPath(path: seq<string>) {
    forall k :: 0 <= k < |path| ==> WellFormedId(path[k])
  }

  lemma {:induction false} FoldPathCorresponds(km: map<string, KeyedEntry>, m: map<Edge, nat>, path: seq<string>, i: nat)
    requires i <= |path| && WellFormedPath(path) && Corresponds(km, m)
    ensures Corresponds(FoldPathKeyed(km, path, i), FoldPathEdges(m, path, i))
    decreases |path| - i
  {
    if i < |path| {
      var e := Edge(path[i], Successor(path, i));
      BumpCorresponds(km, m, e);
      FoldPathCorresponds(BumpKeyed(km, e.source, TargetId(e.target), e.target == DropOff), Bump(m, e), path, i + 1);
    }
  }

  lemma {:induction false} FoldResponsesCorresponds(km: map<string, KeyedEntry>, m: map<Edge, nat>, rs: seq<ResponseData>)
    requires forall j :: 0 <= j < |rs| ==> WellFormedPath(rs[j].flowPath)
    requires Corresponds(km, m)
    ensures Corresponds(FoldResponsesKeyed(km, rs), FoldResponseEdges(m, rs))
    decreases |rs|
  {
    if |rs| > 0 {
      FoldPathCorresponds(km, m, rs[0].flowPath, 0);
      FoldResponsesCorresponds(FoldPathKeyed(km, rs[0].flowPath, 0), FoldPathEdges(m, rs[0].flowPath, 0), rs[1..]);
    }
  }

  /** When no node ID contains "->" and none is "DROP_OFF", the string-keyed calculator reports
      exactly the pair-keyed transitions. */
  lemma AsWrittenAgreesOnWellFormedIds(rs: seq<ResponseData>)
    requires forall j :: 0 <= j < |rs| ==> WellFormedPath(rs[j].flowPath)
    ensures TransitionsAsWritten(CalculateAsWritten(rs)) == Transitions(Calculate(rs))
  {
    var km := CalculateAsWritten(rs);
    var m := Calculate(rs);
    if |rs| > 0 {
      FoldResponsesCorresponds(map[], map[], rs);
    }
    forall t | t in TransitionsAsWritten(km)
      ensures t in Transitions(m)
    {
      var k :| k in km && t == FlowTransition(km[k].sourceId, km[k].targetId, km[k].count, km[k].isDropOff);
      var e :| e in m && KeyOf(e) == k;
    }
    forall t | t in Transitions(m)
      ensures t in TransitionsAsWritten(km)
    {
      var e :| e in m && t == FlowTransition(e.source, TargetId(e.target), m[e], e.target == DropOff);
      assert KeyOf(e) in km;
    }
  }

  /** A respondent-supplied path entry "DROP_OFF" collides with the sink: for the paths
      [A, DROP_OFF] and [A], the string-keyed map counts the drop-off of the second response
      under the key of the first response's A-to-"DROP_OFF" transition, so the output has no
      drop-off record for A and reports a node transition of value 2. */
  lemma DropOffIdCollision()
    ensures var rs := [ResponseData("r1", ["A", "DROP_OFF"], 0, []), ResponseData("r2", ["A"], 0, [])];
            && FlowTransition("A", "DROP_OFF", 2, false) in TransitionsAsWritten(CalculateAsWritten(rs))
            && (forall t :: t in TransitionsAsWritten(CalculateAsWritten(rs)) && t.sourceId == "A" ==> !t.isDropOff)
            && FlowTransition("A", "DROP_OFF", 1, true) in Transitions(Calculate(rs))
            && FlowTransition("A", "DROP_OFF", 1, false) in Transitions(Calculate(rs))
  {
    var r1 := ResponseData("r1", ["A", "DROP_OFF"], 0, []);
    var r2 := ResponseData("r2", ["A"], 0, []);
    var rs := [r1, r2];
    var key := EdgeKey("A", "DROP_OFF");
    var key2 := EdgeKey("DROP_OFF", "DROP_OFF");
    assert key != key2;
    var km0 := BumpKeyed(map[], "A", "DROP_OFF", false);
    assert km0 == map[key := KeyedEntry("A", "DROP_OFF", 1, false)];
    var km1 := BumpKeyed(km0, "DROP_OFF", DropOffId, true);
    assert km1 == km0[key2 := KeyedEntry("DROP_OFF", "DROP_OFF", 1, true)];
    assert FoldPathKeyed(map[], r1.flowPath, 0) == km1 by {
      assert FoldPathKeyed(km1, r1.flowPath, 2) == km1;
      assert FoldPathKeyed(km0, r1.flowPath, 1) == km1;
    }
    var km := BumpKeyed(km1, "A", DropOffId, true);
    assert km == km1[key := KeyedEntry("A", "DROP_OFF", 2, false)];
    assert FoldPathKeyed(km1, r2.flowPath, 0) == km by {
      assert FoldPathKeyed(km, r2.flowPath, 1) == km;
    }
    assert rs[1..] == [r2] && [r2][1..] == [];
    assert FoldResponsesKeyed(km1, [r2]) == km;
    assert CalculateAsWritten(rs) == km;
    assert km.Keys == {key, key2};
    forall t | t in TransitionsAsWritten(km) && t.sourceId == "A"
      ensures !t.isDropOff
    {
    }
    assert FlowTransition("A", "DROP_OFF", 2, false) in TransitionsAsWritten(km) by {
      assert key in km;
    }
    var eN := Edge("A", Node("DROP_OFF"));
    var eD := Edge("DROP_OFF", DropOff);
    var eA := Edge("A", DropOff);
    var m0 := Bump(map[], eN);
    var m1 := Bump(m0, eD);
    assert FoldPathEdges(map[], r1.flowPath, 0) == m1 by {
      assert FoldPathEdges(m1, r1.flowPath, 2) == m1;
      assert FoldPathEdges(m0, r1.flowPath, 1) == m1;
    }
    var m := Bump(m1, eA);
    assert FoldPathEdges(m1, r2.flowPath, 0) == m by {
      assert FoldPathEdges(m, r2.flowPath, 1) == m;
    }
    assert FoldResponseEdges(m1, [r2]) == m;
    assert Calculate(rs) == m;
    assert m[eA] == 1 && m[eN] == 1;
    assert FlowTransition("A", "DROP_OFF", 1, true) in Transitions(m) by { assert eA in m; }
    assert FlowTransition("A", "DROP_OFF", 1, false) in Transitions(m) by { assert eN in m; }
  }
}

=== FILE: flow_tree.dfy ===
/** The flat-to-nested flow conversion `buildTree`, which the flows service, the links service
    and the forms handler each define with the same body (internal/flows/service.go,
    internal/links/service.go, internal/forms/handler.go); it is modelled once here. Items come
    from a flow_connections query joined with the question table. */
module FlowTree {
  import opened Wrappers
  import Seqs

  /** One row of the flow query: connection ID, parent connection (None at the top level),
      question type and question text. */
  datatype FlowItem = FlowItem(id: string, parentId: Option<string>, qtype: string, question: string)

  /** One node of the nested block structure returned to clients. */
  datatype TreeBlock = TreeBlock(id: string, qtype: string, question: string, children: seq<TreeBlock>)

  /** buildTree(items, parent): for each item, in order, whose parent matches, a block whose
      children are built by the same scan. Go recurses without bound (a cycle of parent links
      never returns); here each level consumes one unit of `fuel` and an exhausted fuel yields
      no blocks. */
  function BuildTree(items: seq<FlowItem>, parent: Option<string>, fuel: nat): seq<TreeBlock>
    decreases fuel, 0
  {
    if fuel == 0 then [] else Collect(items, parent, 0, fuel - 1)
  }

  /** The scan over `items[i..]`; both nil or both equal is Option equality. */
  function Collect(items: seq<FlowItem>, parent: Option<string>, i: nat, fuel: nat): seq<TreeBlock>
    requires i <= |items|
    decreases fuel, |items| - i + 1
  {
    if i == |items| then []
    else if items[i].parentId == parent then
      var it := items[i];
      [TreeBlock(it.id, it.qtype, it.question, BuildTree(items, Some(it.id), fuel))] + Collect(items, parent, i + 1, fuel)
    else Collect(items, parent, i + 1, fuel)
  }

  /** The items whose parent is `parent`, in order. */
  function Siblings(items: seq<FlowItem>, parent: Option<string>): (r: seq<FlowItem>)
    ensures |r| <= |items|
  {
    if |items| == 0 then []
    else (if items[0].parentId == parent then [items[0]] else []) + Siblings(items[1..], parent)
  }

  /** The rows that describe the top level of a forest whose parent is `parent`. */
  function Tops(bs: seq<TreeBlock>, parent: Option<string>): (r: seq<FlowItem>)
    ensures |r| == |bs|
  {
    if |bs| == 0 then [] else [FlowItem(bs[0].id, parent, bs[0].qtype, bs[0].question)] + Tops(bs[1..], parent)
  }

  /** The rows of a forest in pre-order: each block followed by its subtree, roots under `parent`. */
  function Flatten(bs: seq<TreeBlock>, parent: Option<string>): seq<FlowItem>
    decreases bs
  {
    if |bs| == 0 then []
    else [FlowItem(bs[0].id, parent, bs[0].qtype, bs[0].question)]
         + Flatten(bs[0].children, Some(bs[0].id)) + Flatten(bs[1..], parent)
  }

  /** All blocks of a forest in pre-order. */
  function AllBlocks(bs: seq<TreeBlock>): seq<TreeBlock>
    decreases bs
  {
    if |bs| == 0 then [] else [bs[0]] + AllBlocks(bs[0].children) + AllBlocks(bs[1..])
  }

  function Height(bs: seq<TreeBlock>): nat
    decreases bs
  {
    if |bs| == 0 then 0
    else
      var h0 := 1 + Height(bs[0].children);
      var h1 := Height(bs[1..]);
      if h0 < h1 then h1 else h0
  }

  function Ids(bs: seq<TreeBlock>): seq<string> {
    seq(|AllBlocks(bs)|, k requires 0 <= k < |AllBlocks(bs)| => AllBlocks(bs)[k].id)
  }

  predicate Distinct<T(==)>(s: seq<T>) {
    forall i, j :: 0 <= i < j < |s| ==> s[i] != s[j]
  }

  /** The children of the first block with ID `x`, in pre-order, if any. */
  function ChildrenOf(bs: seq<TreeBlock>, x: string): Option<seq<TreeBlock>>
    decreases bs
  {
    if |bs| == 0 then None
    else if bs[0].id == x then Some(bs[0].children)
    else
      var inner := ChildrenOf(bs[0].children, x);
      if inner.Some? then inner else ChildrenOf(bs[1..], x)
  }

  /** The blocks built for a run of sibling rows. */
  function Expand(items: seq<FlowItem>, cs: seq<FlowItem>, fuel: nat): seq<TreeBlock> {
    if |cs| == 0 then []
    else [TreeBlock(cs[0].id, cs[0].qtype, cs[0].question, BuildTree(items, Some(cs[0].id), fuel))] + Expand(items, cs[1..], fuel)
  }

  // ---------------------------------------------------------------------------------------
  // The scan builds one block per sibling row, in row order.

  lemma {:induction false} CollectExpandsSiblings(items: seq<FlowItem>, parent: Option<string>, i: nat, fuel: nat)
    requires i <= |items|
    ensures Collect(items, parent, i, fuel) == Expand(items, Siblings(items[i..], parent), fuel)
    decreases |items| - i
  {
    if i < |items| {
      CollectExpandsSiblings(items, parent, i + 1, fuel);
      assert items[i..][1..] == items[i + 1..];
      if items[i].parentId == parent {
        assert Siblings(items[i..], parent) == [items[i]] + Siblings(items[i + 1..], parent);
        var cs := [items[i]] + Siblings(items[i + 1..], parent);
        assert cs[0] == items[i] && cs[1..] == Siblings(items[i + 1..], parent);
        assert Expand(items, cs, fuel) ==
          [TreeBlock(items[i].id, items[i].qtype, items[i].question, BuildTree(items, Some(items[i].id), fuel))]
          + Expand(items, cs[1..], fuel);
      } else {
        assert Siblings(items[i..], parent) == Siblings(items[i + 1..], parent);
      }
    }
  }

  /** The top level of buildTree lists exactly the sibling rows of `parent`, in order, and each
      block's children are the tree below that row. */
  lemma BuildTreeLevels(items: seq<FlowItem>, parent: Option<string>, fuel: nat)
    requires fuel > 0
    ensures var r := BuildTree(items, parent, fuel);
            var cs := Siblings(items, parent);
            && |r| == |cs|
            && forall k :: 0 <= k < |r| ==>
                 && r[k].id == cs[k].id && r[k].qtype == cs[k].qtype && r[k].question == cs[k].question
                 && cs[k].parentId == parent
                 && r[k].children == BuildTree(items, Some(cs[k].id), fuel - 1)
  {
    CollectExpandsSiblings(items, parent, 0, fuel - 1);
    assert items[0..] == items;
    ExpandShape(items, Siblings(items, parent), fuel - 1);
    SiblingsHaveParent(items, parent);
  }

  lemma {:induction false} ExpandShape(items: seq<FlowItem>, cs: seq<FlowItem>, fuel: nat)
    ensures var r := Expand(items, cs, fuel);
            && |r| == |cs|
            && forall k :: 0 <= k < |r| ==>
                 r[k] == TreeBlock(cs[k].id, cs[k].qtype, cs[k].question, BuildTree(items, Some(cs[k].id), fuel))
  {
    if |cs| > 0 {
      ExpandShape(items, cs[1..], fuel);
    }
  }

  lemma {:induction false} SiblingsHaveParent(items: seq<FlowItem>, parent: Option<string>)
    ensures forall k :: 0 <= k < |Siblings(items, parent)| ==> Siblings(items, parent)[k].parentId == parent
  {
    if |items| > 0 {
      SiblingsHaveParent(items[1..], parent);
    }
  }

  lemma {:induction false} SiblingsAppend(a: seq<FlowItem>, b: seq<FlowItem>, p: Option<string>)
    ensures Siblings(a + b, p) == Siblings(a, p) + Siblings(b, p)
  {
    if |a| == 0 {
      assert a + b == b;
    } else {
      var h := if a[0].parentId == p then [a[0]] else [];
      assert (a + b)[0] == a[0] && (a + b)[1..] == a[1..] + b;
      SiblingsAppend(a[1..], b, p);
      assert Siblings(a + b, p) == h + (Siblings(a[1..], p) + Siblings(b, p));
      Seqs.Associative(h, Siblings(a[1..], p), Siblings(b, p));
    }
  }

  /** buildTree looks at each parent's sibling rows only: two row lists that agree on the
      rows below every parent, each list in its own order, build the same forest. */
  lemma {:induction false} BuildTreeBySiblings(x: seq<FlowItem>, y: seq<FlowItem>, p: Option<string>, fuel: nat)
    requires forall q :: Siblings(x, q) == Siblings(y, q)
    ensures BuildTree(x, p, fuel) == BuildTree(y, p, fuel)
    decreases fuel, 0
  {
    if fuel > 0 {
      CollectExpandsSiblings(x, p, 0, fuel - 1);
      CollectExpandsSiblings(y, p, 0, fuel - 1);
      assert x[0..] == x && y[0..] == y;
      ExpandBySiblings(x, y, Siblings(x, p), fuel - 1);
    }
  }

  lemma {:induction false} ExpandBySiblings(x: seq<FlowItem>, y: seq<FlowItem>, cs: seq<FlowItem>, fuel: nat)
    requires forall q :: Siblings(x, q) == Siblings(y, q)
    ensures Expand(x, cs, fuel) == Expand(y, cs, fuel)
    decreases fuel, 1, |cs|
  {
    if |cs| > 0 {
      BuildTreeBySiblings(x, y, Some(cs[0].id), fuel);
      ExpandBySiblings(x, y, cs[1..], fuel);
    }
  }

  // ---------------------------------------------------------------------------------------
  // Facts about pre-order flattening.

  lemma IdsStep(bs: seq<TreeBlock>)
    requires |bs| > 0
    ensures Ids(bs) == [bs[0].id] + Ids(bs[0].children) + Ids(bs[1..])
  {
    var a := AllBlocks(bs);
    assert a == [bs[0]] + AllBlocks(bs[0].children) + AllBlocks(bs[1..]);
    var r := [bs[0].id] + Ids(bs[0].children) + Ids(bs[1..]);
    assert |Ids(bs)| == |r|;
    forall k | 0 <= k < |r|
      ensures Ids(bs)[k] == r[k]
    {
      if k == 0 {
      } else if k < 1 + |AllBlocks(bs[0].children)| {
        assert a[k] == AllBlocks(bs[0].children)[k - 1];
      } else {
        assert a[k] == AllBlocks(bs[1..])[k - 1 - |AllBlocks(bs[0].children)|];
      }
    }
  }

  lemma DistinctParts<T>(x: T, a: seq<T>, b: seq<T>)
    requires Distinct([x] + a + b)
    ensures Distinct(a) && Distinct(b)
    ensures x !in a && x !in b
    ensures forall y :: y in a ==> y !in b
  {
    var s := [x] + a + b;
    forall i, j | 0 <= i < j < |a|
      ensures a[i] != a[j]
    {
      assert a[i] == s[1 + i] && a[j] == s[1 + j];
    }
    forall i, j | 0 <= i < j < |b|
      ensures b[i] != b[j]
    {
      assert b[i] == s[1 + |a| + i] && b[j] == s[1 + |a| + j];
    }
    forall i | 0 <= i < |a|
      ensures a[i] != x
    {
      assert a[i] == s[1 + i] && s[0] == x;
    }
    forall i | 0 <= i < |b|
      ensures b[i] != x
    {
      assert b[i] == s[1 + |a| + i] && s[0] == x;
    }
    forall i, j | 0 <= i < |a| && 0 <= j < |b|
      ensures a[i] != b[j]
    {
      assert a[i] == s[1 + i] && b[j] == s[1 + |a| + j];
    }
  }

  lemma {:induction false} ChildrenOfFound(bs: seq<TreeBlock>, x: string)
    ensures ChildrenOf(bs, x).Some? <==> x in Ids(bs)
    decreases bs
  {
    if |bs| > 0 {
      IdsStep(bs);
      ChildrenOfFound(bs[0].children, x);
      ChildrenOfFound(bs[1..], x);
    }
  }

  /** Which rows of a flattened forest hang below `p`: the roots when `p` is the forest's own
      parent, the children of the block with ID `p` when there is one, and none otherwise. */
  lemma {:induction false} SiblingsOfFlatten(bs: seq<TreeBlock>, q: Option<string>, p: Option<string>)
    requires Distinct(Ids(bs))
    requires q.Some? ==> q.value !in Ids(bs)
    ensures Siblings(Flatten(bs, q), p) == Below(bs, q, p)
    decreases bs
  {
    if |bs| > 0 {
      var b0 := bs[0];
      var it0 := FlowItem(b0.id, q, b0.qtype, b0.question);
      IdsStep(bs);
      DistinctParts(b0.id, Ids(b0.children), Ids(bs[1..]));
      SiblingsOfFlatten(b0.children, Some(b0.id), p);
      SiblingsOfFlatten(bs[1..], q, p);
      assert Flatten(bs, q) == [it0] + Flatten(b0.children, Some(b0.id)) + Flatten(bs[1..], q);
      SiblingsAppend([it0] + Flatten(b0.children, Some(b0.id)), Flatten(bs[1..], q), p);
      SiblingsAppend([it0], Flatten(b0.children, Some(b0.id)), p);
      assert [it0][1..] == [];
      BelowStep(bs, q, p);
    }
  }

  /** The rows below `p` in a flattened forest rooted at `q`. */
  function Below(bs: seq<TreeBlock>, q: Option<string>, p: Option<string>): seq<FlowItem> {
    if p == q then Tops(bs, q)
    else if p.Some? && ChildrenOf(bs, p.value).Some? then Tops(ChildrenOf(bs, p.value).value, p)
    else []
  }

  lemma BelowStep(bs: seq<TreeBlock>, q: Option<string>, p: Option<string>)
    requires |bs| > 0
    requires Distinct(Ids(bs))
    requires q.Some? ==> q.value !in Ids(bs)
    requires Ids(bs) == [bs[0].id] + Ids(bs[0].children) + Ids(bs[1..])
    requires bs[0].id !in Ids(bs[0].children) && bs[0].id !in Ids(bs[1..])
    requires forall y :: y in Ids(bs[0].children) ==> y !in Ids(bs[1..])
    ensures Below(bs, q, p) ==
            (if p == q then [FlowItem(bs[0].id, q, bs[0].qtype, bs[0].question)] else [])
            + Below(bs[0].children, Some(bs[0].id), p) + Below(bs[1..], q, p)
  {
    var b0 := bs[0];
    if p == q {
      if q.Some? {
        ChildrenOfFound(b0.children, q.value);
      }
      assert Tops(bs, q) == [FlowItem(b0.id, q, b0.qtype, b0.question)] + Tops(bs[1..], q);
    } else if p.Some? {
      ChildrenOfFound(b0.children, p.value);
      ChildrenOfFound(bs[1..], p.value);
    }
  }

  lemma {:induction false} AllBlocksFound(bs: seq<TreeBlock>, c: TreeBlock)
    requires Distinct(Ids(bs)) && c in AllBlocks(bs)
    ensures ChildrenOf(bs, c.id) == Some(c.children)
    decreases bs
  {
    var b0 := bs[0];
    IdsStep(bs);
    DistinctParts(b0.id, Ids(b0.children), Ids(bs[1..]));
    assert AllBlocks(bs) == [b0] + AllBlocks(b0.children) + AllBlocks(bs[1..]);
    if c == b0 {
    } else if c in AllBlocks(b0.children) {
      AllBlocksFound(b0.children, c);
      if c.id == b0.id {
        IdInIds(b0.children, c);
      }
    } else {
      AllBlocksFound(bs[1..], c);
      IdInIds(bs[1..], c);
      ChildrenOfFound(b0.children, c.id);
    }
  }

  lemma IdInIds(bs: seq<TreeBlock>, c: TreeBlock)
    requires c in AllBlocks(bs)
    ensures c.id in Ids(bs)
  {
    var k :| 0 <= k < |AllBlocks(bs)| && AllBlocks(bs)[k] == c;
    assert Ids(bs)[k] == c.id;
  }

  // ---------------------------------------------------------------------------------------
  // The round trip.

  /** Every block of `g` is a block of `f` (so the rows of `f` describe its children). */
  predicate Within(f: seq<TreeBlock>, g: seq<TreeBlock>) {
    forall c :: c in AllBlocks(g) ==> ChildrenOf(f, c.id) == Some(c.children)
  }

  lemma {:induction false} RebuildForest(f: seq<TreeBlock>, g: seq<TreeBlock>, p: Option<string>, fuel: nat)
    requires Distinct(Ids(f)) && Within(f, g)
    requires Siblings(Flatten(f, None), p) == Tops(g, p)
    requires fuel > Height(g)
    ensures BuildTree(Flatten(f, None), p, fuel) == g
    decreases g, 1
  {
    var items := Flatten(f, None);
    CollectExpandsSiblings(items, p, 0, fuel - 1);
    assert items[0..] == items;
    RebuildLevel(f, g, p, fuel - 1);
  }

  lemma {:induction false} RebuildLevel(f: seq<TreeBlock>, g: seq<TreeBlock>, p: Option<string>, fuel: nat)
    requires Distinct(Ids(f)) && Within(f, g)
    requires fuel >= Height(g)
    ensures Expand(Flatten(f, None), Tops(g, p), fuel) == g
    decreases g, 0
  {
    if |g| > 0 {
      var g0 := g[0];
      var items := Flatten(f, None);
      assert AllBlocks(g) == [g0] + AllBlocks(g0.children) + AllBlocks(g[1..]);
      assert Within(f, g0.children) && Within(f, g[1..]);
      assert ChildrenOf(f, g0.id) == Some(g0.children);
      SiblingsOfFlatten(f, None, Some(g0.id));
      RebuildForest(f, g0.children, Some(g0.id), fuel);
      RebuildLevel(f, g[1..], p, fuel);
      assert Tops(g, p)[1..] == Tops(g[1..], p);
    }
  }

  /** Flattening a forest whose block IDs are distinct into rows and running buildTree over the
      rows gives the forest back, given fuel beyond its height. */
  lemma RoundTrip(f: seq<TreeBlock>, fuel: nat)
    requires Distinct(Ids(f))
    requires fuel > Height(f)
    ensures BuildTree(Flatten(f, None), None, fuel) == f
  {
    forall c | c in AllBlocks(f)
      ensures ChildrenOf(f, c.id) == Some(c.children)
    {
      AllBlocksFound(f, c);
    }
    SiblingsOfFlatten(f, None, None);
    RebuildForest(f, f, None, fuel);
  }

  /** A forest is never taller than it has blocks. */
  lemma {:induction false} HeightBound(bs: seq<TreeBlock>)
    ensures Height(bs) <= |AllBlocks(bs)|
    decreases bs
  {
    if |bs| > 0 {
      HeightBound(bs[0].children);
      HeightBound(bs[1..]);
    }
  }
}

=== FILE: flows_service.dfy ===
/** Saving a question tree as flow connections: the flows service's UpdateFlow and
    processBlock (internal/flows/service.go) and the forms handler's processBlock used when
    cloning a template (internal/forms/handler.go), which is the same walk without trimming,
    validation or the ID mapping. Connection IDs are generated by the database; `ids(k)` is the
    ID of the k-th connection created during one save. */
module FlowsService {
  import opened Wrappers
  import opened Storage
  import opened Text
  import opened FlowTree
  import opened Records
  import Cache
  import FormsService

  /** A row of flow_connections; `qtype` and `question` are those of its question row. */
  datatype Connection = Connection(
    id: string,
    parentId: Option<string>,
    orderIndex: nat,
    depthLevel: nat,
    isTerminal: bool,
    qtype: string,
    question: string)

  datatype FlowError = InvalidInput | FormNotFound | Db(cause: DbError)

  /** The editor save trims and validates and records the ID mapping; the template clone does
      neither. */
  datatype Mode = Editor | Clone

  /** How the database behaves during one save: the generated connection IDs, whether creating a
      question fails, and which connection insert (by position) fails. */
  datatype FlowEnv = FlowEnv(ids: nat -> string, questionError: Option<DbError>, connectionError: Option<(nat, DbError)>)

  /** The questions known by (type, text), the connections created so far, and the mapping
      from client block IDs to connection IDs. */
  datatype FlowState = FlowState(questions: set<(string, string)>, created: seq<Connection>, mapping: map<string, string>)

  /** The state after a walk, and the error that stopped it. */
  datatype Progress = Progress(st: FlowState, err: Option<FlowError>)

  /** The editor trims every question. Trimming is pure, so trimming the whole tree before the
      walk is the same as trimming each block when the walk reaches it. */
  function TrimQuestions(bs: seq<TreeBlock>): (r: seq<TreeBlock>)
    ensures |r| == |bs|
    decreases bs
  {
    if |bs| == 0 then []
    else [bs[0].(question := TrimSpace(bs[0].question), children := TrimQuestions(bs[0].children))] + TrimQuestions(bs[1..])
  }

  /** processBlock (flows/service.go lines 61-100, forms/handler.go lines 317-357) on a block
      whose question the editor has already trimmed. */
  function ProcessBlock(env: FlowEnv, mode: Mode, st: FlowState, b: TreeBlock, parent: Option<string>, order: nat, depth: nat): Progress
    decreases b, 1
  {
    var text := b.question;
    if mode == Editor && (text == [] || b.qtype == []) then Progress(st, Some(InvalidInput))
    else
      var key := (b.qtype, text);
      if key !in st.questions && env.questionError.Some? then Progress(st, Some(Db(env.questionError.value)))
      else
        var questions := st.questions + {key};
        var k := |st.created|;
        if env.connectionError.Some? && env.connectionError.value.0 == k then
          Progress(st.(questions := questions), Some(Db(env.connectionError.value.1)))
        else
          var c := Connection(env.ids(k), parent, order, depth, |b.children| == 0, b.qtype, text);
          var mapping := if mode == Editor && b.id != "" then st.mapping[b.id := c.id] else st.mapping;
          ProcessList(env, mode, FlowState(questions, st.created + [c], mapping), b.children, Some(c.id), 0, depth + 1)
  }

  /** The loop over siblings `bs[i..]`, stopping at the first error. */
  function ProcessList(env: FlowEnv, mode: Mode, st: FlowState, bs: seq<TreeBlock>, parent: Option<string>, i: nat, depth: nat): Progress
    requires i <= |bs|
    decreases bs, 0, |bs| - i
  {
    if i == |bs| then Progress(st, None)
    else
      var p := ProcessBlock(env, mode, st, bs[i], parent, i, depth);
      if p.err.Some? then p else ProcessList(env, mode, p.st, bs, parent, i + 1, depth)
  }

  // ---------------------------------------------------------------------------------------
  // The reference layout

  /** The forest as it is stored: block IDs replaced by generated connection IDs in pre-order
      from `base`. */
  function Assign(ids: nat -> string, bs: seq<TreeBlock>, base: nat): (r: seq<TreeBlock>)
    ensures |r| == |bs|
    decreases bs
  {
    if |bs| == 0 then []
    else
      var b0 := bs[0];
      [TreeBlock(ids(base), b0.qtype, b0.question, Assign(ids, b0.children, base + 1))]
      + Assign(ids, bs[1..], base + 1 + |AllBlocks(b0.children)|)
  }

  /** The connection rows of a stored forest in pre-order, with position and depth. */
  function Layout(a: seq<TreeBlock>, parent: Option<string>, depth: nat, order: nat): seq<Connection>
    decreases a
  {
    if |a| == 0 then []
    else
      [Connection(a[0].id, parent, order, depth, |a[0].children| == 0, a[0].qtype, a[0].question)]
      + Layout(a[0].children, Some(a[0].id), depth + 1, 0) + Layout(a[1..], parent, depth, order + 1)
  }

  /** What the flow query reads back from connection rows. */
  function Items(cs: seq<Connection>): (r: seq<FlowItem>)
    ensures |r| == |cs|
  {
    if |cs| == 0 then [] else [FlowItem(cs[0].id, cs[0].parentId, cs[0].qtype, cs[0].question)] + Items(cs[1..])
  }

  /** Every block of the (trimmed) forest passes the editor's check: a type and a question. */
  predicate AllValid(bs: seq<TreeBlock>)
    decreases bs
  {
    |bs| == 0 || (bs[0].question != [] && bs[0].qtype != [] && AllValid(bs[0].children) && AllValid(bs[1..]))
  }

  /** Neither database fault is hit by `n` connection inserts starting at position `base`. */
  predicate NoFault(env: FlowEnv, base: nat, n: nat) {
    env.questionError.None? && (env.connectionError.None? || !(base <= env.connectionError.value.0 < base + n))
  }

  /** The non-empty client block IDs of a forest. */
  function ClientIds(bs: seq<TreeBlock>): set<string>
    decreases bs
  {
    if |bs| == 0 then {}
    else (if bs[0].id != "" then {bs[0].id} else {}) + ClientIds(bs[0].children) + ClientIds(bs[1..])
  }

  // ---------------------------------------------------------------------------------------
  // Facts about the reference layout

  lemma {:induction false} LayoutLength(a: seq<TreeBlock>, parent: Option<string>, depth: nat, order: nat)
    ensures |Layout(a, parent, depth, order)| == |AllBlocks(a)|
    decreases a
  {
    if |a| > 0 {
      LayoutLength(a[0].children, Some(a[0].id), depth + 1, 0);
      LayoutLength(a[1..], parent, depth, order + 1);
    }
  }

  lemma {:induction false} ItemsAppend(x: seq<Connection>, y: seq<Connection>)
    ensures Items(x + y) == Items(x) + Items(y)
  {
    if |x| > 0 {
      assert (x + y)[0] == x[0] && (x + y)[1..] == x[1..] + y;
      ItemsAppend(x[1..], y);
    } else {
      assert x + y == y;
    }
  }

  /** Reading the rows back gives the pre-order flattening of the stored forest. */
  lemma {:induction false} ItemsOfLayout(a: seq<TreeBlock>, parent: Option<string>, depth: nat, order: nat)
    ensures Items(Layout(a, parent, depth, order)) == Flatten(a, parent)
    decreases a
  {
    if |a| > 0 {
      var head := [Connection(a[0].id, parent, order, depth, |a[0].children| == 0, a[0].qtype, a[0].question)];
      var kids := Layout(a[0].children, Some(a[0].id), depth + 1, 0);
      var rest := Layout(a[1..], parent, depth, order + 1);
      ItemsAppend(head + kids, rest);
      ItemsAppend(head, kids);
      ItemsOfLayout(a[0].children, Some(a[0].id), depth + 1, 0);
      ItemsOfLayout(a[1..], parent, depth, order + 1);
    }
  }

  lemma {:induction false} AllBlocksAppend(x: seq<TreeBlock>, y: seq<TreeBlock>)
    ensures AllBlocks(x + y) == AllBlocks(x) + AllBlocks(y)
  {
    if |x| > 0 {
      assert (x + y)[0] == x[0] && (x + y)[1..] == x[1..] + y;
      AllBlocksAppend(x[1..], y);
    } else {
      assert x + y == y;
    }
  }

  /** Assignment keeps the number of blocks. */
  lemma {:induction false} AssignCount(ids: nat -> string, bs: seq<TreeBlock>, base: nat)
    ensures |AllBlocks(Assign(ids, bs, base))| == |AllBlocks(bs)|
    decreases bs
  {
    if |bs| > 0 {
      var a := Assign(ids, bs, base);
      var n0 := |AllBlocks(bs[0].children)|;
      AssignCount(ids, bs[0].children, base + 1);
      AssignCount(ids, bs[1..], base + 1 + n0);
      assert a[0].children == Assign(ids, bs[0].children, base + 1);
      assert a[1..] == Assign(ids, bs[1..], base + 1 + n0);
    }
  }

  /** Assignment numbers the blocks in pre-order from `base`. */
  lemma AssignIds(ids: nat -> string, bs: seq<TreeBlock>, base: nat)
    ensures |AllBlocks(Assign(ids, bs, base))| == |AllBlocks(bs)|
    ensures forall k :: 0 <= k < |AllBlocks(bs)| ==> AllBlocks(Assign(ids, bs, base))[k].id == ids(base + k)
  {
    AssignCount(ids, bs, base);
    forall k | 0 <= k < |AllBlocks(bs)|
      ensures AllBlocks(Assign(ids, bs, base))[k].id == ids(base + k)
    {
      AssignIdAt(ids, bs, base, k);
    }
  }

  /** The block at pre-order position `k` gets the ID generated at `base + k`. */
  lemma {:induction false} AssignIdAt(ids: nat -> string, bs: seq<TreeBlock>, base: nat, k: nat)
    requires k < |AllBlocks(bs)|
    ensures k < |AllBlocks(Assign(ids, bs, base))|
    ensures AllBlocks(Assign(ids, bs, base))[k].id == ids(base + k)
    decreases bs, 1
  {
    AssignCount(ids, bs, base);
    PreorderAt(bs, k);
    if k == 0 {
      var a := Assign(ids, bs, base);
      PreorderAt(a, 0);
    } else if k < 1 + |AllBlocks(bs[0].children)| {
      AssignIdInChildren(ids, bs, base, k);
    } else {
      AssignIdInRest(ids, bs, base, k);
    }
  }

  lemma {:induction false} AssignIdInChildren(ids: nat -> string, bs: seq<TreeBlock>, base: nat, k: nat)
    requires |bs| > 0 && 0 < k < 1 + |AllBlocks(bs[0].children)|
    ensures |AllBlocks(Assign(ids, bs, base))| == |AllBlocks(bs)|
    ensures k < |AllBlocks(Assign(ids, bs, base))| && AllBlocks(Assign(ids, bs, base))[k].id == ids(base + k)
    decreases bs, 0
  {
    AssignCount(ids, bs, base);
    var a := Assign(ids, bs, base);
    var kids := Assign(ids, bs[0].children, base + 1);
    AssignHead(ids, bs, base);
    AssignCount(ids, bs[0].children, base + 1);
    PreorderAt(a, k);
    AssignIdAt(ids, bs[0].children, base + 1, k - 1);
    assert AllBlocks(a)[k] == AllBlocks(kids)[k - 1];
    assert ids(base + 1 + (k - 1)) == ids(base + k);
  }

  lemma {:induction false} AssignIdInRest(ids: nat -> string, bs: seq<TreeBlock>, base: nat, k: nat)
    requires |bs| > 0 && 1 + |AllBlocks(bs[0].children)| <= k < |AllBlocks(bs)|
    ensures |AllBlocks(Assign(ids, bs, base))| == |AllBlocks(bs)|
    ensures k < |AllBlocks(Assign(ids, bs, base))| && AllBlocks(Assign(ids, bs, base))[k].id == ids(base + k)
    decreases bs, 0
  {
    var n0 := |AllBlocks(bs[0].children)|;
    AssignCount(ids, bs, base);
    AssignRestAt(ids, bs, base, k);
    assert k - 1 - n0 < |AllBlocks(bs[1..])| by {
      RestAt(bs, k);
    }
    AssignIdAt(ids, bs[1..], base + 1 + n0, k - 1 - n0);
  }

  /** A position past the first tree's listing falls in the listing of the rest. */
  lemma RestAt(xs: seq<TreeBlock>, k: nat)
    requires |xs| > 0 && 1 + |AllBlocks(xs[0].children)| <= k < |AllBlocks(xs)|
    ensures k - 1 - |AllBlocks(xs[0].children)| < |AllBlocks(xs[1..])|
    ensures AllBlocks(xs)[k] == AllBlocks(xs[1..])[k - 1 - |AllBlocks(xs[0].children)|]
  {
    ConcatRight([xs[0]] + AllBlocks(xs[0].children), AllBlocks(xs[1..]), k);
  }

  lemma ConcatRight<T>(u: seq<T>, v: seq<T>, k: nat)
    requires |u| <= k < |u| + |v|
    ensures (u + v)[k] == v[k - |u|]
  {
  }

  /** The listing of a stored forest past its first tree is the listing of the stored rest. */
  lemma AssignRestAt(ids: nat -> string, bs: seq<TreeBlock>, base: nat, k: nat)
    requires |bs| > 0 && 1 + |AllBlocks(bs[0].children)| <= k < |AllBlocks(bs)|
    ensures k < |AllBlocks(Assign(ids, bs, base))|
    ensures k - 1 - |AllBlocks(bs[0].children)| < |AllBlocks(Assign(ids, bs[1..], base + 1 + |AllBlocks(bs[0].children)|))|
    ensures AllBlocks(Assign(ids, bs, base))[k]
         == AllBlocks(Assign(ids, bs[1..], base + 1 + |AllBlocks(bs[0].children)|))[k - 1 - |AllBlocks(bs[0].children)|]
  {
    AssignCount(ids, bs, base);
    AssignHead(ids, bs, base);
    AssignCount(ids, bs[0].children, base + 1);
    RestAt(Assign(ids, bs, base), k);
  }

  /** The first stored block and the stored rest of a forest. */
  lemma AssignHead(ids: nat -> string, bs: seq<TreeBlock>, base: nat)
    requires |bs| > 0
    ensures var a := Assign(ids, bs, base);
            && a[0] == TreeBlock(ids(base), bs[0].qtype, bs[0].question, Assign(ids, bs[0].children, base + 1))
            && a[1..] == Assign(ids, bs[1..], base + 1 + |AllBlocks(bs[0].children)|)
  {
  }

  /** Where position `k` of a pre-order listing comes from. */
  lemma PreorderAt(bs: seq<TreeBlock>, k: nat)
    requires k < |AllBlocks(bs)|
    ensures |bs| > 0
    ensures |AllBlocks(bs)| == 1 + |AllBlocks(bs[0].children)| + |AllBlocks(bs[1..])|
    ensures var n0 := |AllBlocks(bs[0].children)|;
            AllBlocks(bs)[k] == if k == 0 then bs[0]
                                else if k < 1 + n0 then AllBlocks(bs[0].children)[k - 1]
                                else AllBlocks(bs[1..])[k - 1 - n0]
  {
  }

  /** Generated IDs that never repeat give a forest with distinct IDs. */
  lemma AssignDistinct(ids: nat -> string, bs: seq<TreeBlock>, base: nat)
    requires forall i, j :: i != j ==> ids(i) != ids(j)
    ensures Distinct(Ids(Assign(ids, bs, base)))
  {
    AssignIds(ids, bs, base);
    var s := Ids(Assign(ids, bs, base));
    forall i, j | 0 <= i < j < |s| ensures s[i] != s[j] {
      assert s[i] == ids(base + i) && s[j] == ids(base + j);
    }
  }

  lemma {:induction false} AssignHeight(ids: nat -> string, bs: seq<TreeBlock>, base: nat)
    ensures Height(Assign(ids, bs, base)) == Height(bs)
    decreases bs
  {
    if |bs| > 0 {
      var a := Assign(ids, bs, base);
      AssignHeight(ids, bs[0].children, base + 1);
      AssignHeight(ids, bs[1..], base + 1 + |AllBlocks(bs[0].children)|);
      assert a[1..] == Assign(ids, bs[1..], base + 1 + |AllBlocks(bs[0].children)|);
    }
  }

  /** `a` is `bs` with other IDs: same shape, types, questions and order. */
  predicate SameShape(a: seq<TreeBlock>, bs: seq<TreeBlock>)
    decreases bs
  {
    |a| == |bs| &&
    forall k :: 0 <= k < |bs| ==>
      a[k].qtype == bs[k].qtype && a[k].question == bs[k].question && SameShape(a[k].children, bs[k].children)
  }

  lemma {:induction false} AssignShape(ids: nat -> string, bs: seq<TreeBlock>, base: nat)
    ensures SameShape(Assign(ids, bs, base), bs)
    decreases bs
  {
    if |bs| > 0 {
      var a := Assign(ids, bs, base);
      var n0 := |AllBlocks(bs[0].children)|;
      AssignShape(ids, bs[0].children, base + 1);
      AssignShape(ids, bs[1..], base + 1 + n0);
      assert a[1..] == Assign(ids, bs[1..], base + 1 + n0);
      forall k | 0 <= k < |bs|
        ensures a[k].qtype == bs[k].qtype && a[k].question == bs[k].question && SameShape(a[k].children, bs[k].children)
      {
        if k > 0 {
          assert a[k] == a[1..][k - 1] && bs[k] == bs[1..][k - 1];
        }
      }
    }
  }

  // ---------------------------------------------------------------------------------------
  // What the walk writes

  /** A walk that started with the rows `before` and ended with `after` wrote a prefix of the
      rows `l`, and all of them when it succeeded. */
  predicate Writes(before: seq<Connection>, after: seq<Connection>, l: seq<Connection>, ok: bool) {
    before <= after && after[|before|..] <= l && (ok ==> after == before + l)
  }

  /** The connections written by one block are a prefix of its layout, and all of it when the
      walk succeeds. */
  lemma {:induction false} ProcessBlockLayout(env: FlowEnv, mode: Mode, st: FlowState, b: TreeBlock, parent: Option<string>, order: nat, depth: nat)
    ensures var r := ProcessBlock(env, mode, st, b, parent, order, depth);
            Writes(st.created, r.st.created, Layout(Assign(env.ids, [b], |st.created|), parent, depth, order), r.err.None?)
    decreases b, 1
  {
    var base := |st.created|;
    var key := (b.qtype, b.question);
    if mode == Editor && (b.question == [] || b.qtype == []) {
    } else if key !in st.questions && env.questionError.Some? {
    } else if env.connectionError.Some? && env.connectionError.value.0 == base {
    } else {
      var c := Connection(env.ids(base), parent, order, depth, |b.children| == 0, b.qtype, b.question);
      var mapping := if mode == Editor && b.id != "" then st.mapping[b.id := c.id] else st.mapping;
      var st2 := FlowState(st.questions + {key}, st.created + [c], mapping);
      var r := ProcessList(env, mode, st2, b.children, Some(c.id), 0, depth + 1);
      assert ProcessBlock(env, mode, st, b, parent, order, depth) == r;
      assert b.children[0..] == b.children;
      ProcessListLayout(env, mode, st2, b.children, Some(c.id), 0, depth + 1);
      var kids := Layout(Assign(env.ids, b.children, base + 1), Some(c.id), depth + 1, 0);
      assert Layout(Assign(env.ids, [b], base), parent, depth, order) == [c] + kids by {
        SingleLayout(env.ids, b, base, parent, depth, order);
      }
      WritesJoin(st.created, st2.created, r.st.created, [c], kids, r.err.None?);
    }
  }

  /** The layout of one block: its own row, then those of its children. */
  lemma SingleLayout(ids: nat -> string, b: TreeBlock, base: nat, parent: Option<string>, depth: nat, order: nat)
    ensures Layout(Assign(ids, [b], base), parent, depth, order)
         == [Connection(ids(base), parent, order, depth, |b.children| == 0, b.qtype, b.question)]
          + Layout(Assign(ids, b.children, base + 1), Some(ids(base)), depth + 1, 0)
  {
    var a := Assign(ids, [b], base);
    assert a == [TreeBlock(ids(base), b.qtype, b.question, Assign(ids, b.children, base + 1))];
    assert a[1..] == [];
  }

  /** Writing all of `l0` and then a prefix of `l1` writes a prefix of `l0 + l1`. */
  lemma WritesJoin(c: seq<Connection>, d: seq<Connection>, e: seq<Connection>, l0: seq<Connection>, l1: seq<Connection>, ok: bool)
    requires d == c + l0 && Writes(d, e, l1, ok)
    ensures Writes(c, e, l0 + l1, ok)
  {
    assert e[|c|..] == l0 + e[|d|..];
  }

  /** A walk that stopped inside `l0` wrote a prefix of `l0 + l1`. */
  lemma WritesStop(c: seq<Connection>, d: seq<Connection>, l0: seq<Connection>, l1: seq<Connection>)
    requires Writes(c, d, l0, false)
    ensures Writes(c, d, l0 + l1, false)
  {
  }

  /** The same for the siblings `bs[i..]`, numbered from position `i`. */
  lemma {:induction false} ProcessListLayout(env: FlowEnv, mode: Mode, st: FlowState, bs: seq<TreeBlock>, parent: Option<string>, i: nat, depth: nat)
    requires i <= |bs|
    ensures var r := ProcessList(env, mode, st, bs, parent, i, depth);
            Writes(st.created, r.st.created, Layout(Assign(env.ids, bs[i..], |st.created|), parent, depth, i), r.err.None?)
    decreases bs, 0, |bs| - i, 1
  {
    if i == |bs| {
      var r := ProcessList(env, mode, st, bs, parent, i, depth);
      assert r.st.created[|st.created|..] == [];
    } else if ProcessBlock(env, mode, st, bs[i], parent, i, depth).err.None? {
      ListLayoutNext(env, mode, st, bs, parent, i, depth);
    } else {
      ListLayoutStop(env, mode, st, bs, parent, i, depth);
    }
  }

  /** The first sibling was written in full: the rest continue after it. */
  lemma {:induction false} ListLayoutNext(env: FlowEnv, mode: Mode, st: FlowState, bs: seq<TreeBlock>, parent: Option<string>, i: nat, depth: nat)
    requires i < |bs| && ProcessBlock(env, mode, st, bs[i], parent, i, depth).err.None?
    ensures var r := ProcessList(env, mode, st, bs, parent, i, depth);
            Writes(st.created, r.st.created, Layout(Assign(env.ids, bs[i..], |st.created|), parent, depth, i), r.err.None?)
    decreases bs, 0, |bs| - i, 0
  {
    var base := |st.created|;
    var b := bs[i];
    var p := ProcessBlock(env, mode, st, b, parent, i, depth);
    var r := ProcessList(env, mode, p.st, bs, parent, i + 1, depth);
    assert ProcessList(env, mode, st, bs, parent, i, depth) == r;
    ProcessBlockLayout(env, mode, st, b, parent, i, depth);
    var l0 := Layout(Assign(env.ids, [b], base), parent, depth, i);
    var l1 := Layout(Assign(env.ids, bs[i + 1..], base + |AllBlocks([b])|), parent, depth, i + 1);
    LayoutSplit(env.ids, bs, i, base, parent, depth);
    assert |p.st.created| == base + |AllBlocks([b])| by {
      LayoutLength(Assign(env.ids, [b], base), parent, depth, i);
      AssignIds(env.ids, [b], base);
    }
    ProcessListLayout(env, mode, p.st, bs, parent, i + 1, depth);
    WritesJoin(st.created, p.st.created, r.st.created, l0, l1, r.err.None?);
  }

  /** The first sibling failed: the walk stops inside its layout. */
  lemma ListLayoutStop(env: FlowEnv, mode: Mode, st: FlowState, bs: seq<TreeBlock>, parent: Option<string>, i: nat, depth: nat)
    requires i < |bs| && ProcessBlock(env, mode, st, bs[i], parent, i, depth).err.Some?
    ensures var r := ProcessList(env, mode, st, bs, parent, i, depth);
            Writes(st.created, r.st.created, Layout(Assign(env.ids, bs[i..], |st.created|), parent, depth, i), r.err.None?)
    decreases bs, 0, |bs| - i, 0
  {
    var base := |st.created|;
    var b := bs[i];
    var p := ProcessBlock(env, mode, st, b, parent, i, depth);
    assert ProcessList(env, mode, st, bs, parent, i, depth) == p;
    ProcessBlockLayout(env, mode, st, b, parent, i, depth);
    LayoutSplit(env.ids, bs, i, base, parent, depth);
    WritesStop(st.created, p.st.created, Layout(Assign(env.ids, [b], base), parent, depth, i),
      Layout(Assign(env.ids, bs[i + 1..], base + |AllBlocks([b])|), parent, depth, i + 1));
  }

  /** The layout of `bs[i..]` is that of `bs[i]` followed by that of `bs[i + 1..]`. */
  lemma LayoutSplit(ids: nat -> string, bs: seq<TreeBlock>, i: nat, base: nat, parent: Option<string>, depth: nat)
    requires i < |bs|
    ensures Layout(Assign(ids, bs[i..], base), parent, depth, i)
         == Layout(Assign(ids, [bs[i]], base), parent, depth, i)
          + Layout(Assign(ids, bs[i + 1..], base + |AllBlocks([bs[i]])|), parent, depth, i + 1)
  {
    var b := bs[i];
    var a := Assign(ids, bs[i..], base);
    assert AllBlocks([b]) == [b] + AllBlocks(b.children) + AllBlocks([b][1..]);
    assert bs[i..][1..] == bs[i + 1..];
    assert a[1..] == Assign(ids, bs[i + 1..], base + |AllBlocks([b])|);
    assert Assign(ids, [b], base) == [a[0]];
  }

  // ---------------------------------------------------------------------------------------
  // When the walk succeeds

  lemma AllValidStep(bs: seq<TreeBlock>, i: nat)
    requires i < |bs|
    ensures AllValid(bs[i..]) <==> AllValid([bs[i]]) && AllValid(bs[i + 1..])
    ensures AllValid([bs[i]]) <==> bs[i].question != [] && bs[i].qtype != [] && AllValid(bs[i].children)
  {
    assert bs[i..][1..] == bs[i + 1..];
    assert [bs[i]][1..] == [];
  }

  /** The editor stops with InvalidInput exactly at an invalid block, succeeds only on a valid
      tree, and a walk that hits no database fault fails only that way. */
  lemma {:induction false} ProcessBlockOutcome(env: FlowEnv, mode: Mode, st: FlowState, b: TreeBlock, parent: Option<string>, order: nat, depth: nat)
    ensures var r := ProcessBlock(env, mode, st, b, parent, order, depth);
            && (r.err == Some(InvalidInput) ==> mode == Editor && !AllValid([b]))
            && (mode == Editor && r.err.None? ==> AllValid([b]))
            && ((mode == Clone || AllValid([b])) && NoFault(env, |st.created|, |AllBlocks([b])|) ==> r.err.None?)
    decreases b, 1
  {
    var r := ProcessBlock(env, mode, st, b, parent, order, depth);
    var base := |st.created|;
    var key := (b.qtype, b.question);
    assert AllBlocks([b]) == [b] + AllBlocks(b.children) + AllBlocks([b][1..]);
    assert AllValid([b]) <==> b.question != [] && b.qtype != [] && AllValid(b.children) by {
      assert [b][1..] == [];
    }
    if mode == Editor && (b.question == [] || b.qtype == []) {
    } else if key !in st.questions && env.questionError.Some? {
    } else if env.connectionError.Some? && env.connectionError.value.0 == base {
    } else {
      var c := Connection(env.ids(base), parent, order, depth, |b.children| == 0, b.qtype, b.question);
      var mapping := if mode == Editor && b.id != "" then st.mapping[b.id := c.id] else st.mapping;
      var st2 := FlowState(st.questions + {key}, st.created + [c], mapping);
      assert r == ProcessList(env, mode, st2, b.children, Some(c.id), 0, depth + 1);
      assert b.children[0..] == b.children;
      ProcessListOutcome(env, mode, st2, b.children, Some(c.id), 0, depth + 1);
    }
  }

  lemma {:induction false} ProcessListOutcome(env: FlowEnv, mode: Mode, st: FlowState, bs: seq<TreeBlock>, parent: Option<string>, i: nat, depth: nat)
    requires i <= |bs|
    ensures var r := ProcessList(env, mode, st, bs, parent, i, depth);
            && (r.err == Some(InvalidInput) ==> mode == Editor && !AllValid(bs[i..]))
            && (mode == Editor && r.err.None? ==> AllValid(bs[i..]))
            && ((mode == Clone || AllValid(bs[i..])) && NoFault(env, |st.created|, |AllBlocks(bs[i..])|) ==> r.err.None?)
    decreases bs, 0, |bs| - i
  {
    var r := ProcessList(env, mode, st, bs, parent, i, depth);
    if i < |bs| {
      var b := bs[i];
      var p := ProcessBlock(env, mode, st, b, parent, i, depth);
      ProcessBlockOutcome(env, mode, st, b, parent, i, depth);
      AllValidStep(bs, i);
      assert bs[i..] == [b] + bs[i + 1..];
      AllBlocksAppend([b], bs[i + 1..]);
      if p.err.None? {
        assert r == ProcessList(env, mode, p.st, bs, parent, i + 1, depth);
        ProcessBlockLayout(env, mode, st, b, parent, i, depth);
        LayoutLength(Assign(env.ids, [b], |st.created|), parent, depth, i);
        AssignIds(env.ids, [b], |st.created|);
        ProcessListOutcome(env, mode, p.st, bs, parent, i + 1, depth);
      }
    }
  }

  /** The IDs of a run of connections. */
  function ConnIds(cs: seq<Connection>): set<string> {
    set k | 0 <= k < |cs| :: cs[k].id
  }

  lemma ConnIdsPrefix(c: seq<Connection>, d: seq<Connection>)
    requires c <= d
    ensures ConnIds(c) <= ConnIds(d)
  {
    forall x | x in ConnIds(c) ensures x in ConnIds(d) {
      var k :| 0 <= k < |c| && c[k].id == x;
      assert d[k] == c[k];
    }
  }

  lemma ClientIdsStep(bs: seq<TreeBlock>, i: nat)
    requires i < |bs|
    ensures ClientIds(bs[i..]) == ClientIds([bs[i]]) + ClientIds(bs[i + 1..])
    ensures ClientIds([bs[i]]) == (if bs[i].id != "" then {bs[i].id} else {}) + ClientIds(bs[i].children)
  {
    assert bs[i..][1..] == bs[i + 1..];
    assert [bs[i]][1..] == [];
  }

  /** The editor maps every non-empty client block ID; the clone leaves the mapping alone. */
  lemma {:induction false} ProcessBlockMapping(env: FlowEnv, mode: Mode, st: FlowState, b: TreeBlock, parent: Option<string>, order: nat, depth: nat)
    ensures var r := ProcessBlock(env, mode, st, b, parent, order, depth);
            && (mode == Clone ==> r.st.mapping == st.mapping)
            && (mode == Editor && r.err.None? ==> r.st.mapping.Keys == st.mapping.Keys + ClientIds([b]))
    decreases b, 1
  {
    var r := ProcessBlock(env, mode, st, b, parent, order, depth);
    var base := |st.created|;
    var key := (b.qtype, b.question);
    if mode == Editor && (b.question == [] || b.qtype == []) {
    } else if key !in st.questions && env.questionError.Some? {
    } else if env.connectionError.Some? && env.connectionError.value.0 == base {
    } else {
      var c := Connection(env.ids(base), parent, order, depth, |b.children| == 0, b.qtype, b.question);
      var mapping := if mode == Editor && b.id != "" then st.mapping[b.id := c.id] else st.mapping;
      var st2 := FlowState(st.questions + {key}, st.created + [c], mapping);
      assert r == ProcessList(env, mode, st2, b.children, Some(c.id), 0, depth + 1);
      assert b.children[0..] == b.children;
      ProcessListMapping(env, mode, st2, b.children, Some(c.id), 0, depth + 1);
      ClientIdsStep([b], 0);
      assert [b][0..] == [b] && [b][1..] == [];
    }
  }

  lemma {:induction false} ProcessListMapping(env: FlowEnv, mode: Mode, st: FlowState, bs: seq<TreeBlock>, parent: Option<string>, i: nat, depth: nat)
    requires i <= |bs|
    ensures var r := ProcessList(env, mode, st, bs, parent, i, depth);
            && (mode == Clone ==> r.st.mapping == st.mapping)
            && (mode == Editor && r.err.None? ==> r.st.mapping.Keys == st.mapping.Keys + ClientIds(bs[i..]))
    decreases bs, 0, |bs| - i
  {
    var r := ProcessList(env, mode, st, bs, parent, i, depth);
    if i < |bs| {
      var b := bs[i];
      var p := ProcessBlock(env, mode, st, b, parent, i, depth);
      ProcessBlockMapping(env, mode, st, b, parent, i, depth);
      ClientIdsStep(bs, i);
      if p.err.None? {
        assert r == ProcessList(env, mode, p.st, bs, parent, i + 1, depth);
        ProcessListMapping(env, mode, p.st, bs, parent, i + 1, depth);
      } else {
        assert r == p;
      }
    } else {
      assert bs[i..] == [];
    }
  }

  /** Every ID the walk adds to the mapping is that of a connection it created. */
  lemma {:induction false} ProcessBlockTargets(env: FlowEnv, mode: Mode, st: FlowState, b: TreeBlock, parent: Option<string>, order: nat, depth: nat)
    ensures var r := ProcessBlock(env, mode, st, b, parent, order, depth);
            r.st.mapping.Values <= st.mapping.Values + ConnIds(r.st.created)
    decreases b, 1
  {
    var r := ProcessBlock(env, mode, st, b, parent, order, depth);
    var base := |st.created|;
    var key := (b.qtype, b.question);
    if mode == Editor && (b.question == [] || b.qtype == []) {
    } else if key !in st.questions && env.questionError.Some? {
    } else if env.connectionError.Some? && env.connectionError.value.0 == base {
    } else {
      var c := Connection(env.ids(base), parent, order, depth, |b.children| == 0, b.qtype, b.question);
      var mapping := if mode == Editor && b.id != "" then st.mapping[b.id := c.id] else st.mapping;
      var st2 := FlowState(st.questions + {key}, st.created + [c], mapping);
      assert r == ProcessList(env, mode, st2, b.children, Some(c.id), 0, depth + 1);
      ProcessListTargets(env, mode, st2, b.children, Some(c.id), 0, depth + 1);
      ProcessListLayout(env, mode, st2, b.children, Some(c.id), 0, depth + 1);
      assert c.id in ConnIds(r.st.created) by {
        assert r.st.created[base] == c;
      }
      assert mapping.Values <= st.mapping.Values + {c.id};
    }
  }

  lemma {:induction false} ProcessListTargets(env: FlowEnv, mode: Mode, st: FlowState, bs: seq<TreeBlock>, parent: Option<string>, i: nat, depth: nat)
    requires i <= |bs|
    ensures var r := ProcessList(env, mode, st, bs, parent, i, depth);
            r.st.mapping.Values <= st.mapping.Values + ConnIds(r.st.created)
    decreases bs, 0, |bs| - i
  {
    var r := ProcessList(env, mode, st, bs, parent, i, depth);
    if i < |bs| {
      var b := bs[i];
      var p := ProcessBlock(env, mode, st, b, parent, i, depth);
      ProcessBlockTargets(env, mode, st, b, parent, i, depth);
      if p.err.None? {
        assert r == ProcessList(env, mode, p.st, bs, parent, i + 1, depth);
        ProcessListTargets(env, mode, p.st, bs, parent, i + 1, depth);
        ProcessListLayout(env, mode, p.st, bs, parent, i + 1, depth);
        ConnIdsPrefix(p.st.created, r.st.created);
      } else {
        assert r == p;
      }
    }
  }

  // ---------------------------------------------------------------------------------------
  // UpdateFlow

  /** The forms, the live flow of each form, the question bank and the cache. */
  datatype FlowsWorld = FlowsWorld(
    forms: map<string, Form>,
    flows: map<string, seq<Connection>>,
    questions: set<(string, string)>,
    cache: Cache.Store<CachedValue>)

  /** The answers of the repository calls around the walk: the ownership check (whether the
      user owns the form, or a database error), the soft delete of the old flow, and the slug read. */
  datatype FlowFaults = FlowFaults(owned: Result<bool, DbError>, delete: Option<DbError>, slugRead: Option<DbError>)

  datatype Saved = Saved(world: FlowsWorld, mapping: map<string, string>, err: Option<FlowError>)

  /** The stored layout of a request, were every write to succeed. */
  function Plan(ids: nat -> string, blocks: seq<TreeBlock>): seq<Connection> {
    Layout(Assign(ids, TrimQuestions(blocks), 0), None, 0, 0)
  }

  /** The invalidation after a saved flow (lines 45-56): the ID key and the keys of the slugs
      read back, which a failed read leaves in place; never the template list. */
  function InvalidateFlow(c: Cache.Store<CachedValue>, forms: map<string, Form>, formId: string, slugRead: Option<DbError>): (c': Cache.Store<CachedValue>)
    ensures Cache.FormIdKey(formId) !in c'
    ensures slugRead.None? && formId in forms ==>
              forall k :: k in FormsService.SlugKeys(forms[formId].autoSlug) + FormsService.SlugKeys(forms[formId].customSlug) ==> k !in c'
    ensures Cache.Get(c', Cache.TemplatesListKey) == Cache.Get(c, Cache.TemplatesListKey)
    ensures slugRead.Some? ==> forall k :: k != Cache.FormIdKey(formId) ==> Cache.Get(c', k) == Cache.Get(c, k)
  {
    var slugs := FormsService.ReadSlugs(forms, formId, slugRead);
    Cache.KeySpacesDisjoint(slugs.0.GetOr(""), formId);
    Cache.KeySpacesDisjoint(slugs.1.GetOr(""), formId);
    Cache.KeySpacesDisjoint("", formId);
    FormsService.Invalidate(c, formId, slugs, false)
  }

  /** UpdateFlow (flows/service.go lines 22-57). */
  function UpdateFlow(w: FlowsWorld, formId: string, blocks: seq<TreeBlock>, env: FlowEnv, faults: FlowFaults): (r: Saved)
    ensures |blocks| == 0 ==> r == Saved(w, map[], Some(InvalidInput))
    ensures |blocks| > 0 && faults.owned.Err? ==> r == Saved(w, map[], Some(Db(faults.owned.error)))
    ensures |blocks| > 0 && faults.owned == Ok(false) ==> r == Saved(w, map[], Some(FormNotFound))
    ensures r.err.Some? ==> r.world.cache == w.cache && r.mapping == map[]
    ensures r.world.forms == w.forms
    ensures forall f :: f != formId ==> (f in r.world.flows <==> f in w.flows)
    ensures forall f :: f != formId && f in w.flows ==> r.world.flows[f] == w.flows[f]
    ensures r.world != w ==> formId in r.world.flows && r.world.flows[formId] <= Plan(env.ids, blocks)
    ensures |blocks| > 0 && faults.owned == Ok(true) && faults.delete.None? ==>
              formId in r.world.flows && r.world.flows[formId] <= Plan(env.ids, blocks)
    ensures r.err.None? ==> && formId in r.world.flows
                            && r.world.flows[formId] == Plan(env.ids, blocks)
                            && r.mapping.Keys == ClientIds(blocks)
                            && r.mapping.Values <= ConnIds(r.world.flows[formId])
                            && AllValid(TrimQuestions(blocks))
    ensures r.err.None? <==> |blocks| > 0 && faults.owned == Ok(true) && faults.delete.None?
                             && ProcessList(env, Editor, FlowState(w.questions, [], map[]), TrimQuestions(blocks), None, 0, 0).err.None?
    ensures (&& |blocks| > 0 && faults.owned == Ok(true) && faults.delete.None? && AllValid(TrimQuestions(blocks))
             && NoFault(env, 0, |AllBlocks(TrimQuestions(blocks))|)) ==> r.err.None?
    ensures r.err.None? ==> Cache.FormIdKey(formId) !in r.world.cache
    ensures r.err.None? && faults.slugRead.None? && formId in w.forms ==>
              forall k :: k in FormsService.SlugKeys(w.forms[formId].autoSlug) + FormsService.SlugKeys(w.forms[formId].customSlug) ==> k !in r.world.cache
    ensures Cache.Get(r.world.cache, Cache.TemplatesListKey) == Cache.Get(w.cache, Cache.TemplatesListKey)
    ensures r.err == Some(InvalidInput) ==> |blocks| == 0 || !AllValid(TrimQuestions(blocks))
  {
    if |blocks| == 0 then Saved(w, map[], Some(InvalidInput))
    else if faults.owned.Err? then Saved(w, map[], Some(Db(faults.owned.error)))
    else if !faults.owned.value then Saved(w, map[], Some(FormNotFound))
    else if faults.delete.Some? then Saved(w, map[], Some(Db(faults.delete.value)))
    else
      var trimmed := TrimQuestions(blocks);
      var st := FlowState(w.questions, [], map[]);
      var p := ProcessList(env, Editor, st, trimmed, None, 0, 0);
      ProcessListLayout(env, Editor, st, trimmed, None, 0, 0);
      ProcessListOutcome(env, Editor, st, trimmed, None, 0, 0);
      ProcessListMapping(env, Editor, st, trimmed, None, 0, 0);
      ProcessListTargets(env, Editor, st, trimmed, None, 0, 0);
      TrimKeepsIds(blocks);
      assert trimmed[0..] == trimmed;
      var w1 := w.(flows := w.flows[formId := p.st.created], questions := p.st.questions);
      if p.err.Some? then Saved(w1, map[], p.err)
      else
        Saved(w1.(cache := InvalidateFlow(w.cache, w.forms, formId, faults.slugRead)), p.st.mapping, None)
  }

  /** The old flow is deleted before the new one is written, outside any transaction: a save
      whose first connection insert fails leaves the form with no flow rows at all, whatever
      flow it had. */
  lemma FailedSaveDropsOldFlow(w: FlowsWorld, formId: string, blocks: seq<TreeBlock>, env: FlowEnv, faults: FlowFaults, e: DbError)
    requires |blocks| > 0 && faults.owned == Ok(true) && faults.delete.None?
    requires env.connectionError == Some((0, e))
    ensures UpdateFlow(w, formId, blocks, env, faults).err.Some?
    ensures UpdateFlow(w, formId, blocks, env, faults).world.flows[formId] == []
  {
    var trimmed := TrimQuestions(blocks);
    var st := FlowState(w.questions, [], map[]);
    var p := ProcessBlock(env, Editor, st, trimmed[0], None, 0, 0);
    assert p.err.Some? && p.st.created == [];
    assert ProcessList(env, Editor, st, trimmed, None, 0, 0) == p;
  }

  lemma {:induction false} TrimKeepsIds(bs: seq<TreeBlock>)
    ensures ClientIds(TrimQuestions(bs)) == ClientIds(bs)
    ensures Height(TrimQuestions(bs)) == Height(bs)
    ensures |AllBlocks(TrimQuestions(bs))| == |AllBlocks(bs)|
    decreases bs
  {
    if |bs| > 0 {
      var t := TrimQuestions(bs);
      TrimKeepsIds(bs[0].children);
      TrimKeepsIds(bs[1..]);
      assert t[1..] == TrimQuestions(bs[1..]);
    }
  }

  // ---------------------------------------------------------------------------------------
  // The order of the read: ORDER BY depth_level, order_index (flows/repository.go line 42,
  // links/repository.go line 91)

  /** `a` may come before `b` in the read: a lower depth, or the same depth and an order
      index no higher. */
  predicate KeyLe(a: Connection, b: Connection) {
    a.depthLevel < b.depthLevel || (a.depthLevel == b.depthLevel && a.orderIndex <= b.orderIndex)
  }

  /** Rows in depth-major order; rows tied on both keys may come in either order. */
  predicate DepthOrdered(cs: seq<Connection>) {
    forall i, j :: 0 <= i < j < |cs| ==> KeyLe(cs[i], cs[j])
  }

  /** The rows a flow query may return for the stored rows: every stored row exactly once,
      sorted by depth and then by order index, ties in any order. */
  predicate ReadOf(stored: seq<Connection>, read: seq<Connection>) {
    multiset(read) == multiset(stored) && DepthOrdered(read)
  }

  /** Rows strictly increasing by the read's key, so no two may be swapped. */
  predicate StrictlyOrdered(cs: seq<Connection>) {
    forall i, j :: 0 <= i < j < |cs| ==> !KeyLe(cs[j], cs[i])
  }

  /** The rows whose parent is `p`, in order. */
  function ChildRows(cs: seq<Connection>, p: Option<string>): seq<Connection> {
    if |cs| == 0 then []
    else (if cs[0].parentId == p then [cs[0]] else []) + ChildRows(cs[1..], p)
  }

  /** One read the database may give: an insertion sort by the read's key. */
  function InsertRow(c: Connection, cs: seq<Connection>): seq<Connection> {
    if |cs| == 0 then [c]
    else if KeyLe(c, cs[0]) then [c] + cs
    else [cs[0]] + InsertRow(c, cs[1..])
  }

  function SortRows(cs: seq<Connection>): seq<Connection> {
    if |cs| == 0 then [] else InsertRow(cs[0], SortRows(cs[1..]))
  }

  lemma {:induction false} ItemsChildRows(cs: seq<Connection>, p: Option<string>)
    ensures Siblings(Items(cs), p) == Items(ChildRows(cs, p))
  {
    if |cs| > 0 {
      var h := if cs[0].parentId == p then [cs[0]] else [];
      ItemsChildRows(cs[1..], p);
      assert Items(cs)[1..] == Items(cs[1..]);
      ItemsAppend(h, ChildRows(cs[1..], p));
    }
  }

  lemma {:induction false} ChildRowsAppend(x: seq<Connection>, y: seq<Connection>, p: Option<string>)
    ensures ChildRows(x + y, p) == ChildRows(x, p) + ChildRows(y, p)
  {
    if |x| == 0 {
      assert x + y == y;
    } else {
      var h := if x[0].parentId == p then [x[0]] else [];
      assert (x + y)[0] == x[0] && (x + y)[1..] == x[1..] + y;
      ChildRowsAppend(x[1..], y, p);
      assert ChildRows(x + y, p) == h + (ChildRows(x[1..], p) + ChildRows(y, p));
    }
  }

  /** A row occurs among the child rows of `p` as often as in the whole list when its parent
      is `p`, and never otherwise. */
  lemma {:induction false} ChildRowsCount(cs: seq<Connection>, p: Option<string>, c: Connection)
    ensures multiset(ChildRows(cs, p))[c] == if c.parentId == p then multiset(cs)[c] else 0
  {
    if |cs| > 0 {
      ChildRowsCount(cs[1..], p, c);
      assert cs == [cs[0]] + cs[1..];
      assert multiset(cs) == multiset([cs[0]]) + multiset(cs[1..]);
    }
  }

  lemma {:induction false} ChildRowsPermute(x: seq<Connection>, y: seq<Connection>, p: Option<string>)
    requires multiset(x) == multiset(y)
    ensures multiset(ChildRows(x, p)) == multiset(ChildRows(y, p))
  {
    forall c
      ensures multiset(ChildRows(x, p))[c] == multiset(ChildRows(y, p))[c]
    {
      ChildRowsCount(x, p, c);
      ChildRowsCount(y, p, c);
    }
  }

  lemma {:induction false} ChildRowsIn(cs: seq<Connection>, p: Option<string>, c: Connection)
    requires c in ChildRows(cs, p)
    ensures c in cs
  {
    ChildRowsCount(cs, p, c);
  }

  lemma {:induction false} DepthOrderedTail(cs: seq<Connection>)
    requires |cs| > 0 && DepthOrdered(cs)
    ensures DepthOrdered(cs[1..])
  {
    forall i, j | 0 <= i < j < |cs| - 1
      ensures KeyLe(cs[1..][i], cs[1..][j])
    {
      assert cs[1..][i] == cs[i + 1] && cs[1..][j] == cs[j + 1];
    }
  }

  /** Filtering keeps the read's order. */
  lemma {:induction false} ChildRowsOrdered(cs: seq<Connection>, p: Option<string>)
    requires DepthOrdered(cs)
    ensures DepthOrdered(ChildRows(cs, p))
  {
    if |cs| > 0 {
      DepthOrderedTail(cs);
      ChildRowsOrdered(cs[1..], p);
      var rest := ChildRows(cs[1..], p);
      if cs[0].parentId == p {
        var r := [cs[0]] + rest;
        forall i, j | 0 <= i < j < |r|
          ensures KeyLe(r[i], r[j])
        {
          assert r[j] == rest[j - 1];
          if i == 0 {
            ChildRowsIn(cs[1..], p, r[j]);
            var k :| 0 <= k < |cs[1..]| && cs[1..][k] == r[j];
            assert cs[k + 1] == r[j];
          } else {
            assert r[i] == rest[i - 1];
          }
        }
      }
    }
  }

  lemma {:induction false} StrictlyOrderedTail(cs: seq<Connection>)
    requires |cs| > 0 && StrictlyOrdered(cs)
    ensures StrictlyOrdered(cs[1..])
  {
    forall i, j | 0 <= i < j < |cs| - 1
      ensures !KeyLe(cs[1..][j], cs[1..][i])
    {
      assert cs[1..][i] == cs[i + 1] && cs[1..][j] == cs[j + 1];
    }
  }

  /** Two arrangements of the same rows with the same first row agree on the rest's rows. */
  lemma SameHeadTails(x: seq<Connection>, y: seq<Connection>)
    requires |x| > 0 && |y| > 0 && x[0] == y[0] && multiset(x) == multiset(y)
    ensures multiset(x[1..]) == multiset(y[1..])
  {
    assert x == [x[0]] + x[1..] && y == [y[0]] + y[1..];
    assert multiset(x) == multiset{x[0]} + multiset(x[1..]);
    assert multiset(y) == multiset{x[0]} + multiset(y[1..]);
    forall c
      ensures multiset(x[1..])[c] == multiset(y[1..])[c]
    {
      assert multiset(x)[c] == multiset{x[0]}[c] + multiset(x[1..])[c];
      assert multiset(y)[c] == multiset{x[0]}[c] + multiset(y[1..])[c];
    }
  }

  /** Rows that no two may swap have one read order: any depth-major arrangement of the same
      rows is that list. */
  lemma {:induction false} OrderedPermutationsAgree(x: seq<Connection>, y: seq<Connection>)
    requires multiset(x) == multiset(y) && StrictlyOrdered(x) && DepthOrdered(y)
    ensures x == y
    decreases |x|
  {
    assert |x| == |multiset(x)| == |multiset(y)| == |y|;
    if |x| > 0 {
      assert x[0] in multiset(y);
      var k :| 0 <= k < |y| && y[k] == x[0];
      assert KeyLe(y[0], x[0]) by {
        if k > 0 {
          assert KeyLe(y[0], y[k]);
        }
      }
      assert y[0] in multiset(x);
      var m :| 0 <= m < |x| && x[m] == y[0];
      assert m == 0 by {
        assert KeyLe(x[m], x[0]);
      }
      SameHeadTails(x, y);
      StrictlyOrderedTail(x);
      DepthOrderedTail(y);
      OrderedPermutationsAgree(x[1..], y[1..]);
    }
  }

  /** One step of the walk, seen through the parent filter: the block's own row, then its
      children's rows, then its later siblings' rows. */
  lemma LayoutChildRowsStep(a: seq<TreeBlock>, q: Option<string>, d: nat, o: nat, p: Option<string>)
    requires |a| > 0
    ensures q == p ==> (ChildRows(Layout(a, q, d, o), p)
                        == [Connection(a[0].id, q, o, d, |a[0].children| == 0, a[0].qtype, a[0].question)]
                           + ChildRows(Layout(a[0].children, Some(a[0].id), d + 1, 0), p) + ChildRows(Layout(a[1..], q, d, o + 1), p))
    ensures q != p ==> (ChildRows(Layout(a, q, d, o), p)
                        == ChildRows(Layout(a[0].children, Some(a[0].id), d + 1, 0), p) + ChildRows(Layout(a[1..], q, d, o + 1), p))
  {
    var head := [Connection(a[0].id, q, o, d, |a[0].children| == 0, a[0].qtype, a[0].question)];
    var kids := Layout(a[0].children, Some(a[0].id), d + 1, 0);
    var later := Layout(a[1..], q, d, o + 1);
    assert Layout(a, q, d, o) == head + kids + later;
    ChildRowsAppend(head + kids, later, p);
    ChildRowsAppend(head, kids, p);
    assert ChildRows(head, p) == (if q == p then head else []) by {
      assert head[1..] == [];
    }
  }

  /** A row no later row may precede, put in front of an ordered read, keeps it ordered. */
  lemma ConsOrdered(c: Connection, t: seq<Connection>)
    requires DepthOrdered(t) && forall e :: e in t ==> KeyLe(c, e)
    ensures DepthOrdered([c] + t)
  {
    var r := [c] + t;
    forall i, j | 0 <= i < j < |r|
      ensures KeyLe(r[i], r[j])
    {
      assert r[j] == t[j - 1];
      if i > 0 {
        assert r[i] == t[i - 1];
      }
    }
  }

  /** The same for strictly increasing rows. */
  lemma ConsStrict(c: Connection, t: seq<Connection>)
    requires StrictlyOrdered(t) && forall e :: e in t ==> !KeyLe(e, c)
    ensures StrictlyOrdered([c] + t)
  {
    var r := [c] + t;
    forall i, j | 0 <= i < j < |r|
      ensures !KeyLe(r[j], r[i])
    {
      assert r[j] == t[j - 1];
      if i > 0 {
        assert r[i] == t[i - 1];
      }
    }
  }

  /** The first row of an ordered read may precede every row of it. */
  lemma HeadFirst(cs: seq<Connection>, e: Connection)
    requires DepthOrdered(cs) && e in cs
    ensures KeyLe(cs[0], e)
  {
    var k :| 0 <= k < |cs| && cs[k] == e;
    if k > 0 {
      assert KeyLe(cs[0], cs[k]);
    }
  }

  /** No row of a stored forest hangs below `p` when `p` is neither the forest's parent nor one
      of its blocks. */
  lemma {:induction false} LayoutNoChildRows(a: seq<TreeBlock>, q: Option<string>, d: nat, o: nat, p: Option<string>)
    requires p != q && (p.Some? ==> p.value !in Ids(a))
    ensures ChildRows(Layout(a, q, d, o), p) == []
    decreases a
  {
    if |a| > 0 {
      IdsStep(a);
      LayoutNoChildRows(a[0].children, Some(a[0].id), d + 1, 0, p);
      LayoutNoChildRows(a[1..], q, d, o + 1, p);
      LayoutChildRowsStep(a, q, d, o, p);
    }
  }

  /** The top rows of a stored forest are its blocks' rows: the first block's, then the rest's. */
  lemma TopRowsStep(a: seq<TreeBlock>, q: Option<string>, d: nat, o: nat)
    requires |a| > 0 && (q.Some? ==> q.value !in Ids(a))
    ensures q.Some? ==> q.value !in Ids(a[1..])
    ensures ChildRows(Layout(a, q, d, o), q)
            == [Connection(a[0].id, q, o, d, |a[0].children| == 0, a[0].qtype, a[0].question)] + ChildRows(Layout(a[1..], q, d, o + 1), q)
  {
    IdsStep(a);
    LayoutNoChildRows(a[0].children, Some(a[0].id), d + 1, 0, q);
    LayoutChildRowsStep(a, q, d, o, q);
  }

  /** The top rows of a stored forest share its depth and carry order indexes from `o` on. */
  lemma {:induction false} LayoutTopKeys(a: seq<TreeBlock>, q: Option<string>, d: nat, o: nat)
    requires q.Some? ==> q.value !in Ids(a)
    ensures forall c :: c in ChildRows(Layout(a, q, d, o), q) ==> c.depthLevel == d && c.orderIndex >= o
    decreases a
  {
    if |a| > 0 {
      var c0 := Connection(a[0].id, q, o, d, |a[0].children| == 0, a[0].qtype, a[0].question);
      var tail := ChildRows(Layout(a[1..], q, d, o + 1), q);
      TopRowsStep(a, q, d, o);
      LayoutTopKeys(a[1..], q, d, o + 1);
      forall c | c in [c0] + tail
        ensures c.depthLevel == d && c.orderIndex >= o
      {
        if c != c0 {
          assert c in tail;
        }
      }
    }
  }

  /** The top rows of a stored forest carry strictly increasing order indexes at one depth. */
  lemma {:induction false} LayoutTopRows(a: seq<TreeBlock>, q: Option<string>, d: nat, o: nat)
    requires q.Some? ==> q.value !in Ids(a)
    ensures StrictlyOrdered(ChildRows(Layout(a, q, d, o), q))
    decreases a
  {
    if |a| > 0 {
      var c0 := Connection(a[0].id, q, o, d, |a[0].children| == 0, a[0].qtype, a[0].question);
      var tail := ChildRows(Layout(a[1..], q, d, o + 1), q);
      TopRowsStep(a, q, d, o);
      LayoutTopRows(a[1..], q, d, o + 1);
      LayoutTopKeys(a[1..], q, d, o + 1);
      ConsStrict(c0, tail);
    }
  }

  /** The IDs of a forest with distinct IDs split into the first block's, its descendants' and
      its later siblings', all apart, and apart from a parent outside the forest. */
  lemma LayoutIdsApart(a: seq<TreeBlock>, q: Option<string>)
    requires |a| > 0 && Distinct(Ids(a)) && (q.Some? ==> q.value !in Ids(a))
    ensures Distinct(Ids(a[0].children)) && Distinct(Ids(a[1..]))
    ensures a[0].id !in Ids(a[0].children) && a[0].id !in Ids(a[1..])
    ensures forall y :: y in Ids(a[0].children) ==> y !in Ids(a[1..])
    ensures q.Some? ==> q.value != a[0].id && q.value !in Ids(a[0].children) && q.value !in Ids(a[1..])
  {
    IdsStep(a);
    DistinctParts(a[0].id, Ids(a[0].children), Ids(a[1..]));
  }

  /** Below any other parent, the rows of a stored forest with distinct IDs are one block's
      children, again in increasing order. */
  lemma {:induction false} LayoutInnerRows(a: seq<TreeBlock>, q: Option<string>, d: nat, o: nat, p: Option<string>)
    requires Distinct(Ids(a)) && (q.Some? ==> q.value !in Ids(a)) && p != q
    ensures StrictlyOrdered(ChildRows(Layout(a, q, d, o), p))
    decreases a
  {
    if |a| > 0 {
      var x := a[0].id;
      var inner := Ids(a[0].children);
      var later := Ids(a[1..]);
      var kids := ChildRows(Layout(a[0].children, Some(x), d + 1, 0), p);
      var rest := ChildRows(Layout(a[1..], q, d, o + 1), p);
      assert ChildRows(Layout(a, q, d, o), p) == kids + rest by {
        LayoutChildRowsStep(a, q, d, o, p);
      }
      LayoutIdsApart(a, q);
      if p == Some(x) {
        assert StrictlyOrdered(kids) && rest == [] by {
          LayoutTopRows(a[0].children, Some(x), d + 1, 0);
          LayoutNoChildRows(a[1..], q, d, o + 1, p);
        }
        assert kids + rest == kids;
      } else if p.Some? && p.value in inner {
        assert StrictlyOrdered(kids) && rest == [] by {
          LayoutInnerRows(a[0].children, Some(x), d + 1, 0, p);
          LayoutNoChildRows(a[1..], q, d, o + 1, p);
        }
        assert kids + rest == kids;
      } else {
        assert kids == [] && StrictlyOrdered(rest) by {
          LayoutNoChildRows(a[0].children, Some(x), d + 1, 0, p);
          LayoutInnerRows(a[1..], q, d, o + 1, p);
        }
        assert kids + rest == rest;
      }
    }
  }

  /** Every read of a stored forest with distinct IDs lists each parent's rows exactly as
      they were written. */
  lemma {:induction false} ReadKeepsChildRows(a: seq<TreeBlock>, read: seq<Connection>, p: Option<string>)
    requires Distinct(Ids(a))
    requires ReadOf(Layout(a, None, 0, 0), read)
    ensures ChildRows(read, p) == ChildRows(Layout(a, None, 0, 0), p)
  {
    var rows := Layout(a, None, 0, 0);
    if p == None {
      LayoutTopRows(a, None, 0, 0);
    } else {
      LayoutInnerRows(a, None, 0, 0, p);
    }
    ChildRowsPermute(rows, read, p);
    ChildRowsOrdered(read, p);
    OrderedPermutationsAgree(ChildRows(rows, p), ChildRows(read, p));
  }

  /** buildTree over any read of a stored forest with distinct IDs builds what it builds over
      the rows in the order they were written. */
  lemma {:induction false} ReadAsWritten(a: seq<TreeBlock>, read: seq<Connection>, fuel: nat)
    requires Distinct(Ids(a))
    requires ReadOf(Layout(a, None, 0, 0), read)
    ensures |read| == |Layout(a, None, 0, 0)|
    ensures BuildTree(Items(read), None, fuel) == BuildTree(Items(Layout(a, None, 0, 0)), None, fuel)
  {
    var rows := Layout(a, None, 0, 0);
    assert |read| == |multiset(read)| == |multiset(rows)| == |rows|;
    forall q
      ensures Siblings(Items(read), q) == Siblings(Items(rows), q)
    {
      ItemsChildRows(read, q);
      ItemsChildRows(rows, q);
      ReadKeepsChildRows(a, read, q);
    }
    BuildTreeBySiblings(Items(read), Items(rows), None, fuel);
  }

  lemma {:induction false} InsertRowRead(c: Connection, cs: seq<Connection>)
    requires DepthOrdered(cs)
    ensures multiset(InsertRow(c, cs)) == multiset(cs) + multiset{c}
    ensures DepthOrdered(InsertRow(c, cs))
    ensures forall e :: e in InsertRow(c, cs) ==> e == c || e in cs
  {
    if |cs| > 0 && !KeyLe(c, cs[0]) {
      DepthOrderedTail(cs);
      InsertRowRead(c, cs[1..]);
      var t := InsertRow(c, cs[1..]);
      assert cs == [cs[0]] + cs[1..];
      forall e | e in t
        ensures KeyLe(cs[0], e)
      {
        if e != c {
          HeadFirst(cs, e);
        }
      }
      ConsOrdered(cs[0], t);
    } else if |cs| > 0 {
      forall e | e in cs
        ensures KeyLe(c, e)
      {
        HeadFirst(cs, e);
      }
      ConsOrdered(c, cs);
    }
  }

  /** The database always has a read to give: sorting the stored rows is one. */
  lemma {:induction false} SortRowsIsRead(cs: seq<Connection>)
    ensures ReadOf(cs, SortRows(cs))
  {
    if |cs| > 0 {
      SortRowsIsRead(cs[1..]);
      InsertRowRead(cs[0], SortRows(cs[1..]));
      assert cs == [cs[0]] + cs[1..];
    }
  }

  /** Any read of the rows of a stored forest with distinct IDs, built back with buildTree
      with fuel beyond its height, gives the forest. */
  lemma {:induction false} ReadRoundTrip(a: seq<TreeBlock>, read: seq<Connection>, fuel: nat)
    requires Distinct(Ids(a)) && fuel > Height(a)
    requires ReadOf(Layout(a, None, 0, 0), read)
    ensures BuildTree(Items(read), None, fuel) == a
  {
    ItemsOfLayout(a, None, 0, 0);
    RoundTrip(a, fuel);
    ReadAsWritten(a, read, fuel);
  }

  /** Any read of the rows of a stored forest, built back with buildTree, gives the stored
      forest. */
  lemma {:induction false} LayoutRoundTrip(ids: nat -> string, t: seq<TreeBlock>, read: seq<Connection>)
    requires forall i, j :: i != j ==> ids(i) != ids(j)
    requires ReadOf(Layout(Assign(ids, t, 0), None, 0, 0), read)
    ensures BuildTree(Items(read), None, Height(t) + 1) == Assign(ids, t, 0)
  {
    var a := Assign(ids, t, 0);
    assert Distinct(Ids(a)) by {
      AssignDistinct(ids, t, 0);
    }
    assert Height(a) == Height(t) by {
      AssignHeight(ids, t, 0);
    }
    ReadRoundTrip(a, read, Height(t) + 1);
  }

  /** The rows planned for a request read back as the request with trimmed questions and the
      generated IDs (`AssignShape`, `AssignIds`). */
  lemma {:induction false} PlanRoundTrip(ids: nat -> string, blocks: seq<TreeBlock>, read: seq<Connection>)
    requires forall i, j :: i != j ==> ids(i) != ids(j)
    requires ReadOf(Plan(ids, blocks), read)
    ensures BuildTree(Items(read), None, Height(blocks) + 1) == Assign(ids, TrimQuestions(blocks), 0)
  {
    var t := TrimQuestions(blocks);
    assert Plan(ids, blocks) == Layout(Assign(ids, t, 0), None, 0, 0);
    assert Height(t) == Height(blocks) by {
      TrimKeepsIds(blocks);
    }
    LayoutRoundTrip(ids, t, read);
  }

  /** A successful save reads back as the submitted tree, whatever order the read gives rows
      tied on depth and order index. */
  lemma {:induction false} SaveThenLoad(w: FlowsWorld, formId: string, blocks: seq<TreeBlock>, env: FlowEnv, faults: FlowFaults, read: seq<Connection>)
    requires forall i, j :: i != j ==> env.ids(i) != env.ids(j)
    requires UpdateFlow(w, formId, blocks, env, faults).err.None?
    requires ReadOf(UpdateFlow(w, formId, blocks, env, faults).world.flows[formId], read)
    ensures BuildTree(Items(read), None, Height(blocks) + 1) == Assign(env.ids, TrimQuestions(blocks), 0)
  {
    PlanRoundTrip(env.ids, blocks, read);
  }

  /** The same with the fuel the public read uses, one more than the row count. */
  lemma {:induction false} LayoutRoundTripRowFuel(ids: nat -> string, t: seq<TreeBlock>, read: seq<Connection>)
    requires forall i, j :: i != j ==> ids(i) != ids(j)
    requires ReadOf(Layout(Assign(ids, t, 0), None, 0, 0), read)
    ensures BuildTree(Items(read), None, |read| + 1) == Assign(ids, t, 0)
  {
    var a := Assign(ids, t, 0);
    assert Distinct(Ids(a)) by {
      AssignDistinct(ids, t, 0);
    }
    assert Height(a) < |read| + 1 by {
      LayoutLength(a, None, 0, 0);
      ReadAsWritten(a, read, 0);
      HeightBound(a);
    }
    ReadRoundTrip(a, read, |read| + 1);
  }

  lemma {:induction false} PlanRoundTripRowFuel(ids: nat -> string, blocks: seq<TreeBlock>, read: seq<Connection>)
    requires forall i, j :: i != j ==> ids(i) != ids(j)
    requires ReadOf(Plan(ids, blocks), read)
    ensures BuildTree(Items(read), None, |read| + 1) == Assign(ids, TrimQuestions(blocks), 0)
  {
    var t := TrimQuestions(blocks);
    assert Plan(ids, blocks) == Layout(Assign(ids, t, 0), None, 0, 0);
    LayoutRoundTripRowFuel(ids, t, read);
  }
}

=== FILE: forms_handler.dfy ===
/** The template clone of the forms handler (internal/forms/handler.go lines 249-289) and its
    error mapping (lines 364-373). The clone creates a new form through the forms service and
    replays the template's flow with the connection walk of the flows service in clone mode. */
module FormsHandler {
  import opened Wrappers
  import opened Storage
  import opened Text
  import opened FlowTree
  import opened Records
  import FormsService
  import opened FlowsService

  /** The HTTP errors the handler answers with. */
  datatype HttpError = BadRequest | NotFound | InternalServerError

  function StatusCode(e: HttpError): (code: int)
    ensures code in {400, 404, 500}
  {
    match e
    case BadRequest => 400
    case NotFound => 404
    case InternalServerError => 500
  }

  /** mapServiceError: invalid input is the client's fault, a missing form is 404, and anything
      else is a server error. */
  function MapServiceError(e: FormsService.FormsError): (h: HttpError)
    ensures h == BadRequest <==> e.InvalidInput?
    ensures h == NotFound <==> e.NotFound?
    ensures h == InternalServerError <==> e.Db?
  {
    match e
    case InvalidInput => BadRequest
    case NotFound => NotFound
    case Db(_) => InternalServerError
  }

  const CopyPrefix: string := "Copy of "

  /** A text that starts with a non-space character is not blank after trimming. */
  lemma NotBlank(s: string)
    requires |s| > 0 && !IsSpace(s[0])
    ensures TrimSpace(s) != []
  {
    TrimSpaceEmptyIff(s);
  }

  /** The answers of the calls the clone makes besides the walk: the template read
      (GetTemplateData), the flow read, and the insert of the new form. */
  datatype CloneReads = CloneReads(
    template: Result<Form, FormsService.FormsError>,
    items: Result<seq<FlowItem>, DbError>,
    inserted: Form,
    createFault: Option<DbError>)

  /** The blocks the clone replays: the template's flow rebuilt as a tree. */
  function TemplateBlocks(items: seq<FlowItem>): seq<TreeBlock> {
    BuildTree(items, None, |items| + 1)
  }

  /** The form a clone creates: "Copy of " and the template's title, trimmed and therefore
      never blank, the template's trimmed description, owned by the cloning user. */
  predicate CopyOf(f: Form, template: Form, userId: string) {
    && f.title == TrimSpace(CopyPrefix + template.title) && f.title != []
    && f.description == TrimSpace(template.description)
    && f.userId == userId
  }

  /** CloneTemplate. The new form is created before the flow is copied and is kept when a
      connection insert fails afterwards, together with the connections written so far. */
  function CloneTemplate(w: FlowsWorld, userId: string, got: CloneReads, env: FlowEnv): (r: (FlowsWorld, Result<Form, HttpError>))
    ensures got.template.Err? ==> r == (w, Err(MapServiceError(got.template.error)))
    ensures got.template.Ok? && got.items.Err? ==> r == (w, Err(InternalServerError))
    ensures got.template.Ok? && got.items.Ok? && got.createFault.Some? ==> r == (w, Err(InternalServerError))
    ensures r.1 == Err(BadRequest) ==> got.template == Err(FormsService.InvalidInput)
    ensures (r.0 != w || r.1.Ok?) ==>
              && got.template.Ok? && got.items.Ok? && got.createFault.None?
              && got.inserted.id in r.0.forms
              && CopyOf(r.0.forms[got.inserted.id], got.template.value, userId)
              && r.0.forms == w.forms[got.inserted.id := r.0.forms[got.inserted.id]]
              && r.0.cache == w.cache
              && (|got.items.value| == 0 ==> r.0.flows == w.flows)
              && (|got.items.value| > 0 ==>
                    && r.0.flows.Keys == w.flows.Keys + {got.inserted.id}
                    && (forall g :: g in w.flows && g != got.inserted.id ==> r.0.flows[g] == w.flows[g])
                    && r.0.flows[got.inserted.id] <= Layout(Assign(env.ids, TemplateBlocks(got.items.value), 0), None, 0, 0))
    ensures r.1.Ok? ==>
              && got.inserted.id in r.0.forms && r.1.value == FormsService.Returned(r.0.forms[got.inserted.id])
              && got.items.Ok?
              && (|got.items.value| > 0 ==>
                    r.0.flows[got.inserted.id] == Layout(Assign(env.ids, TemplateBlocks(got.items.value), 0), None, 0, 0))
    ensures (&& got.template.Ok? && got.items.Ok? && got.createFault.None?
             && NoFault(env, 0, |AllBlocks(TemplateBlocks(got.items.value))|)) ==> r.1.Ok?
  {
    if got.template.Err? then (w, Err(MapServiceError(got.template.error)))
    else if got.items.Err? then (w, Err(InternalServerError))
    else
      var template := got.template.value;
      var title := CopyPrefix + template.title;
      NotBlank(title);
      var created := FormsService.Create(FormsService.World(w.forms, w.cache), userId, title, template.description,
                                         got.inserted, got.createFault);
      if created.1.Err? then (w, Err(MapServiceError(created.1.error)))
      else
        var form := created.1.value;
        var w1 := w.(forms := created.0.forms);
        var items := got.items.value;
        if |items| == 0 then (w1, Ok(form))
        else
          var blocks := TemplateBlocks(items);
          var st := FlowState(w.questions, [], map[]);
          var p := ProcessList(env, Clone, st, blocks, None, 0, 0);
          ProcessListLayout(env, Clone, st, blocks, None, 0, 0);
          ProcessListOutcome(env, Clone, st, blocks, None, 0, 0);
          assert blocks[0..] == blocks;
          var w2 := w1.(flows := w.flows[form.id := p.st.created], questions := p.st.questions);
          (w2, if p.err.Some? then Err(InternalServerError) else Ok(form))
  }

  /** Two non-empty sequences that agree on their head and their tail are equal. */
  lemma HeadTail<T>(x: seq<T>, y: seq<T>)
    requires |x| == |y| > 0 && x[0] == y[0] && x[1..] == y[1..]
    ensures x == y
  {
    assert x == [x[0]] + x[1..] && y == [y[0]] + y[1..];
  }

  /** The inductive step of AssignTwice: renumbering the first tree and the rest suffices. */
  lemma AssignTwiceStep(ids1: nat -> string, ids2: nat -> string, t: seq<TreeBlock>, b1: nat, b2: nat)
    requires |t| > 0
    requires Assign(ids2, Assign(ids1, t[0].children, b1 + 1), b2 + 1) == Assign(ids2, t[0].children, b2 + 1)
    requires var n := |AllBlocks(t[0].children)|;
             Assign(ids2, Assign(ids1, t[1..], b1 + 1 + n), b2 + 1 + n) == Assign(ids2, t[1..], b2 + 1 + n)
    ensures Assign(ids2, Assign(ids1, t, b1), b2) == Assign(ids2, t, b2)
  {
    AssignHead(ids1, t, b1);
    AssignCount(ids1, t[0].children, b1 + 1);
    AssignHead(ids2, Assign(ids1, t, b1), b2);
    AssignHead(ids2, t, b2);
    HeadTail(Assign(ids2, Assign(ids1, t, b1), b2), Assign(ids2, t, b2));
  }

  /** Giving a stored forest new IDs forgets the old ones. */
  lemma {:induction false} AssignTwice(ids1: nat -> string, ids2: nat -> string, t: seq<TreeBlock>, b1: nat, b2: nat)
    ensures Assign(ids2, Assign(ids1, t, b1), b2) == Assign(ids2, t, b2)
    decreases t
  {
    if |t| > 0 {
      var n := |AllBlocks(t[0].children)|;
      AssignTwice(ids1, ids2, t[0].children, b1 + 1, b2 + 1);
      AssignTwice(ids1, ids2, t[1..], b1 + 1 + n, b2 + 1 + n);
      AssignTwiceStep(ids1, ids2, t, b1, b2);
    }
  }

  /** The tree a clone rebuilds from a flow the editor saved from `blocks` is that forest with
      the saved IDs, whatever order the flow read gives rows tied on depth and order index. */
  lemma {:induction false} SavedTemplateTree(templateIds: nat -> string, blocks: seq<TreeBlock>, read: seq<Connection>)
    requires forall i, j :: i != j ==> templateIds(i) != templateIds(j)
    requires ReadOf(Plan(templateIds, blocks), read)
    ensures TemplateBlocks(Items(read)) == Assign(templateIds, TrimQuestions(blocks), 0)
  {
    PlanRoundTripRowFuel(templateIds, blocks, read);
  }

  /** Saving under new IDs and trimming the questions keeps the height of the request. */
  lemma {:induction false} SavedTemplateHeight(templateIds: nat -> string, blocks: seq<TreeBlock>)
    ensures Height(Assign(templateIds, TrimQuestions(blocks), 0)) == Height(blocks)
  {
    AssignHeight(templateIds, TrimQuestions(blocks), 0);
    TrimKeepsIds(blocks);
  }

  /** Replaying a flow the editor saved from `blocks` under new connection IDs stores rows that
      read back as the same tree (trimmed questions, same order and nesting) with the new IDs;
      both reads may order rows tied on depth and order index either way. */
  lemma {:induction false} ReplayReadsBack(templateIds: nat -> string, ids: nat -> string, blocks: seq<TreeBlock>,
                                          read: seq<Connection>, reread: seq<Connection>)
    requires forall i, j :: i != j ==> templateIds(i) != templateIds(j)
    requires forall i, j :: i != j ==> ids(i) != ids(j)
    requires ReadOf(Plan(templateIds, blocks), read)
    requires ReadOf(Layout(Assign(ids, TemplateBlocks(Items(read)), 0), None, 0, 0), reread)
    ensures BuildTree(Items(reread), None, Height(blocks) + 1) == Assign(ids, TrimQuestions(blocks), 0)
  {
    SavedTemplateTree(templateIds, blocks, read);
    SavedTemplateHeight(templateIds, blocks);
    StoredReplayReadsBack(templateIds, ids, blocks, reread);
  }

  /** The same for the saved forest itself. */
  lemma {:induction false} StoredReplayReadsBack(templateIds: nat -> string, ids: nat -> string, blocks: seq<TreeBlock>, reread: seq<Connection>)
    requires forall i, j :: i != j ==> ids(i) != ids(j)
    requires ReadOf(Layout(Assign(ids, Assign(templateIds, TrimQuestions(blocks), 0), 0), None, 0, 0), reread)
    ensures BuildTree(Items(reread), None, Height(blocks) + 1) == Assign(ids, TrimQuestions(blocks), 0)
  {
    TrimKeepsIds(blocks);
    RenumberedReadsBack(templateIds, ids, TrimQuestions(blocks), Height(blocks), reread);
  }

  /** A forest stored under some IDs and laid out again under new IDs reads back as the
      forest under the new IDs. */
  lemma {:induction false} RenumberedReadsBack(oldIds: nat -> string, ids: nat -> string, t: seq<TreeBlock>, h: nat, reread: seq<Connection>)
    requires forall i, j :: i != j ==> ids(i) != ids(j)
    requires Height(t) == h
    requires ReadOf(Layout(Assign(ids, Assign(oldIds, t, 0), 0), None, 0, 0), reread)
    ensures BuildTree(Items(reread), None, h + 1) == Assign(ids, t, 0)
  {
    var stored := Assign(oldIds, t, 0);
    AssignHeight(oldIds, t, 0);
    AssignTwice(oldIds, ids, t, 0, 0);
    LayoutRoundTrip(ids, stored, reread);
  }

  /** Cloning a template whose flow the editor saved from `blocks` gives the clone a flow that
      reads back as that tree under the clone's own connection IDs. */
  lemma {:induction false} CloneReadsBackAsTemplate(w: FlowsWorld, userId: string, got: CloneReads, env: FlowEnv,
                                 templateIds: nat -> string, blocks: seq<TreeBlock>, read: seq<Connection>, reread: seq<Connection>)
    requires forall i, j :: i != j ==> templateIds(i) != templateIds(j)
    requires forall i, j :: i != j ==> env.ids(i) != env.ids(j)
    requires ReadOf(Plan(templateIds, blocks), read)
    requires got.items == Ok(Items(read)) && |read| > 0
    requires CloneTemplate(w, userId, got, env).1.Ok?
    requires ReadOf(CloneTemplate(w, userId, got, env).0.flows[got.inserted.id], reread)
    ensures BuildTree(Items(reread), None, Height(blocks) + 1) == Assign(env.ids, TrimQuestions(blocks), 0)
  {
    ReplayReadsBack(templateIds, env.ids, blocks, read, reread);
  }
}

=== FILE: forms_service.dfy ===
/** The forms service (internal/forms/service.go): input rules for creating and editing forms,
    and which cache entries each write invalidates. The forms table is a map from form ID to
    its live row; each repository call that can fail takes its failure from a `Faults` value. */
module FormsService {
  import opened Wrappers
  import opened Storage
  import opened Text
  import opened Records
  import Cache

  const StatusDraft: string := "draft"
  const StatusPublished: string := "published"

  datatype FormsError = InvalidInput | NotFound | Db(cause: DbError)

  /** The live forms and the shared cache. */
  datatype World = World(forms: map<string, Form>, cache: Cache.Store<CachedValue>)

  /** Failures of the two pre-reads and of the write. */
  datatype Faults = Faults(slugRead: Option<DbError>, formRead: Option<DbError>, write: Option<DbError>)

  datatype Outcome = Outcome(world: World, err: Option<FormsError>)

  /** isValidStatus (lines 201-208). */
  predicate IsValidStatus(status: string) {
    status == StatusDraft || status == StatusPublished
  }

  /** Whether `userId` owns the live form `formId` (the WHERE clause of the repository writes). */
  predicate Owns(forms: map<string, Form>, userId: string, formId: string) {
    formId in forms && forms[formId].userId == userId
  }

  // ---------------------------------------------------------------------------------------
  // Repository reads

  /** GetFormSlugs: a missing form and a failed read both give two nil slugs. */
  function ReadSlugs(forms: map<string, Form>, formId: string, fault: Option<DbError>): (r: (Option<string>, Option<string>))
    ensures fault.Some? || formId !in forms ==> r == (None, None)
    ensures fault.None? && formId in forms ==> r == (forms[formId].autoSlug, forms[formId].customSlug)
  {
    if fault.Some? || formId !in forms then (None, None) else (forms[formId].autoSlug, forms[formId].customSlug)
  }

  /** GetByID followed by the `IsTemplate` test of the service. The repository's SELECT does
      not list is_template, so the scanned flag keeps its zero value; `selectsIsTemplate`
      chooses between that query as written and one that reads the column. */
  function ReadIsTemplate(forms: map<string, Form>, userId: string, formId: string, fault: Option<DbError>, selectsIsTemplate: bool): (b: bool)
    ensures b <==> selectsIsTemplate && fault.None? && Owns(forms, userId, formId) && forms[formId].isTemplate
  {
    if fault.Some? || !Owns(forms, userId, formId) then false
    else if selectsIsTemplate then forms[formId].isTemplate
    else false
  }

  // ---------------------------------------------------------------------------------------
  // Cache invalidation shared by the write paths

  /** The slug key of a non-nil, non-empty slug. */
  function SlugKeys(slug: Option<string>): seq<string> {
    if slug.Some? && slug.value != "" then [Cache.FormSlugKey(slug.value)] else []
  }

  /** Deletes the ID key, the keys of the non-empty slugs and, for a template, the template list. */
  function Invalidate(c: Cache.Store<CachedValue>, formId: string, slugs: (Option<string>, Option<string>), isTemplate: bool): (c': Cache.Store<CachedValue>)
    ensures Cache.FormIdKey(formId) !in c'
    ensures slugs.0.Some? && slugs.0.value != "" ==> Cache.FormSlugKey(slugs.0.value) !in c'
    ensures slugs.1.Some? && slugs.1.value != "" ==> Cache.FormSlugKey(slugs.1.value) !in c'
    ensures isTemplate ==> Cache.TemplatesListKey !in c'
    ensures forall k :: k != Cache.FormIdKey(formId) && k !in SlugKeys(slugs.0) && k !in SlugKeys(slugs.1)
                        && (isTemplate ==> k != Cache.TemplatesListKey)
                        ==> Cache.Get(c', k) == Cache.Get(c, k)
  {
    Cache.DeleteAll(c, [Cache.FormIdKey(formId)] + SlugKeys(slugs.0) + SlugKeys(slugs.1)
                       + (if isTemplate then [Cache.TemplatesListKey] else []))
  }

  // ---------------------------------------------------------------------------------------
  // Create

  /** What the repository's Create hands back (forms/repository.go lines 32-52): only the
      RETURNING columns id, title, description and status are scanned, so every other field of
      the returned form keeps Go's zero value. */
  function Returned(f: Form): (g: Form)
    ensures g.id == f.id && g.title == f.title && g.description == f.description && g.status == f.status
    ensures g.userId == "" && g.autoSlug.None? && g.customSlug.None? && !g.acceptingResponses && !g.isTemplate
  {
    Form(f.id, "", f.title, f.description, f.status, None, None, false, false)
  }

  /** Create (lines 45-60): title and description are trimmed; a blank title is rejected
      before the database is touched. `inserted` is the row the database materialises, supplying
      the generated ID and the column defaults. The stored row belongs to the caller; the form
      returned is the RETURNING projection of it. */
  function Create(w: World, userId: string, title: string, description: string, inserted: Form, fault: Option<DbError>): (r: (World, Result<Form, FormsError>))
    ensures TrimSpace(title) == [] ==> r == (w, Err(InvalidInput))
    ensures TrimSpace(title) != [] && fault.Some? ==> r == (w, Err(Db(fault.value)))
    ensures TrimSpace(title) != [] && fault.None? ==> r.1.Ok? && r.1.value.id == inserted.id
    ensures r.1.Ok? ==> && inserted.id in r.0.forms
                        && r.0.forms == w.forms[inserted.id := r.0.forms[inserted.id]]
                        && r.0.forms[inserted.id].title == TrimSpace(title) && TrimSpace(title) != []
                        && r.0.forms[inserted.id].description == TrimSpace(description)
                        && r.0.forms[inserted.id].userId == userId
                        && r.1.value == Returned(r.0.forms[inserted.id])
                        && r.0.cache == w.cache
  {
    var t := TrimSpace(title);
    var d := TrimSpace(description);
    if t == [] then (w, Err(InvalidInput))
    else if fault.Some? then (w, Err(Db(fault.value)))
    else
      var f := inserted.(userId := userId, title := t, description := d);
      (w.(forms := w.forms[f.id := f]), Ok(Returned(f)))
  }

  /** A created form belongs to its creator: the creator's next update with valid input and a
      working database succeeds, and so does the creator's delete. */
  lemma CreatedFormIsEditable(w: World, userId: string, title: string, description: string, inserted: Form,
                              title2: string, description2: string, status: string, faults: Faults)
    requires Create(w, userId, title, description, inserted, None).1.Ok?
    requires TrimSpace(title2) != [] && IsValidStatus(status) && faults.write.None?
    ensures var c := Create(w, userId, title, description, inserted, None);
            && Owns(c.0.forms, userId, inserted.id)
            && Update(c.0, userId, inserted.id, title2, description2, status, faults).err.None?
            && SoftDelete(c.0, userId, inserted.id, faults).err.None?
  {
  }

  // ---------------------------------------------------------------------------------------
  // Update and SoftDelete

  /** Update (lines 99-150), with the template test as chosen by `selectsIsTemplate`. */
  function UpdateWith(selectsIsTemplate: bool, w: World, userId: string, formId: string, title: string, description: string, status: string, faults: Faults): Outcome {
    var t := TrimSpace(title);
    if t == [] || !IsValidStatus(status) then Outcome(w, Some(InvalidInput))
    else WriteForm(selectsIsTemplate, w, userId, formId, t, TrimSpace(description), status, faults)
  }

  /** The part of Update after validation: the pre-reads, the write, and the invalidation. */
  function WriteForm(selectsIsTemplate: bool, w: World, userId: string, formId: string, t: string, d: string, status: string, faults: Faults): Outcome {
    var slugs := ReadSlugs(w.forms, formId, faults.slugRead);
    var isTemplate := ReadIsTemplate(w.forms, userId, formId, faults.formRead, selectsIsTemplate);
    if faults.write.Some? then Outcome(w, Some(Db(faults.write.value)))
    else if !Owns(w.forms, userId, formId) then Outcome(w, Some(NotFound))
    else
      var f := w.forms[formId].(title := t, description := d, status := status);
      Outcome(World(w.forms[formId := f], Invalidate(w.cache, formId, slugs, isTemplate)), None)
  }

  /** Update with the is_template column read. Invalid input and failed writes change
      nothing; a successful write stores the trimmed fields and evicts every cached view of the
      form: its ID key, both slug keys, and the template list if it is a template. */
  function Update(w: World, userId: string, formId: string, title: string, description: string, status: string, faults: Faults): (r: Outcome)
    ensures r.err == Some(InvalidInput) <==> TrimSpace(title) == [] || !IsValidStatus(status)
    ensures r.err.Some? ==> r.world == w
    ensures r.err.None? <==> TrimSpace(title) != [] && IsValidStatus(status) && faults.write.None? && Owns(w.forms, userId, formId)
    ensures r.err.None? ==>
      && r.world.forms == w.forms[formId := w.forms[formId].(title := TrimSpace(title), description := TrimSpace(description), status := status)]
      && Cache.FormIdKey(formId) !in r.world.cache
      && (faults.slugRead.None? && w.forms[formId].autoSlug.Some? && w.forms[formId].autoSlug.value != "" ==> Cache.FormSlugKey(w.forms[formId].autoSlug.value) !in r.world.cache)
      && (faults.slugRead.None? && w.forms[formId].customSlug.Some? && w.forms[formId].customSlug.value != "" ==> Cache.FormSlugKey(w.forms[formId].customSlug.value) !in r.world.cache)
      && (faults.formRead.None? && w.forms[formId].isTemplate ==> Cache.TemplatesListKey !in r.world.cache)
  {
    UpdateWith(true, w, userId, formId, title, description, status, faults)
  }

  /** SoftDelete (lines 157-194), with the template test as chosen by `selectsIsTemplate`. */
  function SoftDeleteWith(selectsIsTemplate: bool, w: World, userId: string, formId: string, faults: Faults): Outcome {
    var slugs := ReadSlugs(w.forms, formId, faults.slugRead);
    var isTemplate := ReadIsTemplate(w.forms, userId, formId, faults.formRead, selectsIsTemplate);
    if faults.write.Some? then Outcome(w, Some(Db(faults.write.value)))
    else if !Owns(w.forms, userId, formId) then Outcome(w, Some(NotFound))
    else Outcome(World(w.forms - {formId}, Invalidate(w.cache, formId, slugs, isTemplate)), None)
  }

  /** SoftDelete with the is_template column read: only the owner can delete; a deleted form
      leaves no cached view behind. */
  function SoftDelete(w: World, userId: string, formId: string, faults: Faults): (r: Outcome)
    ensures r.err.Some? ==> r.world == w
    ensures r.err.None? <==> faults.write.None? && Owns(w.forms, userId, formId)
    ensures faults.write.None? && !Owns(w.forms, userId, formId) ==> r.err == Some(NotFound)
    ensures r.err.None? ==>
      && r.world.forms == w.forms - {formId}
      && Cache.FormIdKey(formId) !in r.world.cache
      && (faults.slugRead.None? && w.forms[formId].autoSlug.Some? && w.forms[formId].autoSlug.value != "" ==> Cache.FormSlugKey(w.forms[formId].autoSlug.value) !in r.world.cache)
      && (faults.slugRead.None? && w.forms[formId].customSlug.Some? && w.forms[formId].customSlug.value != "" ==> Cache.FormSlugKey(w.forms[formId].customSlug.value) !in r.world.cache)
      && (faults.formRead.None? && w.forms[formId].isTemplate ==> Cache.TemplatesListKey !in r.world.cache)
  {
    SoftDeleteWith(true, w, userId, formId, faults)
  }

  /** Invalidation without the template flag leaves the template list alone. */
  lemma InvalidateKeepsTemplateList(c: Cache.Store<CachedValue>, formId: string, slugs: (Option<string>, Option<string>))
    ensures Cache.Get(Invalidate(c, formId, slugs, false), Cache.TemplatesListKey) == Cache.Get(c, Cache.TemplatesListKey)
  {
    Cache.KeySpacesDisjoint(slugs.0.GetOr(""), formId);
    Cache.KeySpacesDisjoint(slugs.1.GetOr(""), formId);
  }

  /** Update as written never evicts the template list: the flag it tests is always false. */
  lemma UpdateAsWrittenKeepsTemplateList(w: World, userId: string, formId: string, title: string, description: string, status: string, faults: Faults)
    ensures var r := UpdateWith(false, w, userId, formId, title, description, status, faults);
            Cache.Get(r.world.cache, Cache.TemplatesListKey) == Cache.Get(w.cache, Cache.TemplatesListKey)
  {
    var t := TrimSpace(title);
    if t != [] && IsValidStatus(status) {
      WriteFormAsWrittenKeepsTemplateList(w, userId, formId, t, TrimSpace(description), status, faults);
    }
  }

  lemma WriteFormAsWrittenKeepsTemplateList(w: World, userId: string, formId: string, t: string, d: string, status: string, faults: Faults)
    ensures var r := WriteForm(false, w, userId, formId, t, d, status, faults);
            Cache.Get(r.world.cache, Cache.TemplatesListKey) == Cache.Get(w.cache, Cache.TemplatesListKey)
  {
    var slugs := ReadSlugs(w.forms, formId, faults.slugRead);
    assert !ReadIsTemplate(w.forms, userId, formId, faults.formRead, false);
    InvalidateKeepsTemplateList(w.cache, formId, slugs);
  }

  /** SoftDelete as written never evicts the template list either. */
  lemma SoftDeleteAsWrittenKeepsTemplateList(w: World, userId: string, formId: string, faults: Faults)
    ensures var r := SoftDeleteWith(false, w, userId, formId, faults);
            Cache.Get(r.world.cache, Cache.TemplatesListKey) == Cache.Get(w.cache, Cache.TemplatesListKey)
  {
    var slugs := ReadSlugs(w.forms, formId, faults.slugRead);
    assert !ReadIsTemplate(w.forms, userId, formId, faults.formRead, false);
    InvalidateKeepsTemplateList(w.cache, formId, slugs);
  }

  // ---------------------------------------------------------------------------------------
  // Templates

  /** ToggleTemplate (lines 217-231). The repository statement is not part of this model; its
      effect is taken to be setting the flag on the live row. */
  function ToggleTemplate(w: World, formId: string, isTemplate: bool, fault: Option<DbError>): (r: Outcome)
    ensures fault.Some? ==> r == Outcome(w, Some(Db(fault.value)))
    ensures fault.None? ==> r.err.None? && Cache.TemplatesListKey !in r.world.cache
    ensures fault.None? ==> forall k :: k != Cache.TemplatesListKey ==> Cache.Get(r.world.cache, k) == Cache.Get(w.cache, k)
    ensures fault.None? && formId in w.forms ==> r.world.forms == w.forms[formId := w.forms[formId].(isTemplate := isTemplate)]
  {
    if fault.Some? then Outcome(w, Some(Db(fault.value)))
    else
      var forms := if formId in w.forms then w.forms[formId := w.forms[formId].(isTemplate := isTemplate)] else w.forms;
      Outcome(World(forms, Cache.Delete(w.cache, Cache.TemplatesListKey)), None)
  }

  /** ListTemplates (lines 234-255): a cached list is returned without a query; otherwise
      `fetched` is what the query returns, and a successful result is cached for seven days. */
  function ListTemplates(w: World, fetched: Result<seq<Form>, DbError>): (r: (World, Result<seq<Form>, FormsError>))
    ensures var hit := Cache.Get(w.cache, Cache.TemplatesListKey);
            hit.Some? && hit.value.TemplateListValue? ==> r == (w, Ok(hit.value.templates))
    ensures var hit := Cache.Get(w.cache, Cache.TemplatesListKey);
            !(hit.Some? && hit.value.TemplateListValue?) && fetched.Err? ==> r == (w, Err(Db(fetched.error)))
    ensures var hit := Cache.Get(w.cache, Cache.TemplatesListKey);
            !(hit.Some? && hit.value.TemplateListValue?) && fetched.Ok? ==>
              && r.1 == Ok(fetched.value)
              && r.0.forms == w.forms
              && Cache.Get(r.0.cache, Cache.TemplatesListKey) == Some(TemplateListValue(fetched.value))
              && r.0.cache[Cache.TemplatesListKey].ttl == Cache.TemplatesTtl
  {
    var hit := Cache.Get(w.cache, Cache.TemplatesListKey);
    if hit.Some? && hit.value.TemplateListValue? then (w, Ok(hit.value.templates))
    else if fetched.Err? then (w, Err(Db(fetched.error)))
    else (w.(cache := Cache.Set(w.cache, Cache.TemplatesListKey, TemplateListValue(fetched.value), Cache.TemplatesTtl)), Ok(fetched.value))
  }

  /** A listed result is served from the cache afterwards, whatever the database would say. */
  lemma ListTemplatesServesCachedList(w: World, fetched: Result<seq<Form>, DbError>, later: Result<seq<Form>, DbError>)
    requires ListTemplates(w, fetched).1.Ok?
    ensures var (w1, r1) := ListTemplates(w, fetched);
            ListTemplates(w1, later) == (w1, r1)
  {
  }

  /** After a template flag changes, the next listing queries the database. */
  lemma ToggleTemplateForcesRefresh(w: World, formId: string, isTemplate: bool, fetched: seq<Form>)
    ensures var t := ToggleTemplate(w, formId, isTemplate, None);
            ListTemplates(t.world, Ok(fetched)).1 == Ok(fetched)
  {
  }

  /** Updating a template as written leaves the cached template list in place, so the listing
      keeps showing the old title; with is_template read the next listing queries the database. */
  lemma TemplateListStaleAfterUpdate()
    ensures var f := Form("t1", "u1", "Old", "", StatusPublished, None, None, true, true);
            var w := World(map["t1" := f], map[Cache.TemplatesListKey := Cache.Entry(TemplateListValue([f]), Cache.TemplatesTtl)]);
            var faults := Faults(None, None, None);
            var asWritten := UpdateWith(false, w, "u1", "t1", "New", "", StatusPublished, faults);
            var corrected := Update(w, "u1", "t1", "New", "", StatusPublished, faults);
            && asWritten.err.None? && corrected.err.None?
            && asWritten.world.forms["t1"].title == "New"
            && ListTemplates(asWritten.world, Ok([asWritten.world.forms["t1"]])).1 == Ok([f])
            && ListTemplates(corrected.world, Ok([corrected.world.forms["t1"]])).1 == Ok([corrected.world.forms["t1"]])
  {
    var f := Form("t1", "u1", "Old", "", StatusPublished, None, None, true, true);
    var w := World(map["t1" := f], map[Cache.TemplatesListKey := Cache.Entry(TemplateListValue([f]), Cache.TemplatesTtl)]);
    var faults := Faults(None, None, None);
    TrimSpaceNoSpace("New");
    TrimSpaceNoSpace("");
    UpdateAsWrittenKeepsTemplateList(w, "u1", "t1", "New", "", StatusPublished, faults);
  }
}

=== FILE: json.dfy ===
/** The JSON values the services pass through `map[string]any` without looking inside: the
    model distinguishes booleans and integers, which the plan defaults write, and carries
    strings and composite values as they are. */
module Json {

  datatype Value = Null | Bool(b: bool) | Number(n: int) | Str(s: string) | Composite(text: string)

  /** A JSON object: Go's `map[string]any`. */
  type Object = map<string, Value>
}

=== FILE: links_service.dfy ===
/** Publishing forms and serving them by slug (internal/links/service.go): the slug rules,
    the publish and toggle writes with their cache invalidation, and the cached public read. */
module LinksService {
  import opened Wrappers
  import opened Storage
  import opened Text
  import opened FlowTree
  import opened Records
  import Cache
  import FormsService
  import Base64Url
  import FlowsService

  datatype LinksError = InvalidSlug | SlugTaken | FormNotFound | Db(cause: DbError)

  type World = FormsService.World

  // ---------------------------------------------------------------------------------------
  // Slugs

  predicate SlugChar(c: char) {
    ('a' <= c <= 'z') || ('0' <= c <= '9') || c == '-'
  }

  /** isValidSlug (lines 166-172): 3 to 50 bytes, and the whole of it matches `[a-z0-9-]+`. */
  predicate IsValidSlug(s: string) {
    3 <= ByteLen(s) <= 50 && |s| > 0 && forall i :: 0 <= i < |s| ==> SlugChar(s[i])
  }

  /** The pattern admits only ASCII, so the byte bound is a character bound. */
  lemma IsValidSlugIff(s: string)
    ensures IsValidSlug(s) <==> 3 <= |s| <= 50 && forall i :: 0 <= i < |s| ==> SlugChar(s[i])
  {
    if forall i :: 0 <= i < |s| ==> SlugChar(s[i]) {
      AsciiByteLen(s);
    }
  }

  /** The automatic slug is never held to the slug rules. Its length is always within them, so it
      passes exactly when none of its characters is an upper-case letter or `_`. */
  lemma AutoSlugValidIff(b: seq<Base64Url.Byte>)
    requires |b| == 8
    ensures IsValidSlug(Base64Url.AutoSlug(b)) <==> forall i :: 0 <= i < 11 ==> SlugChar(Base64Url.AutoSlug(b)[i])
  {
    IsValidSlugIff(Base64Url.AutoSlug(b));
  }

  /** Eight zero bytes give the slug "AAAAAAAAAAA", which the slug rules would refuse. */
  lemma AutoSlugNeedNotBeValid()
    ensures !IsValidSlug(Base64Url.AutoSlug([0, 0, 0, 0, 0, 0, 0, 0]))
  {
    var b: seq<Base64Url.Byte> := [0, 0, 0, 0, 0, 0, 0, 0];
    Base64Url.EncodeSplit(b);
    assert b[..3] == [0, 0, 0];
    assert Base64Url.EncodeQuantum(b[..3])[0] == Base64Url.Char(0) == 'A';
    assert Base64Url.AutoSlug(b)[0] == 'A';
    AutoSlugValidIff(b);
  }

  /** CheckSlugExists (links/repository.go lines 121-131): some live form uses the slug as its
      automatic or custom slug. */
  predicate SlugInUse(forms: map<string, Form>, s: string) {
    exists id :: id in forms && (forms[id].autoSlug == Some(s) || forms[id].customSlug == Some(s))
  }

  // ---------------------------------------------------------------------------------------
  // PublishForm

  /** The answers of the repository: the slug check, the publishing write and, for the
      corrected invalidation, the read of the form's current slugs. */
  datatype PublishFaults = PublishFaults(slugCheck: Option<DbError>, write: Option<DbError>, slugRead: Option<DbError>)

  datatype Published = Published(world: World, autoSlug: string, customSlug: Option<string>, err: Option<LinksError>)

  function Failed(w: World, e: LinksError): Published {
    Published(w, "", None, Some(e))
  }

  /** The publishing write (links/repository.go lines 18-39) and the invalidation after it.
      `corrected` also drops the slug keys of the slugs the form had and of those it gets. */
  function PublishWrite(corrected: bool, w: World, formId: string, userId: string, auto: string, custom: Option<string>, faults: PublishFaults): (r: Published)
    ensures faults.write.Some? ==> r == Failed(w, Db(faults.write.value))
    ensures faults.write.None? && !FormsService.Owns(w.forms, userId, formId) ==> r == Failed(w, FormNotFound)
    ensures faults.write.None? && FormsService.Owns(w.forms, userId, formId) ==>
              && r.err.None? && r.autoSlug == auto && r.customSlug == custom
              && r.world.forms == w.forms[formId := w.forms[formId].(status := FormsService.StatusPublished,
                                   autoSlug := Some(auto), customSlug := custom, acceptingResponses := true)]
              && Cache.FormIdKey(formId) !in r.world.cache
    ensures corrected && r.err.None? ==>
              forall k :: k in FormsService.SlugKeys(Some(auto)) + FormsService.SlugKeys(custom) ==> k !in r.world.cache
    ensures corrected && r.err.None? && faults.slugRead.None? && formId in w.forms ==>
              forall k :: k in FormsService.SlugKeys(w.forms[formId].autoSlug) + FormsService.SlugKeys(w.forms[formId].customSlug) ==> k !in r.world.cache
  {
    if faults.write.Some? then Failed(w, Db(faults.write.value))
    else if !FormsService.Owns(w.forms, userId, formId) then Failed(w, FormNotFound)
    else
      var prior := w.forms[formId];
      var forms := w.forms[formId := prior.(status := FormsService.StatusPublished, autoSlug := Some(auto),
                                          customSlug := custom, acceptingResponses := true)];
      var cache :=
        if corrected then
          var before := FormsService.ReadSlugs(w.forms, formId, faults.slugRead);
          Cache.DeleteAll(FormsService.Invalidate(w.cache, formId, before, false),
                          FormsService.SlugKeys(Some(auto)) + FormsService.SlugKeys(custom))
        else Cache.Delete(w.cache, Cache.FormIdKey(formId));
      Published(FormsService.World(forms, cache), auto, custom, None)
  }

  /** The custom-slug checks on the trimmed slug (lines 36-47). */
  function PublishCustom(corrected: bool, w: World, formId: string, userId: string, auto: string, cs: string, faults: PublishFaults): (r: Published)
    ensures !IsValidSlug(cs) ==> r == Failed(w, InvalidSlug)
    ensures IsValidSlug(cs) && faults.slugCheck.Some? ==> r == Failed(w, Db(faults.slugCheck.value))
    ensures IsValidSlug(cs) && faults.slugCheck.None? && SlugInUse(w.forms, cs) ==> r == Failed(w, SlugTaken)
    ensures IsValidSlug(cs) && faults.slugCheck.None? && !SlugInUse(w.forms, cs) ==>
              r == PublishWrite(corrected, w, formId, userId, auto, Some(cs), faults)
  {
    if !IsValidSlug(cs) then Failed(w, InvalidSlug)
    else if faults.slugCheck.Some? then Failed(w, Db(faults.slugCheck.value))
    else if SlugInUse(w.forms, cs) then Failed(w, SlugTaken)
    else PublishWrite(corrected, w, formId, userId, auto, Some(cs), faults)
  }

  /** PublishForm (lines 27-63). `random` is what crypto/rand supplies for the automatic slug. */
  function PublishWith(corrected: bool, w: World, formId: string, userId: string, customSlug: Option<string>, random: seq<Base64Url.Byte>, faults: PublishFaults): Published
    requires |random| == 8
  {
    var auto := Base64Url.AutoSlug(random);
    if customSlug.Some? && customSlug.value != "" then
      PublishCustom(corrected, w, formId, userId, auto, TrimSpace(customSlug.value), faults)
    else
      PublishWrite(corrected, w, formId, userId, auto, None, faults)
  }

  /** PublishForm as written: only the form's ID key is deleted. */
  function PublishFormAsWritten(w: World, formId: string, userId: string, customSlug: Option<string>, random: seq<Base64Url.Byte>, faults: PublishFaults): (r: Published)
    requires |random| == 8
    ensures r.err.None? ==> r.world.cache == Cache.Delete(w.cache, Cache.FormIdKey(formId))
    ensures r.err.Some? ==> r.world == w
  {
    PublishWith(false, w, formId, userId, customSlug, random, faults)
  }

  /** PublishForm with the slug keys of the old and the new slugs dropped as well. */
  function PublishForm(w: World, formId: string, userId: string, customSlug: Option<string>, random: seq<Base64Url.Byte>, faults: PublishFaults): (r: Published)
    requires |random| == 8
    ensures r.err.None? ==> && |r.autoSlug| == 11 && r.autoSlug == Base64Url.AutoSlug(random)
                            && formId in r.world.forms
                            && r.world.forms[formId].status == FormsService.StatusPublished
                            && r.world.forms[formId].autoSlug == Some(r.autoSlug)
                            && r.world.forms[formId].customSlug == r.customSlug
                            && r.world.forms[formId].acceptingResponses
    ensures r.err.None? ==> (r.customSlug.Some? <==> customSlug.Some? && customSlug.value != "")
    ensures r.customSlug.Some? ==> && customSlug.Some? && r.customSlug.value == TrimSpace(customSlug.value)
                                   && IsValidSlug(r.customSlug.value) && !SlugInUse(w.forms, r.customSlug.value)
    ensures r.err.Some? ==> r.world == w
    ensures r.err.None? ==> forall k :: k in FormsService.SlugKeys(Some(r.autoSlug)) + FormsService.SlugKeys(r.customSlug) ==> k !in r.world.cache
    ensures r.err.None? && faults.slugRead.None? && formId in w.forms ==>
              forall k :: k in FormsService.SlugKeys(w.forms[formId].autoSlug) + FormsService.SlugKeys(w.forms[formId].customSlug) ==> k !in r.world.cache
    ensures r.err == Some(InvalidSlug) <==> customSlug.Some? && customSlug.value != "" && !IsValidSlug(TrimSpace(customSlug.value))
  {
    PublishWith(true, w, formId, userId, customSlug, random, faults)
  }

  // ---------------------------------------------------------------------------------------
  // ToggleAcceptingResponses

  datatype ToggleFaults = ToggleFaults(write: Option<DbError>, slugRead: Option<DbError>)

  /** ToggleAcceptingResponses (lines 66-78, links/repository.go lines 42-59); `corrected`
      also drops the form's slug keys. */
  function ToggleWith(corrected: bool, w: World, formId: string, userId: string, accepting: bool, faults: ToggleFaults): (r: (World, Option<LinksError>))
    ensures faults.write.Some? ==> r == (w, Some(Db(faults.write.value)))
    ensures faults.write.None? && !FormsService.Owns(w.forms, userId, formId) ==> r == (w, Some(FormNotFound))
    ensures r.1.None? <==> faults.write.None? && FormsService.Owns(w.forms, userId, formId)
    ensures r.1.None? ==> && r.0.forms == w.forms[formId := w.forms[formId].(acceptingResponses := accepting)]
                          && Cache.FormIdKey(formId) !in r.0.cache
  {
    if faults.write.Some? then (w, Some(Db(faults.write.value)))
    else if !FormsService.Owns(w.forms, userId, formId) then (w, Some(FormNotFound))
    else
      var forms := w.forms[formId := w.forms[formId].(acceptingResponses := accepting)];
      var cache :=
        if corrected then FormsService.Invalidate(w.cache, formId, FormsService.ReadSlugs(w.forms, formId, faults.slugRead), false)
        else Cache.Delete(w.cache, Cache.FormIdKey(formId));
      (FormsService.World(forms, cache), None)
  }

  function ToggleAsWritten(w: World, formId: string, userId: string, accepting: bool, faults: ToggleFaults): (r: (World, Option<LinksError>))
    ensures r.1.None? ==> r.0.cache == Cache.Delete(w.cache, Cache.FormIdKey(formId))
    ensures r.1.Some? ==> r.0 == w
  {
    ToggleWith(false, w, formId, userId, accepting, faults)
  }

  function ToggleAcceptingResponses(w: World, formId: string, userId: string, accepting: bool, faults: ToggleFaults): (r: (World, Option<LinksError>))
    ensures r.1.None? && faults.slugRead.None? && formId in w.forms ==>
              forall s :: s in FormsService.SlugKeys(w.forms[formId].autoSlug) + FormsService.SlugKeys(w.forms[formId].customSlug) ==> s !in r.0.cache
  {
    ToggleWith(true, w, formId, userId, accepting, faults)
  }

  // ---------------------------------------------------------------------------------------
  // GetPublicForm

  /** The WHERE clause of GetFormBySlug (links/repository.go lines 65-71): the form is
      published and carries the slug as its auto or its custom slug. The forms map holds only
      live rows, so `deleted_at IS NULL` holds of every form in it. */
  predicate ServesSlug(f: Form, slug: string) {
    f.status == FormsService.StatusPublished && (f.autoSlug == Some(slug) || f.customSlug == Some(slug))
  }

  /** What GetFormBySlug can answer over the live forms: a live form that serves the slug, no
      rows when none does, or a failure of the database. */
  predicate SlugRow(forms: map<string, Form>, slug: string, row: Result<Form, DbError>) {
    match row
    case Ok(f) => f.id in forms && forms[f.id] == f && ServesSlug(f, slug)
    case Err(NoRows) => forall id :: id in forms ==> !ServesSlug(forms[id], slug)
    case Err(DbFailure(_)) => true
  }

  /** When exactly one live form serves the slug, the lookup finds that form or fails. */
  lemma SlugRowFindsOnlyServer(forms: map<string, Form>, slug: string, row: Result<Form, DbError>, id: string)
    requires SlugRow(forms, slug, row)
    requires id in forms && ServesSlug(forms[id], slug)
    requires forall other :: other in forms && other != id ==> !ServesSlug(forms[other], slug)
    ensures row == Ok(forms[id]) || row.error.DbFailure?
  {
  }

  /** The rows read on a cache miss: GetFormBySlug (the form published under the slug) and
      GetFlowForPublicForm (its flow rows). The read tree uses fuel one more than the row
      count, enough for every acyclic flow. */
  function Fetch(w: World, slug: string, row: Result<Form, DbError>, items: Result<seq<FlowItem>, DbError>): (r: (World, Result<PublicForm, LinksError>))
    ensures row.Err? ==> r == (w, Err(Db(row.error)))
    ensures row.Ok? && items.Err? ==> r == (w, Err(Db(items.error)))
    ensures row.Ok? && items.Ok? ==>
              && r.1.Ok?
              && r.1.value.id == row.value.id && r.1.value.title == row.value.title
              && r.1.value.description == row.value.description
              && r.1.value.acceptingResponses == row.value.acceptingResponses
              && r.0.forms == w.forms
              && Cache.Get(r.0.cache, Cache.FormSlugKey(slug)) == Some(PublicFormValue(r.1.value))
              && Cache.Get(r.0.cache, Cache.FormIdKey(row.value.id)) == Some(PublicFormValue(r.1.value))
              && r.0.cache[Cache.FormSlugKey(slug)].ttl == Cache.PublicFormTtl
              && r.0.cache[Cache.FormIdKey(row.value.id)].ttl == Cache.PublicFormTtl
              && forall k :: k != Cache.FormSlugKey(slug) && k != Cache.FormIdKey(row.value.id) ==>
                   Cache.Get(r.0.cache, k) == Cache.Get(w.cache, k)
  {
    if row.Err? then (w, Err(Db(row.error)))
    else if items.Err? then (w, Err(Db(items.error)))
    else
      var f := row.value;
      var pf := PublicForm(f.id, f.title, f.description, f.acceptingResponses, BuildTree(items.value, None, |items.value| + 1));
      Cache.KeySpacesDisjoint(slug, f.id);
      var c1 := Cache.Set(w.cache, Cache.FormSlugKey(slug), PublicFormValue(pf), Cache.PublicFormTtl);
      var c2 := Cache.Set(c1, Cache.FormIdKey(f.id), PublicFormValue(pf), Cache.PublicFormTtl);
      (w.(cache := c2), Ok(pf))
  }

  /** GetPublicForm (lines 81-125): a cached public form under the slug key is returned as is;
      anything else is a miss. */
  function GetPublicForm(w: World, slug: string, row: Result<Form, DbError>, items: Result<seq<FlowItem>, DbError>): (r: (World, Result<PublicForm, LinksError>))
    ensures Cache.Get(w.cache, Cache.FormSlugKey(slug)).Some? && Cache.Get(w.cache, Cache.FormSlugKey(slug)).value.PublicFormValue?
            ==> r == (w, Ok(Cache.Get(w.cache, Cache.FormSlugKey(slug)).value.form))
    ensures r.0.forms == w.forms
  {
    var hit := Cache.Get(w.cache, Cache.FormSlugKey(slug));
    if hit.Some? && hit.value.PublicFormValue? then (w, Ok(hit.value.form))
    else Fetch(w, slug, row, items)
  }

  /** The first read caches what the second serves: the second read of a slug returns the
      same form, whatever the database would say, and changes nothing. */
  lemma ServedFromCache(w: World, slug: string, row: Result<Form, DbError>, items: Result<seq<FlowItem>, DbError>,
                        row2: Result<Form, DbError>, items2: Result<seq<FlowItem>, DbError>)
    requires GetPublicForm(w, slug, row, items).1.Ok?
    ensures var (w1, r1) := GetPublicForm(w, slug, row, items);
            GetPublicForm(w1, slug, row2, items2) == (w1, r1)
  {
  }

  /** A miss goes to the database. */
  lemma MissReads(w: World, slug: string, row: Result<Form, DbError>, items: Result<seq<FlowItem>, DbError>)
    requires Cache.FormSlugKey(slug) !in w.cache
    ensures GetPublicForm(w, slug, row, items) == Fetch(w, slug, row, items)
  {
  }

  // ---------------------------------------------------------------------------------------
  // Stale slug keys

  /** As written, toggling leaves the public form cached under its slug, so the next read by
      slug serves the form as it was, whatever the database now holds. */
  lemma ToggleServesStale(w: World, formId: string, userId: string, accepting: bool, faults: ToggleFaults,
                          slug: string, pf: PublicForm, row: Result<Form, DbError>, items: Result<seq<FlowItem>, DbError>)
    requires Cache.Get(w.cache, Cache.FormSlugKey(slug)) == Some(PublicFormValue(pf))
    ensures var w1 := ToggleAsWritten(w, formId, userId, accepting, faults).0;
            GetPublicForm(w1, slug, row, items) == (w1, Ok(pf))
  {
    var w1 := ToggleAsWritten(w, formId, userId, accepting, faults).0;
    Cache.KeySpacesDisjoint(slug, formId);
    assert Cache.Get(w1.cache, Cache.FormSlugKey(slug)) == Some(PublicFormValue(pf));
  }

  /** With the slug keys dropped, the next read by any of the form's slugs goes to the
      database and so shows the new setting. */
  lemma ToggleRefreshes(w: World, formId: string, userId: string, accepting: bool, faults: ToggleFaults,
                        slug: string, row: Result<Form, DbError>, items: Result<seq<FlowItem>, DbError>)
    requires ToggleAcceptingResponses(w, formId, userId, accepting, faults).1.None? && faults.slugRead.None?
    requires formId in w.forms && slug != ""
    requires w.forms[formId].autoSlug == Some(slug) || w.forms[formId].customSlug == Some(slug)
    ensures var w1 := ToggleAcceptingResponses(w, formId, userId, accepting, faults).0;
            && GetPublicForm(w1, slug, row, items) == Fetch(w1, slug, row, items)
            && (SlugRow(w1.forms, slug, row) && row.Ok? && row.value.id == formId && items.Ok? ==>
                  GetPublicForm(w1, slug, row, items).1.Ok? && GetPublicForm(w1, slug, row, items).1.value.acceptingResponses == accepting)
  {
    var w1 := ToggleAcceptingResponses(w, formId, userId, accepting, faults).0;
    assert Cache.FormSlugKey(slug) in FormsService.SlugKeys(w.forms[formId].autoSlug) + FormsService.SlugKeys(w.forms[formId].customSlug);
    MissReads(w1, slug, row, items);
  }

  /** As written, republishing leaves the public form cached under the form's old slugs. */
  lemma PublishServesOldSlug(w: World, formId: string, userId: string, customSlug: Option<string>, random: seq<Base64Url.Byte>,
                             faults: PublishFaults, slug: string, pf: PublicForm, row: Result<Form, DbError>, items: Result<seq<FlowItem>, DbError>)
    requires |random| == 8
    requires Cache.Get(w.cache, Cache.FormSlugKey(slug)) == Some(PublicFormValue(pf))
    ensures var w1 := PublishFormAsWritten(w, formId, userId, customSlug, random, faults).world;
            GetPublicForm(w1, slug, row, items) == (w1, Ok(pf))
  {
    var w1 := PublishFormAsWritten(w, formId, userId, customSlug, random, faults).world;
    Cache.KeySpacesDisjoint(slug, formId);
    assert Cache.Get(w1.cache, Cache.FormSlugKey(slug)) == Some(PublicFormValue(pf));
  }

  /** With the corrected invalidation, reads by the old and the new slugs go to the database. */
  lemma PublishRefreshes(w: World, formId: string, userId: string, customSlug: Option<string>, random: seq<Base64Url.Byte>,
                         faults: PublishFaults, slug: string, row: Result<Form, DbError>, items: Result<seq<FlowItem>, DbError>)
    requires |random| == 8
    requires PublishForm(w, formId, userId, customSlug, random, faults).err.None? && faults.slugRead.None?
    requires formId in w.forms && slug != ""
    requires var r := PublishForm(w, formId, userId, customSlug, random, faults);
             || w.forms[formId].autoSlug == Some(slug) || w.forms[formId].customSlug == Some(slug)
             || slug == r.autoSlug || r.customSlug == Some(slug)
    ensures var w1 := PublishForm(w, formId, userId, customSlug, random, faults).world;
            GetPublicForm(w1, slug, row, items) == Fetch(w1, slug, row, items)
  {
    var r := PublishForm(w, formId, userId, customSlug, random, faults);
    assert Cache.FormSlugKey(slug) in FormsService.SlugKeys(w.forms[formId].autoSlug) + FormsService.SlugKeys(w.forms[formId].customSlug)
                                      + FormsService.SlugKeys(Some(r.autoSlug)) + FormsService.SlugKeys(r.customSlug);
    MissReads(r.world, slug, row, items);
  }

  /** A miss on a form whose flow was saved serves the saved tree, whatever order the query
      gives rows tied on depth and order index. */
  lemma FetchShowsSavedFlow(w: World, slug: string, f: Form, ids: nat -> string, blocks: seq<TreeBlock>, read: seq<FlowsService.Connection>)
    requires forall i, j :: i != j ==> ids(i) != ids(j)
    requires FlowsService.ReadOf(FlowsService.Plan(ids, blocks), read)
    ensures var r := Fetch(w, slug, Ok(f), Ok(FlowsService.Items(read)));
            r.1.Ok? && r.1.value.blocks == FlowsService.Assign(ids, FlowsService.TrimQuestions(blocks), 0)
  {
    FlowsService.PlanRoundTripRowFuel(ids, blocks, read);
  }
}

=== FILE: node_calculator.dfy ===
/** The per-node metrics fold of internal/analytics/calculators/node_calculator.go. The repository
    fetch is the input `rs`; the result is the calculator's map from node ID to metrics record
    (the Go code then copies the map's values into a slice in map order). */
module NodeCalculator {
  import opened Wrappers
  import opened PathData

  /** The integer part of a node's metrics (the floating-point average is not modelled). */
  datatype NodeMetrics = NodeMetrics(
    formId: string,
    flowConnectionId: string,
    visitCount: nat,
    answerCount: nat,
    skipCount: nat,
    dropOffCount: nat,
    totalTimeSpent: int)

  /** The nodes a response has an answer for, however many answers name them. */
  function AnsweredNodes(answers: seq<AnswerData>): set<string> {
    set a | a in answers :: a.flowConnectionId
  }

  /** Answer `k` names node `n` and carries a time. */
  predicate Timed(answers: seq<AnswerData>, k: int, n: string) {
    0 <= k < |answers| && answers[k].flowConnectionId == n && answers[k].timeSpent.Some?
  }

  /** No answer after position `k` names `n` with a time. */
  predicate NoLaterTimed(answers: seq<AnswerData>, k: int, n: string) {
    forall j :: k < j < |answers| ==> !Timed(answers, j, n)
  }

  /** The per-response time map: answers are applied in order and a timed answer overwrites the
      previous time for its node, so each node keeps the time of its LAST timed answer; untimed
      answers leave the map alone. */
  function AnswerTimes(answers: seq<AnswerData>): (r: map<string, int>)
    ensures forall n :: n in r <==> exists k :: Timed(answers, k, n)
    ensures forall n, k :: Timed(answers, k, n) && NoLaterTimed(answers, k, n) ==>
              n in r && r[n] == answers[k].timeSpent.value
    decreases |answers|
  {
    if |answers| == 0 then
      map[]
    else
      var prev := AnswerTimes(answers[..|answers| - 1]);
      var a := answers[|answers| - 1];
      AnswerTimesStep(answers, prev);
      if a.timeSpent.Some? then prev[a.flowConnectionId := a.timeSpent.value] else prev
  }

  /** Applying the last answer to the map of the others keeps both promises of `AnswerTimes`. */
  lemma AnswerTimesStep(answers: seq<AnswerData>, prev: map<string, int>)
    requires |answers| > 0
    requires var init := answers[..|answers| - 1];
             forall n :: n in prev <==> exists k :: Timed(init, k, n)
    requires var init := answers[..|answers| - 1];
             forall n, k :: Timed(init, k, n) && NoLaterTimed(init, k, n) ==>
               n in prev && prev[n] == init[k].timeSpent.value
    ensures var a := answers[|answers| - 1];
            var r := if a.timeSpent.Some? then prev[a.flowConnectionId := a.timeSpent.value] else prev;
            && (forall n :: n in r <==> exists k :: Timed(answers, k, n))
            && (forall n, k :: Timed(answers, k, n) && NoLaterTimed(answers, k, n) ==>
                  n in r && r[n] == answers[k].timeSpent.value)
  {
    var init := answers[..|answers| - 1];
    var last := |answers| - 1;
    var a := answers[last];
    var r := if a.timeSpent.Some? then prev[a.flowConnectionId := a.timeSpent.value] else prev;
    forall k, n | 0 <= k < |init|
      ensures Timed(init, k, n) <==> Timed(answers, k, n)
    {
      assert init[k] == answers[k];
    }
    forall n
      ensures n in r <==> exists k :: Timed(answers, k, n)
    {
      if a.timeSpent.Some? && n == a.flowConnectionId {
        assert Timed(answers, last, n);
      } else {
        assert !Timed(answers, last, n);
        if n in r {
          var k :| Timed(init, k, n);
          assert Timed(answers, k, n);
        }
        if exists k :: Timed(answers, k, n) {
          var k :| Timed(answers, k, n);
          assert Timed(init, k, n);
        }
      }
    }
    forall n, k | Timed(answers, k, n) && NoLaterTimed(answers, k, n)
      ensures n in r && r[n] == answers[k].timeSpent.value
    {
      if k < last {
        assert !Timed(answers, last, n);
        assert Timed(init, k, n);
        forall j | k < j < |init| ensures !Timed(init, j, n) {
          assert !Timed(answers, j, n);
        }
        assert NoLaterTimed(init, k, n);
      }
    }
  }

  /** The time a response contributes per visit of `n`: that of its last timed answer for `n`, else 0. */
  function RecordedTime(r: ResponseData, n: string): int {
    var times := AnswerTimes(r.answers);
    if n in times then times[n] else 0
  }

  /** The fresh record the calculator creates the first time it meets a node. */
  function Zero(formId: string, n: string): NodeMetrics {
    NodeMetrics(formId, n, 0, 0, 0, 0, 0)
  }

  /** The record for `n`, or the fresh one if `n` has not been met. */
  function Get(m: map<string, NodeMetrics>, formId: string, n: string): NodeMetrics {
    if n in m then m[n] else Zero(formId, n)
  }

  /** One visit of `nodeId` at some path position (lines 64-95): count the visit, then count it as
      answered (adding the response's recorded time, if any) or as skipped, and as a drop-off
      when it is the path's last position. */
  function RecordVisit(
    m: map<string, NodeMetrics>, formId: string, nodeId: string,
    answered: set<string>, times: map<string, int>, isLast: bool): map<string, NodeMetrics>
  {
    var node := Get(m, formId, nodeId);
    var visited := node.(visitCount := node.visitCount + 1);
    var classified :=
      if nodeId in answered then
        visited.(answerCount := visited.answerCount + 1,
                 totalTimeSpent := visited.totalTimeSpent + (if nodeId in times then times[nodeId] else 0))
      else
        visited.(skipCount := visited.skipCount + 1);
    var final := if isLast then classified.(dropOffCount := classified.dropOffCount + 1) else classified;
    m[nodeId := final]
  }

  /** The loop over one response's path, from position `i` on. */
  function FoldPath(
    m: map<string, NodeMetrics>, formId: string, path: seq<string>, i: nat,
    answered: set<string>, times: map<string, int>): map<string, NodeMetrics>
    requires i <= |path|
    decreases |path| - i
  {
    if i == |path| then m
    else FoldPath(RecordVisit(m, formId, path[i], answered, times, i == |path| - 1), formId, path, i + 1, answered, times)
  }

  /** The outer loop over the responses (lines 51-96). */
  function FoldResponses(m: map<string, NodeMetrics>, formId: string, rs: seq<ResponseData>): map<string, NodeMetrics>
    decreases |rs|
  {
    if |rs| == 0 then m
    else
      var r := rs[0];
      FoldResponses(FoldPath(m, formId, r.flowPath, 0, AnsweredNodes(r.answers), AnswerTimes(r.answers)), formId, rs[1..])
  }

  /** nodeCalculator.Calculate: zero responses give an empty result, not an error. */
  function Calculate(formId: string, rs: seq<ResponseData>): (r: map<string, NodeMetrics>)
    ensures |rs| == 0 ==> r == map[]
  {
    if |rs| == 0 then map[] else FoldResponses(map[], formId, rs)
  }

  // ---------------------------------------------------------------------------------------
  // Reference definitions: each metric as a sum over the responses, one node at a time.

  /** How often `n` occurs across all paths, repeats within a path included. */
  function VisitCount(rs: seq<ResponseData>, n: string): nat {
    if |rs| == 0 then 0 else Count(rs[0].flowPath, n) + VisitCount(rs[1..], n)
  }

  /** Visits of `n` in responses that have an answer for `n`. */
  function AnswerCount(rs: seq<ResponseData>, n: string): nat {
    if |rs| == 0 then 0
    else (if n in AnsweredNodes(rs[0].answers) then Count(rs[0].flowPath, n) else 0) + AnswerCount(rs[1..], n)
  }

  /** Visits of `n` in responses that have no answer for `n`. */
  function SkipCount(rs: seq<ResponseData>, n: string): nat {
    if |rs| == 0 then 0
    else (if n in AnsweredNodes(rs[0].answers) then 0 else Count(rs[0].flowPath, n)) + SkipCount(rs[1..], n)
  }

  /** The number of responses whose path ends at `n`. */
  function DropOffCount(rs: seq<ResponseData>, n: string): nat {
    if |rs| == 0 then 0 else (if EndsAt(rs[0], n) then 1 else 0) + DropOffCount(rs[1..], n)
  }

  /** Each answered visit of `n` adds the response's recorded time for `n`. */
  function TimeTotal(rs: seq<ResponseData>, n: string): int {
    if |rs| == 0 then 0
    else (if n in AnsweredNodes(rs[0].answers) then Count(rs[0].flowPath, n) * RecordedTime(rs[0], n) else 0)
         + TimeTotal(rs[1..], n)
  }

  // ---------------------------------------------------------------------------------------
  // The fold computes the reference definitions.

  lemma {:induction false} FoldPathCounts(
    m: map<string, NodeMetrics>, formId: string, path: seq<string>, i: nat,
    answered: set<string>, times: map<string, int>, n: string)
    requires i <= |path|
    ensures var g := Get(FoldPath(m, formId, path, i, answered, times), formId, n);
            var g0 := Get(m, formId, n);
            var c := Count(path[i..], n);
            && g.formId == g0.formId && g.flowConnectionId == g0.flowConnectionId
            && g.visitCount == g0.visitCount + c
            && g.answerCount == g0.answerCount + (if n in answered then c else 0)
            && g.skipCount == g0.skipCount + (if n in answered then 0 else c)
            && g.dropOffCount == g0.dropOffCount + (if i < |path| && path[|path| - 1] == n then 1 else 0)
            && g.totalTimeSpent == g0.totalTimeSpent + (if n in answered && n in times then c * times[n] else 0)
    decreases |path| - i
  {
    if i < |path| {
      var m1 := RecordVisit(m, formId, path[i], answered, times, i == |path| - 1);
      FoldPathCounts(m1, formId, path, i + 1, answered, times, n);
      CountSuffixStep(path, i, n);
      RecordVisitGet(m, formId, path[i], answered, times, i == |path| - 1, n);
      if n in answered && n in times {
        Distribute(if path[i] == n then 1 else 0, Count(path[i + 1..], n), times[n]);
      }
    }
  }

  /** What one visit of `x` does to the record of `n`. */
  lemma RecordVisitGet(
    m: map<string, NodeMetrics>, formId: string, x: string,
    answered: set<string>, times: map<string, int>, isLast: bool, n: string)
    ensures var g := Get(RecordVisit(m, formId, x, answered, times, isLast), formId, n);
            var g0 := Get(m, formId, n);
            var d := if x == n then 1 else 0;
            && g.formId == g0.formId && g.flowConnectionId == g0.flowConnectionId
            && g.visitCount == g0.visitCount + d
            && g.answerCount == g0.answerCount + (if n in answered then d else 0)
            && g.skipCount == g0.skipCount + (if n in answered then 0 else d)
            && g.dropOffCount == g0.dropOffCount + (if isLast then d else 0)
            && g.totalTimeSpent == g0.totalTimeSpent + (if x == n && n in answered && n in times then times[n] else 0)
  {
  }

  lemma Distribute(a: int, b: int, t: int)
    ensures (if a == 1 then t else 0) + b * t == (if a == 1 then 1 + b else b) * t
  {
  }

  lemma {:induction false} FoldPathKeys(
    m: map<string, NodeMetrics>, formId: string, path: seq<string>, i: nat,
    answered: set<string>, times: map<string, int>)
    requires i <= |path|
    ensures FoldPath(m, formId, path, i, answered, times).Keys == m.Keys + (set x | x in path[i..])
    decreases |path| - i
  {
    if i < |path| {
      var m1 := RecordVisit(m, formId, path[i], answered, times, i == |path| - 1);
      FoldPathKeys(m1, formId, path, i + 1, answered, times);
      assert path[i..] == [path[i]] + path[i + 1..];
    } else {
      assert path[i..] == [];
    }
  }

  lemma {:induction false} FoldResponsesCounts(m: map<string, NodeMetrics>, formId: string, rs: seq<ResponseData>, n: string)
    ensures var g := Get(FoldResponses(m, formId, rs), formId, n);
            var g0 := Get(m, formId, n);
            && g.formId == g0.formId && g.flowConnectionId == g0.flowConnectionId
            && g.visitCount == g0.visitCount + VisitCount(rs, n)
            && g.answerCount == g0.answerCount + AnswerCount(rs, n)
            && g.skipCount == g0.skipCount + SkipCount(rs, n)
            && g.dropOffCount == g0.dropOffCount + DropOffCount(rs, n)
            && g.totalTimeSpent == g0.totalTimeSpent + TimeTotal(rs, n)
    decreases |rs|
  {
    if |rs| > 0 {
      var r := rs[0];
      var times := AnswerTimes(r.answers);
      var m1 := FoldPath(m, formId, r.flowPath, 0, AnsweredNodes(r.answers), times);
      FoldPathCounts(m, formId, r.flowPath, 0, AnsweredNodes(r.answers), times, n);
      FoldResponsesCounts(m1, formId, rs[1..], n);
      assert r.flowPath[0..] == r.flowPath;
      if n in times {
        var k :| Timed(r.answers, k, n);
        assert r.answers[k] in r.answers;
      }
    }
  }

  lemma {:induction false} FoldResponsesKeys(m: map<string, NodeMetrics>, formId: string, rs: seq<ResponseData>)
    ensures FoldResponses(m, formId, rs).Keys == m.Keys + (set x | x in Visits(rs))
    decreases |rs|
  {
    if |rs| > 0 {
      var r := rs[0];
      var m1 := FoldPath(m, formId, r.flowPath, 0, AnsweredNodes(r.answers), AnswerTimes(r.answers));
      FoldPathKeys(m, formId, r.flowPath, 0, AnsweredNodes(r.answers), AnswerTimes(r.answers));
      FoldResponsesKeys(m1, formId, rs[1..]);
      assert r.flowPath[0..] == r.flowPath;
    }
  }

  /** The calculator returns exactly one record per distinct node of any path, tagged with the
      requested form, whose counts are the reference sums: visits count every occurrence, answered
      visits count as answers and add the response's last recorded time, the other visits count as
      skips, and drop-offs count the responses whose path ends at the node. */
  lemma CalculateMatchesReference(formId: string, rs: seq<ResponseData>)
    ensures var r := Calculate(formId, rs);
            && r.Keys == (set x | x in Visits(rs))
            && forall n :: n in r ==>
                 && r[n].formId == formId && r[n].flowConnectionId == n
                 && r[n].visitCount == VisitCount(rs, n)
                 && r[n].answerCount == AnswerCount(rs, n)
                 && r[n].skipCount == SkipCount(rs, n)
                 && r[n].dropOffCount == DropOffCount(rs, n)
                 && r[n].totalTimeSpent == TimeTotal(rs, n)
  {
    var r := Calculate(formId, rs);
    if |rs| > 0 {
      FoldResponsesKeys(map[], formId, rs);
      forall n | n in r
        ensures && r[n].formId == formId && r[n].flowConnectionId == n
                && r[n].visitCount == VisitCount(rs, n)
                && r[n].answerCount == AnswerCount(rs, n)
                && r[n].skipCount == SkipCount(rs, n)
                && r[n].dropOffCount == DropOffCount(rs, n)
                && r[n].totalTimeSpent == TimeTotal(rs, n)
      {
        FoldResponsesCounts(map[], formId, rs, n);
      }
    }
  }

  lemma {:induction false} AnswerPlusSkipReference(rs: seq<ResponseData>, n: string)
    ensures AnswerCount(rs, n) + SkipCount(rs, n) == VisitCount(rs, n)
  {
    if |rs| > 0 {
      AnswerPlusSkipReference(rs[1..], n);
    }
  }

  /** Every visit is counted either as an answer or as a skip, never both. */
  lemma AnswerPlusSkipIsVisit(formId: string, rs: seq<ResponseData>)
    ensures var r := Calculate(formId, rs);
            forall n :: n in r ==> r[n].answerCount + r[n].skipCount == r[n].visitCount
  {
    CalculateMatchesReference(formId, rs);
    forall n | n in Calculate(formId, rs) {
      AnswerPlusSkipReference(rs, n);
    }
  }

  /** Two response lists that agree on every path and, wherever `n` is visited, on whether and
      with what time `n` was answered. */
  predicate AgreeAt(rs: seq<ResponseData>, rs': seq<ResponseData>, n: string) {
    && |rs| == |rs'|
    && forall k :: 0 <= k < |rs| ==>
         && rs[k].flowPath == rs'[k].flowPath
         && (n in rs[k].flowPath ==>
               && (n in AnsweredNodes(rs[k].answers) <==> n in AnsweredNodes(rs'[k].answers))
               && RecordedTime(rs[k], n) == RecordedTime(rs'[k], n))
  }

  lemma {:induction false} ReferencesAgree(rs: seq<ResponseData>, rs': seq<ResponseData>, n: string)
    requires AgreeAt(rs, rs', n)
    ensures VisitCount(rs, n) == VisitCount(rs', n)
    ensures AnswerCount(rs, n) == AnswerCount(rs', n)
    ensures SkipCount(rs, n) == SkipCount(rs', n)
    ensures DropOffCount(rs, n) == DropOffCount(rs', n)
    ensures TimeTotal(rs, n) == TimeTotal(rs', n)
    ensures Visits(rs) == Visits(rs')
  {
    if |rs| > 0 {
      assert AgreeAt(rs[1..], rs'[1..], n) by {
        forall k | 0 <= k < |rs[1..]|
          ensures && rs[1..][k].flowPath == rs'[1..][k].flowPath
                  && (n in rs[1..][k].flowPath ==>
                        && (n in AnsweredNodes(rs[1..][k].answers) <==> n in AnsweredNodes(rs'[1..][k].answers))
                        && RecordedTime(rs[1..][k], n) == RecordedTime(rs'[1..][k], n))
        {
          assert rs[1..][k] == rs[k + 1] && rs'[1..][k] == rs'[k + 1];
        }
      }
      ReferencesAgree(rs[1..], rs'[1..], n);
      CountZeroIffAbsent(rs[0].flowPath, n);
    }
  }

  /** An answer whose node is not on its response's path changes no metric at all. */
  lemma OffPathAnswerChangesNothing(formId: string, rs: seq<ResponseData>, k: nat, x: AnswerData)
    requires k < |rs|
    requires x.flowConnectionId !in rs[k].flowPath
    ensures Calculate(formId, rs[k := rs[k].(answers := rs[k].answers + [x])]) == Calculate(formId, rs)
  {
    var rs' := rs[k := rs[k].(answers := rs[k].answers + [x])];
    var extended := rs[k].answers + [x];
    assert extended[..|extended| - 1] == rs[k].answers;
    assert AnsweredNodes(extended) == AnsweredNodes(rs[k].answers) + {x.flowConnectionId};
    forall n
      ensures AgreeAt(rs, rs', n)
    {
      forall j | 0 <= j < |rs| && n in rs[j].flowPath && j == k
        ensures && (n in AnsweredNodes(rs[j].answers) <==> n in AnsweredNodes(rs'[j].answers))
                && RecordedTime(rs[j], n) == RecordedTime(rs'[j], n)
      {
        assert n != x.flowConnectionId;
      }
    }
    var r := Calculate(formId, rs);
    var r' := Calculate(formId, rs');
    CalculateMatchesReference(formId, rs);
    CalculateMatchesReference(formId, rs');
    ReferencesAgree(rs, rs', "");
    forall n | n in r
      ensures r'[n] == r[n]
    {
      ReferencesAgree(rs, rs', n);
    }
  }
}

=== FILE: path_data.dfy ===
/** The raw response data both path aggregators read: a respondent's traversal path through
    the question tree and the answers they gave (internal/analytics/calculators). */
module PathData {
  import opened Wrappers

  /** One answer row: the flow node it answers and the optional time spent on it. */
  datatype AnswerData = AnswerData(flowConnectionId: string, answerText: string, timeSpent: Option<int>)

  /** One stored response: its path (node IDs in visiting order) and its answers. */
  datatype ResponseData = ResponseData(
    responseId: string,
    flowPath: seq<string>,
    totalTimeSpent: int,
    answers: seq<AnswerData>)

  /** The number of occurrences of `x` in `s`. */
  function Count<T(==)>(s: seq<T>, x: T): nat {
    if |s| == 0 then 0 else (if s[0] == x then 1 else 0) + Count(s[1..], x)
  }

  lemma {:induction false} CountAppend<T>(a: seq<T>, b: seq<T>, x: T)
    ensures Count(a + b, x) == Count(a, x) + Count(b, x)
  {
    if |a| > 0 {
      assert (a + b)[1..] == a[1..] + b;
      CountAppend(a[1..], b, x);
    } else {
      assert a + b == b;
    }
  }

  /** Peels the element at position `i` off the suffix `s[i..]`. */
  lemma CountSuffixStep<T>(s: seq<T>, i: nat, x: T)
    requires i < |s|
    ensures Count(s[i..], x) == (if s[i] == x then 1 else 0) + Count(s[i + 1..], x)
  {
    assert s[i..][1..] == s[i + 1..];
  }

  lemma {:induction false} CountZeroIffAbsent<T>(s: seq<T>, x: T)
    ensures Count(s, x) == 0 <==> x !in s
  {
    if |s| > 0 {
      CountZeroIffAbsent(s[1..], x);
      assert s == [s[0]] + s[1..];
    }
  }

  /** Every node visit of every response, in response order and path order. */
  function Visits(rs: seq<ResponseData>): seq<string> {
    if |rs| == 0 then [] else rs[0].flowPath + Visits(rs[1..])
  }

  /** Whether a response's path ends at `n`: it is non-empty and `n` is its last node. */
  predicate EndsAt(r: ResponseData, n: string) {
    |r.flowPath| > 0 && r.flowPath[|r.flowPath| - 1] == n
  }

  /** The number of responses with a non-empty path. */
  function NonEmptyPaths(rs: seq<ResponseData>): nat {
    if |rs| == 0 then 0 else (if |rs[0].flowPath| > 0 then 1 else 0) + NonEmptyPaths(rs[1..])
  }
}

=== FILE: plans_repository.dfy ===
/** The plans repository (internal/plans/repository.go): the UPDATE statement built from the
    fields a request carries, and how a missing plan is reported by GetByID, Update and Delete.
    The subscription_plans table is a map from plan ID to its row; a failure of the database
    itself comes from a `fault` parameter. */
module PlansRepository {
  import opened Wrappers
  import opened Storage
  import Json
  import opened PlansService
  import Seqs

  /** A stored row; `features` is `None` when the column does not decode as a JSON object. */
  datatype PlanRow = PlanRow(
    name: string,
    planType: string,
    priceInr: int,
    razorpayPlanId: Option<string>,
    features: Option<Json.Object>,
    isActive: bool)

  /** Plan (models.go lines 9-19), timestamps left out. */
  datatype Plan = Plan(
    id: string,
    name: string,
    planType: string,
    priceInr: int,
    razorpayPlanId: Option<string>,
    features: Json.Object,
    isActive: bool)

  /** The scan of a row: features that do not decode become an empty map (lines 82-84,
      170-172). */
  function Decode(id: string, row: PlanRow): (p: Plan)
    ensures p.id == id && p.name == row.name && p.planType == row.planType && p.priceInr == row.priceInr
    ensures p.razorpayPlanId == row.razorpayPlanId && p.isActive == row.isActive
    ensures row.features.Some? ==> p.features == row.features.value
    ensures row.features.None? ==> p.features == map[]
  {
    Plan(id, row.name, row.planType, row.priceInr, row.razorpayPlanId, row.features.GetOr(map[]), row.isActive)
  }

  /** A failed QueryRow: pgx.ErrNoRows means the plan does not exist (lines 75-79, 163-166). */
  function QueryError(e: DbError): (r: PlansError)
    ensures r == PlanNotFound <==> e == NoRows
    ensures e != NoRows ==> r == Db(e)
  {
    if e == NoRows then PlanNotFound else Db(e)
  }

  // ---------------------------------------------------------------------------------------
  // The UPDATE statement (lines 120-153)

  /** A query argument; the features map is sent as its JSON encoding. */
  datatype Arg = StrArg(s: string) | IntArg(n: int) | JsonArg(f: Json.Object) | BoolArg(b: bool)

  const UpdateHead: string := "UPDATE subscription_plans SET updated_at = (CURRENT_TIMESTAMP AT TIME ZONE 'UTC')"
  const UpdateTail: string :=
    " WHERE id = $1 RETURNING id, name, plan_type, price_inr, razorpay_plan_id, features, is_active, created_at, updated_at"

  /** The character of a decimal digit. */
  function Digit(d: nat): (c: char)
    requires d < 10
    ensures '0' <= c <= '9'
  {
    ('0' as int + d) as char
  }

  /** The decimal numeral of `n`, as strconv.Itoa writes it. */
  function Decimal(n: nat): (s: string)
    ensures |s| >= 1
    decreases n
  {
    if n < 10 then [Digit(n)] else Decimal(n / 10) + [Digit(n % 10)]
  }

  /** The five optional columns of an update, in the fixed order name, price, Razorpay ID,
      features, active flag, each with its argument when the request carries it. */
  function Fields(req: UpdatePlanRequest): (fs: seq<(string, Option<Arg>)>)
    ensures |fs| == 5
  {
    [ ("name", if req.name.Some? then Some(StrArg(req.name.value)) else None),
      ("price_inr", if req.priceInr.Some? then Some(IntArg(req.priceInr.value)) else None),
      ("razorpay_plan_id", if req.razorpayPlanId.Some? then Some(StrArg(req.razorpayPlanId.value)) else None),
      ("features", if req.features.Some? then Some(JsonArg(req.features.value)) else None),
      ("is_active", if req.isActive.Some? then Some(BoolArg(req.isActive.value)) else None) ]
  }

  /** The fields of `fs` that are present, in order. */
  function Present(fs: seq<(string, Option<Arg>)>): (asg: seq<(string, Arg)>)
    ensures |asg| <= |fs|
  {
    if |fs| == 0 then []
    else
      var f := fs[|fs| - 1];
      Present(fs[..|fs| - 1]) + (if f.1.Some? then [(f.0, f.1.value)] else [])
  }

  /** The columns a request sets, with their arguments. */
  function Assignments(req: UpdatePlanRequest): (asg: seq<(string, Arg)>)
    ensures |asg| <= 5
  {
    Present(Fields(req))
  }

  /** The SET items of `asg`, the first one bound to placeholder `$k`, the next to `$k+1`, and
      so on, with placeholders written in full decimal. */
  function SetItems(asg: seq<(string, Arg)>, k: nat): string
    decreases |asg|
  {
    if |asg| == 0 then "" else ", " + asg[0].0 + " = $" + Decimal(k) + SetItems(asg[1..], k + 1)
  }

  lemma {:induction false} SetItemsSnoc(asg: seq<(string, Arg)>, col: string, a: Arg, k: nat)
    ensures SetItems(asg + [(col, a)], k) == SetItems(asg, k) + (", " + col + " = $" + Decimal(k + |asg|))
    decreases |asg|
  {
    if |asg| == 0 {
      assert (asg + [(col, a)])[1..] == [];
    } else {
      assert (asg + [(col, a)])[0] == asg[0];
      assert (asg + [(col, a)])[1..] == asg[1..] + [(col, a)];
      SetItemsSnoc(asg[1..], col, a, k + 1);
    }
  }

  /** One `if` of the builder: the column is appended with the single character
      `'0' + argCount` as its placeholder, and its value is appended to the arguments. */
  function AddItem(query: string, args: seq<Arg>, col: string, a: Arg): (r: (string, seq<Arg>))
    requires 1 <= |args| < 9
    ensures r.1 == args + [a] && r.1[|args|] == a
  {
    (query + ", " + col + " = $" + [Digit(|args| + 1)], args + [a])
  }

  /** The statement and arguments built so far from the assignments `asg`. */
  ghost predicate Built(query: string, args: seq<Arg>, asg: seq<(string, Arg)>, planId: string) {
    && query == UpdateHead + SetItems(asg, 2)
    && |args| == 1 + |asg|
    && args[0] == StrArg(planId)
    && forall i :: 0 <= i < |asg| ==> args[i + 1] == asg[i].1
  }

  lemma BuildStep(query: string, args: seq<Arg>, asg: seq<(string, Arg)>, planId: string, col: string, a: Arg)
    requires Built(query, args, asg, planId) && |asg| < 8
    ensures Built(AddItem(query, args, col, a).0, args + [a], asg + [(col, a)], planId)
  {
    SetItemsSnoc(asg, col, a, 2);
    assert Decimal(2 + |asg|) == [Digit(|args| + 1)];
    Seqs.Associative(UpdateHead, SetItems(asg, 2), ", " + col + " = $" + [Digit(|args| + 1)]);
    assert query + ", " + col + " = $" + [Digit(|args| + 1)] == query + (", " + col + " = $" + [Digit(|args| + 1)]);
  }

  /** Update's statement builder (lines 121-153), its five `if`s run over the fields in
      order. Every present field gets the placeholder of its own position in the argument
      list, the plan ID is argument 1 and is what the WHERE clause names, and at most six
      arguments mean the one-character placeholder is always the full decimal numeral. */
  method BuildUpdate(planId: string, req: UpdatePlanRequest) returns (query: string, args: seq<Arg>)
    ensures |args| == 1 + |Assignments(req)| <= 6
    ensures args[0] == StrArg(planId)
    ensures forall i :: 0 <= i < |Assignments(req)| ==> args[i + 1] == Assignments(req)[i].1
    ensures query == UpdateHead + SetItems(Assignments(req), 2) + UpdateTail
  {
    query := UpdateHead;
    args := [StrArg(planId)];
    var fs := Fields(req);
    var i := 0;
    while i < |fs|
      invariant 0 <= i <= |fs|
      invariant Built(query, args, Present(fs[..i]), planId)
    {
      assert fs[..i + 1][..i] == fs[..i];
      if fs[i].1.Some? {
        BuildStep(query, args, Present(fs[..i]), planId, fs[i].0, fs[i].1.value);
        var r := AddItem(query, args, fs[i].0, fs[i].1.value);
        query, args := r.0, r.1;
        assert Present(fs[..i + 1]) == Present(fs[..i]) + [(fs[i].0, fs[i].1.value)];
      } else {
        assert Present(fs[..i + 1]) == Present(fs[..i]) + [] == Present(fs[..i]);
      }
      i := i + 1;
    }
    assert fs[..i] == fs;
    query := query + UpdateTail;
  }

  // ---------------------------------------------------------------------------------------
  // The table

  /** The SET clause applied to a row: each column the request carries is replaced, the others
      and the plan type are kept. */
  function ApplyUpdate(row: PlanRow, req: UpdatePlanRequest): (r: PlanRow)
    ensures r.planType == row.planType
    ensures r.name == (if req.name.Some? then req.name.value else row.name)
    ensures r.priceInr == (if req.priceInr.Some? then req.priceInr.value else row.priceInr)
    ensures r.razorpayPlanId == (if req.razorpayPlanId.Some? then req.razorpayPlanId else row.razorpayPlanId)
    ensures r.features == (if req.features.Some? then req.features else row.features)
    ensures r.isActive == (if req.isActive.Some? then req.isActive.value else row.isActive)
  {
    PlanRow(
      req.name.GetOr(row.name),
      row.planType,
      req.priceInr.GetOr(row.priceInr),
      if req.razorpayPlanId.Some? then req.razorpayPlanId else row.razorpayPlanId,
      if req.features.Some? then req.features else row.features,
      req.isActive.GetOr(row.isActive))
  }

  /** GetByID (lines 60-87). The query does not filter on is_active, so a soft-deleted plan is
      still found. */
  function GetByID(plans: map<string, PlanRow>, planId: string, fault: Option<DbError>): (r: Result<Plan, PlansError>)
    ensures r == Err(PlanNotFound) <==> fault == Some(NoRows) || (fault.None? && planId !in plans)
    ensures fault.Some? ==> r == Err(QueryError(fault.value))
    ensures r.Ok? ==> planId in plans && r.value == Decode(planId, plans[planId])
  {
    if fault.Some? then Err(QueryError(fault.value))
    else if planId !in plans then Err(QueryError(NoRows))
    else Ok(Decode(planId, plans[planId]))
  }

  /** Update (lines 120-175): the row is rewritten and returned, or the plan is missing. */
  function Update(plans: map<string, PlanRow>, planId: string, req: UpdatePlanRequest, fault: Option<DbError>)
    : (r: (map<string, PlanRow>, Result<Plan, PlansError>))
    ensures r.1 == Err(PlanNotFound) <==> fault == Some(NoRows) || (fault.None? && planId !in plans)
    ensures r.1.Err? ==> r.0 == plans
    ensures r.1.Ok? ==> planId in plans && r.0 == plans[planId := ApplyUpdate(plans[planId], req)]
                        && r.1.value == Decode(planId, r.0[planId])
  {
    if fault.Some? then (plans, Err(QueryError(fault.value)))
    else if planId !in plans then (plans, Err(QueryError(NoRows)))
    else
      var row := ApplyUpdate(plans[planId], req);
      (plans[planId := row], Ok(Decode(planId, row)))
  }

  /** Delete (lines 178-190): a soft delete. Zero affected rows is the only not-found case; a
      plan that is already inactive still matches the WHERE clause. */
  function Delete(plans: map<string, PlanRow>, planId: string, fault: Option<DbError>)
    : (r: (map<string, PlanRow>, Option<PlansError>))
    ensures r.1 == Some(PlanNotFound) <==> fault.None? && planId !in plans
    ensures fault.Some? ==> r == (plans, Some(Db(fault.value)))
    ensures r.1.None? ==> planId in plans && r.0 == plans[planId := plans[planId].(isActive := false)]
    ensures r.1.Some? ==> r.0 == plans
  {
    if fault.Some? then (plans, Some(Db(fault.value)))
    else if planId !in plans then (plans, Some(PlanNotFound))
    else (plans[planId := plans[planId].(isActive := false)], None)
  }

  /** An update that went through reads back: GetByID then returns what Update returned. */
  lemma UpdateThenGet(plans: map<string, PlanRow>, planId: string, req: UpdatePlanRequest, fault: Option<DbError>)
    requires Update(plans, planId, req, fault).1.Ok?
    ensures var r := Update(plans, planId, req, fault);
            GetByID(r.0, planId, None) == r.1
  {
  }

  /** Repeating an update changes nothing more. */
  lemma UpdateTwice(plans: map<string, PlanRow>, planId: string, req: UpdatePlanRequest)
    ensures var r := Update(plans, planId, req, None);
            Update(r.0, planId, req, None) == r
  {
    if planId in plans {
      var row := ApplyUpdate(plans[planId], req);
      assert ApplyUpdate(row, req) == row;
      assert plans[planId := row][planId := row] == plans[planId := row];
    }
  }

  /** A deleted plan is still found, inactive, and deleting it again succeeds. */
  lemma DeleteKeepsPlan(plans: map<string, PlanRow>, planId: string)
    requires planId in plans
    ensures var r := Delete(plans, planId, None);
            && r.1.None?
            && GetByID(r.0, planId, None).Ok? && !GetByID(r.0, planId, None).value.isActive
            && Delete(r.0, planId, None) == r
  {
    var row := plans[planId].(isActive := false);
    assert plans[planId := row][planId := row] == plans[planId := row];
  }
}

=== FILE: plans_service.dfy ===
/** The plans service (internal/plans/service.go): the input rules of CreatePlan and UpdatePlan
    and the feature flags CreatePlan forces for each plan type. The repository is a parameter
    whose answer is passed through. */
module PlansService {
  import opened Wrappers
  import opened Storage
  import opened Text
  import Json

  /** internal/plans/models.go lines 40-44, with the repository's own failures wrapped. */
  datatype PlansError = PlanNotFound | PlanAlreadyExists | InvalidInput | Db(cause: DbError)

  /** CreatePlanRequest (models.go lines 22-28); a nil features map is `None`. */
  datatype CreatePlanRequest = CreatePlanRequest(
    name: string,
    planType: string,
    priceInr: int,
    razorpayPlanId: Option<string>,
    features: Option<Json.Object>)

  /** UpdatePlanRequest (models.go lines 31-37): every field is optional. */
  datatype UpdatePlanRequest = UpdatePlanRequest(
    name: Option<string>,
    priceInr: Option<int>,
    razorpayPlanId: Option<string>,
    features: Option<Json.Object>,
    isActive: Option<bool>)

  const RetentionKey: string := "data_retention_days"
  const ExportKey: string := "can_export"
  const AnalyticsKey: string := "full_analytics"

  predicate IsPlanType(planType: string) {
    planType == "free" || planType == "monthly" || planType == "yearly"
  }

  /** Lines 45-54: a free plan keeps data 7 days and gets neither export nor full analytics; a
      paid plan keeps data without limit (0) and gets both. The three keys are overwritten,
      every other key is kept. */
  function WithPlanFeatures(planType: string, features: Json.Object): (f: Json.Object)
    ensures planType == "free" ==>
              && RetentionKey in f && f[RetentionKey] == Json.Number(7)
              && ExportKey in f && f[ExportKey] == Json.Bool(false)
              && AnalyticsKey in f && f[AnalyticsKey] == Json.Bool(false)
    ensures planType != "free" ==>
              && RetentionKey in f && f[RetentionKey] == Json.Number(0)
              && ExportKey in f && f[ExportKey] == Json.Bool(true)
              && AnalyticsKey in f && f[AnalyticsKey] == Json.Bool(true)
    ensures f.Keys == features.Keys + {RetentionKey, ExportKey, AnalyticsKey}
    ensures forall k :: k in features && k != RetentionKey && k != ExportKey && k != AnalyticsKey ==> f[k] == features[k]
  {
    var free := planType == "free";
    features[RetentionKey := Json.Number(if free then 7 else 0)]
            [ExportKey := Json.Bool(!free)]
            [AnalyticsKey := Json.Bool(!free)]
  }

  /** The checks and defaults of CreatePlan (lines 28-54): the name is trimmed and must not be
      blank, the type must be free, monthly or yearly, and the features get the plan's flags. */
  function PrepareCreate(req: CreatePlanRequest): (r: Result<CreatePlanRequest, PlansError>)
    ensures r.Ok? <==> !AllSpace(req.name) && IsPlanType(req.planType)
    ensures r.Err? ==> r.error == InvalidInput
    ensures r.Ok? ==> && r.value.name == TrimSpace(req.name) && r.value.name != []
                      && r.value.planType == req.planType && r.value.priceInr == req.priceInr
                      && r.value.razorpayPlanId == req.razorpayPlanId
                      && r.value.features == Some(WithPlanFeatures(req.planType, req.features.GetOr(map[])))
  {
    TrimSpaceEmptyIff(req.name);
    var name := TrimSpace(req.name);
    if name == [] || req.planType == [] then Err(InvalidInput)
    else if !IsPlanType(req.planType) then Err(InvalidInput)
    else Ok(req.(name := name, features := Some(WithPlanFeatures(req.planType, req.features.GetOr(map[])))))
  }

  /** A request that passed the checks passes them again unchanged: the defaults are already in
      place and the name is already trimmed. */
  lemma PrepareCreateIdempotent(req: CreatePlanRequest)
    requires PrepareCreate(req).Ok?
    ensures PrepareCreate(PrepareCreate(req).value) == PrepareCreate(req)
  {
    var q := PrepareCreate(req).value;
    TrimSpaceIdempotent(req.name);
    TrimSpaceEmptyIff(q.name);
    var f := WithPlanFeatures(req.planType, req.features.GetOr(map[]));
    assert WithPlanFeatures(q.planType, f) == f;
  }

  /** CreatePlan (lines 27-57): the repository is called only with a request that passed the
      checks; `r.0` is that call, `r.1` the answer. */
  function CreatePlan(req: CreatePlanRequest, repoCreate: CreatePlanRequest -> Result<string, PlansError>)
    : (r: (Option<CreatePlanRequest>, Result<string, PlansError>))
    ensures r.0.None? <==> PrepareCreate(req).Err?
    ensures r.0.None? ==> r.1 == Err(InvalidInput)
    ensures r.0.Some? ==> r.0 == Some(PrepareCreate(req).value) && r.1 == repoCreate(r.0.value)
  {
    var p := PrepareCreate(req);
    if p.Err? then (None, Err(p.error)) else (Some(p.value), repoCreate(p.value))
  }

  /** The check of UpdatePlan (lines 61-67): an absent name is allowed, a present one is trimmed
      and must not be blank; the other fields pass unchanged. */
  function PrepareUpdate(req: UpdatePlanRequest): (r: Result<UpdatePlanRequest, PlansError>)
    ensures req.name.None? ==> r == Ok(req)
    ensures req.name.Some? && AllSpace(req.name.value) ==> r == Err(InvalidInput)
    ensures req.name.Some? && !AllSpace(req.name.value) ==> r == Ok(req.(name := Some(TrimSpace(req.name.value))))
  {
    if req.name.None? then Ok(req)
    else
      TrimSpaceEmptyIff(req.name.value);
      var name := TrimSpace(req.name.value);
      if name == [] then Err(InvalidInput) else Ok(req.(name := Some(name)))
  }

  /** UpdatePlan (lines 60-70). */
  function UpdatePlan(planId: string, req: UpdatePlanRequest,
                      repoUpdate: (string, UpdatePlanRequest) -> Result<string, PlansError>)
    : (r: (Option<UpdatePlanRequest>, Result<string, PlansError>))
    ensures r.0.None? <==> PrepareUpdate(req).Err?
    ensures r.0.None? ==> r.1 == Err(InvalidInput)
    ensures r.0.Some? ==> r.0 == Some(PrepareUpdate(req).value) && r.1 == repoUpdate(planId, r.0.value)
  {
    var p := PrepareUpdate(req);
    if p.Err? then (None, Err(p.error)) else (Some(p.value), repoUpdate(planId, p.value))
  }
}

=== FILE: questions_service.dfy ===
/** The questions service (internal/questions/service.go): the input rules of Create and
    Update, the defaults they fill in, and the paging clamp of List. The repository is a
    parameter: whatever it answers is passed through. */
module QuestionsService {
  import opened Wrappers
  import opened Storage
  import opened Text
  import Json

  const TypeQuestion: string := "question"
  const TypeOption: string := "option"

  /** internal/questions/errors.go, with the repository's own failures wrapped. */
  datatype QuestionsError = InvalidInput | InvalidType | NotFound | Db(cause: DbError)

  /** What Create and Update hand to the repository. */
  datatype QuestionInput = QuestionInput(
    qtype: string,
    text: string,
    inputType: string,
    validationRules: Json.Object,
    metadata: Json.Object)

  /** A stored question as the repository returns it. */
  datatype Question = Question(id: string, userId: string, input: QuestionInput)

  /** isValidType (lines 80-82). */
  predicate IsValidType(qtype: string) {
    qtype == TypeQuestion || qtype == TypeOption
  }

  /** The checks and defaults Create (lines 22-36) and Update (lines 57-71) share: the text is
      trimmed and must not be blank, which is checked before the type; nil rule and metadata
      maps become empty maps. */
  function Prepare(qtype: string, text: string, inputType: string,
                   validationRules: Option<Json.Object>, metadata: Option<Json.Object>)
    : (r: Result<QuestionInput, QuestionsError>)
    ensures AllSpace(text) ==> r == Err(InvalidInput)
    ensures !AllSpace(text) && !IsValidType(qtype) ==> r == Err(InvalidType)
    ensures r.Ok? <==> !AllSpace(text) && IsValidType(qtype)
    ensures r.Ok? ==> && r.value.text == TrimSpace(text) && r.value.text != []
                      && r.value.qtype == qtype && r.value.inputType == inputType
                      && (validationRules.Some? ==> r.value.validationRules == validationRules.value)
                      && (validationRules.None? ==> r.value.validationRules == map[])
                      && (metadata.Some? ==> r.value.metadata == metadata.value)
                      && (metadata.None? ==> r.value.metadata == map[])
  {
    TrimSpaceEmptyIff(text);
    var t := TrimSpace(text);
    if t == [] then Err(InvalidInput)
    else if !IsValidType(qtype) then Err(InvalidType)
    else Ok(QuestionInput(qtype, t, inputType, validationRules.GetOr(map[]), metadata.GetOr(map[])))
  }

  /** An input that passed the checks passes them again unchanged. */
  lemma PrepareIdempotent(qtype: string, text: string, inputType: string,
                          validationRules: Option<Json.Object>, metadata: Option<Json.Object>)
    requires Prepare(qtype, text, inputType, validationRules, metadata).Ok?
    ensures var q := Prepare(qtype, text, inputType, validationRules, metadata).value;
            Prepare(q.qtype, q.text, q.inputType, Some(q.validationRules), Some(q.metadata)) == Ok(q)
  {
    var q := Prepare(qtype, text, inputType, validationRules, metadata).value;
    TrimSpaceIdempotent(text);
    TrimSpaceEmptyIff(q.text);
  }

  /** Create (lines 21-39): the repository is called with the prepared input only when the
      checks pass; `r.0` is that call, `r.1` the answer. */
  function Create(userId: string, qtype: string, text: string, inputType: string,
                  validationRules: Option<Json.Object>, metadata: Option<Json.Object>,
                  repoCreate: (string, QuestionInput) -> Result<Question, QuestionsError>)
    : (r: (Option<QuestionInput>, Result<Question, QuestionsError>))
    ensures r.0.None? <==> Prepare(qtype, text, inputType, validationRules, metadata).Err?
    ensures r.0.None? ==> r.1 == Err(Prepare(qtype, text, inputType, validationRules, metadata).error)
    ensures r.0.Some? ==> r.0 == Some(Prepare(qtype, text, inputType, validationRules, metadata).value)
                          && r.1 == repoCreate(userId, r.0.value)
  {
    var p := Prepare(qtype, text, inputType, validationRules, metadata);
    if p.Err? then (None, Err(p.error)) else (Some(p.value), repoCreate(userId, p.value))
  }

  /** Update (lines 56-74): the same checks, then the repository's answer. */
  function Update(id: string, qtype: string, text: string, inputType: string,
                  validationRules: Option<Json.Object>, metadata: Option<Json.Object>,
                  repoUpdate: (string, QuestionInput) -> Option<QuestionsError>)
    : (r: (Option<QuestionInput>, Option<QuestionsError>))
    ensures r.0.None? <==> Prepare(qtype, text, inputType, validationRules, metadata).Err?
    ensures r.0.None? ==> r.1 == Some(Prepare(qtype, text, inputType, validationRules, metadata).error)
    ensures r.0.Some? ==> r.0 == Some(Prepare(qtype, text, inputType, validationRules, metadata).value)
                          && r.1 == repoUpdate(id, r.0.value)
  {
    var p := Prepare(qtype, text, inputType, validationRules, metadata);
    if p.Err? then (None, Some(p.error)) else (Some(p.value), repoUpdate(id, p.value))
  }

  /** The page List (lines 45-54) asks for: a non-positive limit becomes 10, with no upper
      bound, and a negative offset becomes 0. */
  function ListWindow(limit: int, offset: int): (w: (nat, nat))
    ensures w.0 >= 1
    ensures limit > 0 ==> w.0 == limit
    ensures limit <= 0 ==> w.0 == 10
    ensures offset >= 0 ==> w.1 == offset
    ensures offset < 0 ==> w.1 == 0
  {
    (if limit <= 0 then 10 else limit, if offset < 0 then 0 else offset)
  }
}

=== FILE: records.dfy ===
/** The records the services exchange with the forms table and the cache
    (internal/forms/model.go, internal/links/model.go). Timestamps are left out. */
module Records {
  import opened Wrappers
  import opened FlowTree

  /** A live (not soft-deleted) row of the forms table. */
  datatype Form = Form(
    id: string,
    userId: string,
    title: string,
    description: string,
    status: string,
    autoSlug: Option<string>,
    customSlug: Option<string>,
    acceptingResponses: bool,
    isTemplate: bool)

  /** The public view of a published form, with its question tree. */
  datatype PublicForm = PublicForm(id: string, title: string, description: string, acceptingResponses: bool, blocks: seq<TreeBlock>)

  /** What the services store in the cache; a lookup whose value has the other shape is a miss
      (the Go type assertion fails). */
  datatype CachedValue = PublicFormValue(form: PublicForm) | TemplateListValue(templates: seq<Form>)
}

=== FILE: responses_service.dfy ===
/** Submitting a response to a published form and listing responses
    (internal/responses/service.go). The submission path writes directly, outside the buffer:
    the response row, then each answer row, each in its own statement. */
module ResponsesService {
  import opened Wrappers
  import opened Storage
  import opened Text
  import opened Buffer

  datatype ResponsesError = InvalidInput | FormNotFound | FormNotAccepting | InvalidFlowConnection | Db(cause: DbError)

  /** One submitted answer; the free-form JSON value is not modelled. */
  datatype AnswerInput = AnswerInput(flowConnectionId: string, answerText: string, timeSpent: Option<int>)

  datatype SubmitRequest = SubmitRequest(responses: seq<AnswerInput>, totalTimeSpent: int, flowPath: seq<string>)

  /** The database as the submission sees it: the live (form, connection) pairs and the two
      response tables. */
  datatype Database = Database(connections: set<(string, string)>, store: Store)

  /** The answers of the calls the model does not see: the slug lookup (form ID and whether it
      accepts responses), uuid.Parse, which connection check (by answer position) fails with a
      database error, the generated response ID, and the failures of the inserts. */
  datatype SubmitEnv = SubmitEnv(
    lookup: Result<(string, bool), DbError>,
    isUuid: string -> bool,
    verifyError: Option<(nat, DbError)>,
    responseId: string,
    createError: Option<DbError>,
    answerError: Option<(nat, DbError)>)

  /** The checks of one answer, in the order of lines 46-62. */
  function CheckAnswer(db: Database, env: SubmitEnv, formId: string, a: AnswerInput, k: nat): (e: Option<ResponsesError>)
    ensures e.None? <==> && TrimSpace(a.flowConnectionId) != [] && TrimSpace(a.answerText) != []
                         && env.isUuid(a.flowConnectionId)
                         && !(env.verifyError.Some? && env.verifyError.value.0 == k)
                         && (formId, a.flowConnectionId) in db.connections
  {
    if TrimSpace(a.flowConnectionId) == [] then Some(InvalidInput)
    else if TrimSpace(a.answerText) == [] then Some(InvalidInput)
    else if !env.isUuid(a.flowConnectionId) then Some(InvalidFlowConnection)
    else if env.verifyError.Some? && env.verifyError.value.0 == k then Some(Db(env.verifyError.value.1))
    else if (formId, a.flowConnectionId) !in db.connections then Some(InvalidFlowConnection)
    else None
  }

  /** The loop of lines 45-63 from answer `i` on: the first failing check wins. */
  function CheckAnswers(db: Database, env: SubmitEnv, formId: string, answers: seq<AnswerInput>, i: nat): (e: Option<ResponsesError>)
    requires i <= |answers|
    decreases |answers| - i
  {
    if i == |answers| then None
    else
      var e := CheckAnswer(db, env, formId, answers[i], i);
      if e.Some? then e else CheckAnswers(db, env, formId, answers, i + 1)
  }

  /** The loop stops at the first answer that fails, with that answer's error. */
  lemma CheckAnswersFirstFailure(db: Database, env: SubmitEnv, formId: string, answers: seq<AnswerInput>, i: nat)
    requires i <= |answers|
    ensures var e := CheckAnswers(db, env, formId, answers, i);
            && (e.None? <==> forall k :: i <= k < |answers| ==> CheckAnswer(db, env, formId, answers[k], k).None?)
            && (e.Some? ==> exists k :: i <= k < |answers| && CheckAnswer(db, env, formId, answers[k], k) == e
                                      && forall j :: i <= j < k ==> CheckAnswer(db, env, formId, answers[j], j).None?)
  {
    CheckAnswersPass(db, env, formId, answers, i);
    AllPassEvery(db, env, formId, answers, i);
    if CheckAnswers(db, env, formId, answers, i).Some? {
      var k := CheckAnswersStop(db, env, formId, answers, i);
    }
  }

  /** Every answer from `i` on passes its checks. */
  predicate AllPass(db: Database, env: SubmitEnv, formId: string, answers: seq<AnswerInput>, i: nat)
    requires i <= |answers|
    decreases |answers| - i
  {
    i == |answers| || (CheckAnswer(db, env, formId, answers[i], i).None? && AllPass(db, env, formId, answers, i + 1))
  }

  lemma {:induction false} AllPassEvery(db: Database, env: SubmitEnv, formId: string, answers: seq<AnswerInput>, i: nat)
    requires i <= |answers|
    ensures AllPass(db, env, formId, answers, i)
        <==> forall k :: i <= k < |answers| ==> CheckAnswer(db, env, formId, answers[k], k).None?
    decreases |answers| - i
  {
    if i < |answers| {
      AllPassEvery(db, env, formId, answers, i + 1);
      if AllPass(db, env, formId, answers, i) {
        forall k | i <= k < |answers| ensures CheckAnswer(db, env, formId, answers[k], k).None? {
          if k == i {
            assert CheckAnswer(db, env, formId, answers[i], i).None?;
          }
        }
      }
    }
  }

  /** The loop passes exactly when every answer from `i` on passes. */
  lemma {:induction false} CheckAnswersPass(db: Database, env: SubmitEnv, formId: string, answers: seq<AnswerInput>, i: nat)
    requires i <= |answers|
    ensures CheckAnswers(db, env, formId, answers, i).None? <==> AllPass(db, env, formId, answers, i)
    decreases |answers| - i
  {
    if i < |answers| {
      CheckAnswersPass(db, env, formId, answers, i + 1);
    }
  }

  /** A failing loop names the first failing answer `k`. */
  lemma {:induction false} CheckAnswersStop(db: Database, env: SubmitEnv, formId: string, answers: seq<AnswerInput>, i: nat) returns (k: nat)
    requires i <= |answers| && CheckAnswers(db, env, formId, answers, i).Some?
    ensures i <= k < |answers| && CheckAnswer(db, env, formId, answers[k], k) == CheckAnswers(db, env, formId, answers, i)
    ensures forall j :: i <= j < k ==> CheckAnswer(db, env, formId, answers[j], j).None?
    decreases |answers| - i
  {
    if CheckAnswer(db, env, formId, answers[i], i).Some? {
      k := i;
    } else {
      k := CheckAnswersStop(db, env, formId, answers, i + 1);
      forall j | i <= j < k ensures CheckAnswer(db, env, formId, answers[j], j).None? {
        if j == i {
          assert CheckAnswer(db, env, formId, answers[i], i).None?;
        }
      }
    }
  }

  function RowsOf(responseId: string, answers: seq<AnswerInput>): (rows: seq<AnswerRow>)
    ensures |rows| == |answers|
    ensures forall k :: 0 <= k < |answers| ==>
              rows[k] == AnswerRow(responseId, answers[k].flowConnectionId, answers[k].answerText, answers[k].timeSpent)
  {
    if |answers| == 0 then []
    else [AnswerRow(responseId, answers[0].flowConnectionId, answers[0].answerText, answers[0].timeSpent)] + RowsOf(responseId, answers[1..])
  }

  /** The answer inserts of lines 72-77: the rows before the failing one stay written. */
  function InsertAnswers(store: Store, rows: seq<AnswerRow>, failing: Option<(nat, DbError)>): (r: (Store, Option<DbError>))
    ensures failing.Some? && failing.value.0 < |rows| ==>
              r == (store.(answers := store.answers + rows[..failing.value.0]), Some(failing.value.1))
    ensures (failing.None? || failing.value.0 >= |rows|) ==> r == (store.(answers := store.answers + rows), None)
  {
    if failing.Some? && failing.value.0 < |rows| then
      (store.(answers := store.answers + rows[..failing.value.0]), Some(failing.value.1))
    else (store.(answers := store.answers + rows), None)
  }

  /** SubmitResponse (lines 19-80). */
  function SubmitResponse(db: Database, req: SubmitRequest, env: SubmitEnv): (r: (Database, Result<string, ResponsesError>))
    ensures |req.responses| == 0 || req.totalTimeSpent < 0 || |req.flowPath| == 0 ==> r == (db, Err(InvalidInput))
    ensures && |req.responses| > 0 && req.totalTimeSpent >= 0 && |req.flowPath| > 0
            && (env.lookup.Err? || !env.lookup.value.1) ==>
              r == (db, Err(if env.lookup.Err? then FormNotFound else FormNotAccepting))
    ensures r.1.Ok? <==> && |req.responses| > 0 && req.totalTimeSpent >= 0 && |req.flowPath| > 0
                         && env.lookup.Ok? && env.lookup.value.1
                         && (forall k :: 0 <= k < |req.responses| ==> CheckAnswer(db, env, env.lookup.value.0, req.responses[k], k).None?)
                         && env.createError.None?
                         && (env.answerError.None? || env.answerError.value.0 >= |req.responses|)
    ensures r.1.Ok? ==> && r.1.value == env.responseId
                        && r.0.connections == db.connections
                        && r.0.store.responses == db.store.responses + [ResponseRow(env.responseId, env.lookup.value.0, req.totalTimeSpent, req.flowPath)]
                        && r.0.store.answers == db.store.answers + RowsOf(env.responseId, req.responses)
    ensures r.0 != db ==> && env.lookup.Ok? && env.createError.None?
                          && (forall k :: 0 <= k < |req.responses| ==> CheckAnswer(db, env, env.lookup.value.0, req.responses[k], k).None?)
                          && r.0.store.responses == db.store.responses + [ResponseRow(env.responseId, env.lookup.value.0, req.totalTimeSpent, req.flowPath)]
                          && db.store.answers <= r.0.store.answers
                          && r.0.store.answers[|db.store.answers|..] <= RowsOf(env.responseId, req.responses)
  {
    if |req.responses| == 0 || req.totalTimeSpent < 0 || |req.flowPath| == 0 then (db, Err(InvalidInput))
    else if env.lookup.Err? then (db, Err(FormNotFound))
    else if !env.lookup.value.1 then (db, Err(FormNotAccepting))
    else
      var formId := env.lookup.value.0;
      var check := CheckAnswers(db, env, formId, req.responses, 0);
      CheckAnswersFirstFailure(db, env, formId, req.responses, 0);
      if check.Some? then (db, Err(check.value))
      else if env.createError.Some? then (db, Err(Db(env.createError.value)))
      else
        var row := ResponseRow(env.responseId, formId, req.totalTimeSpent, req.flowPath);
        var store := db.store.(responses := db.store.responses + [row]);
        var (store', err) := InsertAnswers(store, RowsOf(env.responseId, req.responses), env.answerError);
        (db.(store := store'), if err.Some? then Err(Db(err.value)) else Ok(env.responseId))
  }

  /** The rows of one form, in the order the store lists them (the query orders by submission
      time; the model takes the store's order as that order). */
  function OfForm(rows: seq<ResponseRow>, formId: string): (r: seq<ResponseRow>)
    ensures forall x :: x in r <==> x in rows && x.formId == formId
    ensures |r| <= |rows|
  {
    if |rows| == 0 then []
    else (if rows[0].formId == formId then [rows[0]] else []) + OfForm(rows[1..], formId)
  }

  /** One page of a listing: at most `size` rows from position `from` on. */
  function Page(all: seq<ResponseRow>, size: nat, from: nat): (page: seq<ResponseRow>)
    ensures |page| == (if from >= |all| then 0 else if |all| - from < size then |all| - from else size)
    ensures forall k :: 0 <= k < |page| ==> page[k] == all[from + k]
  {
    if from >= |all| then [] else if from + size >= |all| then all[from..] else all[from..from + size]
  }

  /** A page holds only rows of the listing. */
  lemma PageWithin(all: seq<ResponseRow>, size: nat, from: nat)
    ensures forall x :: x in Page(all, size, from) ==> x in all
  {
    var page := Page(all, size, from);
    forall x | x in page
      ensures x in all
    {
      var k :| 0 <= k < |page| && page[k] == x;
      assert all[from + k] == x;
    }
  }

  /** The failures a listing can meet: the page query itself, the Scan of the rows at some
      page positions, and the count query. */
  datatype ListFaults = ListFaults(list: Option<DbError>, badScans: set<nat>, count: Option<DbError>)

  /** The rows of a page whose Scan succeeds (repository.go lines 103-115): a row whose Scan
      fails is skipped and the loop goes on; `base` is the page position of `rows[0]`. */
  function Scanned(rows: seq<ResponseRow>, badScans: set<nat>, base: nat): (r: seq<ResponseRow>)
    ensures |r| <= |rows|
    ensures forall x :: x in r <==> exists k :: 0 <= k < |rows| && rows[k] == x && base + k !in badScans
    ensures (forall j :: base <= j < base + |rows| ==> j !in badScans) ==> r == rows
    decreases |rows|
  {
    if |rows| == 0 then []
    else
      var rest := Scanned(rows[1..], badScans, base + 1);
      var r := (if base in badScans then [] else [rows[0]]) + rest;
      assert forall x :: x in r <==> exists k :: 0 <= k < |rows| && rows[k] == x && base + k !in badScans by {
        forall x
          ensures x in r <==> exists k :: 0 <= k < |rows| && rows[k] == x && base + k !in badScans
        {
          if x in r && x !in rest {
            assert rows[0] == x && base + 0 !in badScans;
          } else if x in r {
            var k :| 0 <= k < |rows[1..]| && rows[1..][k] == x && base + 1 + k !in badScans;
            assert rows[k + 1] == x && base + (k + 1) !in badScans;
          }
          if exists k :: 0 <= k < |rows| && rows[k] == x && base + k !in badScans {
            var k :| 0 <= k < |rows| && rows[k] == x && base + k !in badScans;
            if k > 0 {
              assert rows[1..][k - 1] == x && base + 1 + (k - 1) !in badScans;
            }
          }
        }
      }
      assert rows == [rows[0]] + rows[1..];
      r
  }

  /** The page size GetResponses uses (lines 84-86): the limit within 1..100, otherwise 10. */
  function PageSize(limit: int): (n: nat)
    ensures 1 <= limit <= 100 ==> n == limit
    ensures !(1 <= limit <= 100) ==> n == 10
  {
    if limit <= 0 || limit > 100 then 10 else limit
  }

  /** The offset GetResponses uses (lines 87-89): a negative offset becomes 0. */
  function PageStart(offset: int): (n: nat)
    ensures offset >= 0 ==> n == offset
    ensures offset < 0 ==> n == 0
  {
    if offset < 0 then 0 else offset
  }

  /** GetResponses (lines 83-92) over GetResponsesByFormID (repository.go lines 88-122). A failed
      page query is returned; rows that fail to scan are left out; a failed count query is
      ignored and leaves the total at 0, otherwise the total counts every response of the form. */
  function GetResponses(store: Store, formId: string, limit: int, offset: int, faults: ListFaults): (r: Result<(seq<ResponseRow>, nat), ResponsesError>)
    ensures faults.list.Some? ==> r == Err(Db(faults.list.value))
    ensures faults.list.None? ==> r.Ok?
    ensures r.Ok? ==> r.value.1 == (if faults.count.Some? then 0 else |OfForm(store.responses, formId)|)
    ensures r.Ok? ==> forall x :: x in r.value.0 ==> x in OfForm(store.responses, formId)
    ensures r.Ok? && faults.badScans == {} ==>
              var all := OfForm(store.responses, formId);
              var from := PageStart(offset);
              && |r.value.0| == (if from >= |all| then 0 else if |all| - from < PageSize(limit) then |all| - from else PageSize(limit))
              && forall k :: 0 <= k < |r.value.0| ==> r.value.0[k] == all[from + k]
  {
    var all := OfForm(store.responses, formId);
    if faults.list.Some? then Err(Db(faults.list.value))
    else
      var page := Page(all, PageSize(limit), PageStart(offset));
      PageWithin(all, PageSize(limit), PageStart(offset));
      Ok((Scanned(page, faults.badScans, 0), if faults.count.Some? then 0 else |all|))
  }

  /** Paging through a listing with one page size from offset `from` on, until a short page. */
  function Pages(all: seq<ResponseRow>, size: nat, from: nat): seq<ResponseRow>
    requires size >= 1
    decreases |all| - from
  {
    if from >= |all| then [] else Page(all, size, from) + Pages(all, size, from + size)
  }

  /** Reading page after page with the same size returns every row exactly once and in order. */
  lemma {:induction false} PagesCoverAll(all: seq<ResponseRow>, size: nat, from: nat)
    requires size >= 1
    ensures Pages(all, size, from) == if from >= |all| then [] else all[from..]
    decreases |all| - from
  {
    if from < |all| {
      PagesCoverAll(all, size, from + size);
      if from + size < |all| {
        assert all[from..] == all[from..from + size] + all[from + size..];
      }
    }
  }

  /** Applied to GetResponses: pages of any accepted size, read from offset 0 on, list every
      response of the form. */
  lemma ListingComplete(store: Store, formId: string, limit: int)
    requires 1 <= limit <= 100
    ensures Pages(OfForm(store.responses, formId), limit, 0) == OfForm(store.responses, formId)
    ensures GetResponses(store, formId, limit, 0, ListFaults(None, {}, None)) == Ok((Page(OfForm(store.responses, formId), limit, 0), |OfForm(store.responses, formId)|))
  {
    PagesCoverAll(OfForm(store.responses, formId), limit, 0);
  }

  /** GetResponseDetails (lines 95-99) is a placeholder that refuses every request. */
  function GetResponseDetails(responseId: string): (r: Result<(ResponseRow, seq<AnswerRow>), ResponsesError>)
    ensures r == Err(InvalidInput)
  {
    Err(InvalidInput)
  }
}

=== FILE: seqs.dfy ===
/** Small facts about sequences that the solver finds on its own only in a small context. */
module Seqs {

  lemma Associative<T>(a: seq<T>, b: seq<T>, c: seq<T>)
    ensures a + (b + c) == (a + b) + c
  {
  }
}

=== FILE: storage.dfy ===
/** The failures an abstract storage collaborator (the SQL database) can report. */
module Storage {

  /** `NoRows` is pgx.ErrNoRows; every other failure is opaque. */
  datatype DbError = NoRows | DbFailure(code: nat)
}

=== FILE: text.dfy ===
/** The Go standard-library string functions the services rely on:
    `strings.TrimSpace`, `strings.Split` with a one-character separator,
    and `len` of a string, which counts UTF-8 bytes. */
module Text {

  /** Go's `unicode.IsSpace`: the Latin-1 spaces plus the Unicode White_Space code points. */
  predicate IsSpace(c: char) {
    var n := c as int;
    || n == 0x20 || (0x09 <= n <= 0x0D) || n == 0x85 || n == 0xA0
    || n == 0x1680 || (0x2000 <= n <= 0x200A) || n == 0x2028 || n == 0x2029
    || n == 0x202F || n == 0x205F || n == 0x3000
  }

  predicate AllSpace(s: string) {
    forall i :: 0 <= i < |s| ==> IsSpace(s[i])
  }

  /** How many white-space characters `s` starts with. */
  function LeadingSpaces(s: string): (n: nat)
    ensures n <= |s|
  {
    if |s| > 0 && IsSpace(s[0]) then 1 + LeadingSpaces(s[1..]) else 0
  }

  /** Where the trailing white space of `s` begins. */
  function TrailingSpaces(s: string): (m: nat)
    ensures m <= |s|
  {
    if |s| > 0 && IsSpace(s[|s| - 1]) then TrailingSpaces(s[..|s| - 1]) else |s|
  }

  /** The leading run is white space and is maximal. */
  lemma {:induction false} LeadingSpacesRun(s: string)
    ensures forall k :: 0 <= k < LeadingSpaces(s) ==> IsSpace(s[k])
    ensures LeadingSpaces(s) == |s| || !IsSpace(s[LeadingSpaces(s)])
  {
    if |s| > 0 && IsSpace(s[0]) {
      LeadingSpacesRun(s[1..]);
      forall k | 1 <= k < LeadingSpaces(s) ensures IsSpace(s[k]) {
        assert s[k] == s[1..][k - 1];
      }
      assert LeadingSpaces(s) == |s| || s[LeadingSpaces(s)] == s[1..][LeadingSpaces(s[1..])];
    }
  }

  /** The trailing run is white space and is maximal. */
  lemma {:induction false} TrailingSpacesRun(s: string)
    ensures forall k :: TrailingSpaces(s) <= k < |s| ==> IsSpace(s[k])
    ensures TrailingSpaces(s) == 0 || !IsSpace(s[TrailingSpaces(s) - 1])
  {
    if |s| > 0 && IsSpace(s[|s| - 1]) {
      var t := s[..|s| - 1];
      TrailingSpacesRun(t);
      forall k | TrailingSpaces(s) <= k < |s| - 1 ensures IsSpace(s[k]) {
        assert s[k] == t[k];
      }
      assert TrailingSpaces(s) == 0 || s[TrailingSpaces(s) - 1] == t[TrailingSpaces(t) - 1];
    }
  }

  /** Drops the leading white space. */
  function TrimLeft(s: string): (r: string)
    ensures |r| <= |s|
  {
    s[LeadingSpaces(s)..]
  }

  /** Drops the trailing white space. */
  function TrimRight(s: string): (r: string)
    ensures |r| <= |s|
  {
    s[..TrailingSpaces(s)]
  }

  /** What TrimLeft drops is all space, and what is left does not start with one. */
  lemma TrimLeftDrops(s: string)
    ensures TrimLeft(s) == s[|s| - |TrimLeft(s)|..]
    ensures AllSpace(s[..|s| - |TrimLeft(s)|])
    ensures TrimLeft(s) == [] || !IsSpace(TrimLeft(s)[0])
  {
    var n := LeadingSpaces(s);
    LeadingSpacesRun(s);
    forall k | 0 <= k < n ensures IsSpace(s[..n][k]) {
      assert s[..n][k] == s[k];
    }
    assert TrimLeft(s) == [] || TrimLeft(s)[0] == s[n];
  }

  /** What TrimRight drops is all space, and what is left does not end with one. */
  lemma TrimRightDrops(s: string)
    ensures TrimRight(s) == s[..|TrimRight(s)|]
    ensures AllSpace(s[|TrimRight(s)|..])
    ensures TrimRight(s) == [] || !IsSpace(TrimRight(s)[|TrimRight(s)| - 1])
  {
    var m := TrailingSpaces(s);
    TrailingSpacesRun(s);
    forall k | 0 <= k < |s| - m ensures IsSpace(s[m..][k]) {
      assert s[m..][k] == s[m + k];
    }
    assert TrimRight(s) == [] || TrimRight(s)[m - 1] == s[m - 1];
  }

  /** Go's `strings.TrimSpace`: `s` without its leading and trailing white space. */
  function TrimSpace(s: string): (r: string)
    ensures |r| <= |s|
  {
    TrimRight(TrimLeft(s))
  }

  /** Trimming leaves a string that neither starts nor ends with white space. */
  lemma TrimSpaceEnds(s: string)
    ensures TrimSpace(s) == [] || (!IsSpace(TrimSpace(s)[0]) && !IsSpace(TrimSpace(s)[|TrimSpace(s)| - 1]))
  {
    var l := TrimLeft(s);
    TrimLeftDrops(s);
    TrimRightDrops(l);
    assert TrimSpace(s) == [] || TrimSpace(s)[0] == l[0];
  }

  /** What trimming drops from either end is white space only. */
  lemma TrimSpaceInfix(s: string)
    ensures exists i, j :: 0 <= i <= j <= |s| && TrimSpace(s) == s[i..j] && AllSpace(s[..i]) && AllSpace(s[j..])
  {
    var l := TrimLeft(s);
    var r := TrimRight(l);
    TrimLeftDrops(s);
    TrimRightDrops(l);
    var i := |s| - |l|;
    var j := i + |r|;
    assert r == s[i..j];
    assert s[j..] == l[|r|..];
  }

  /** A string is blank after trimming exactly when it consists of white space only. */
  lemma {:induction false} TrimSpaceEmptyIff(s: string)
    ensures TrimSpace(s) == [] <==> AllSpace(s)
  {
    var r := TrimSpace(s);
    TrimSpaceInfix(s);
    TrimSpaceEnds(s);
    var i, j :| 0 <= i <= j <= |s| && r == s[i..j] && AllSpace(s[..i]) && AllSpace(s[j..]);
    if r == [] {
      forall k | 0 <= k < |s| ensures IsSpace(s[k]) {
        if k < i { assert s[k] == s[..i][k]; } else { assert s[k] == s[j..][k - j]; }
      }
    } else {
      assert s[i] == r[0];
    }
  }

  /** A string without white space is its own trimming. */
  lemma TrimSpaceNoSpace(s: string)
    requires forall k :: 0 <= k < |s| ==> !IsSpace(s[k])
    ensures TrimSpace(s) == s
  {
    if s != [] {
      assert !IsSpace(s[0]) && !IsSpace(s[|s| - 1]);
    }
  }

  /** Trimming twice is trimming once. */
  lemma TrimSpaceIdempotent(s: string)
    ensures TrimSpace(TrimSpace(s)) == TrimSpace(s)
  {
    var r := TrimSpace(s);
    TrimSpaceEnds(s);
    assert TrimLeft(r) == r;
    assert TrimRight(r) == r;
  }

  /** How many times `c` occurs in `s`. */
  function Occurrences(s: string, c: char): nat {
    if |s| == 0 then 0 else (if s[0] == c then 1 else 0) + Occurrences(s[1..], c)
  }

  /** The inverse of `Split`: the parts glued back together with the separator. */
  function Join(parts: seq<string>, sep: char): string
    requires |parts| >= 1
  {
    if |parts| == 1 then parts[0] else parts[0] + [sep] + Join(parts[1..], sep)
  }

  /** Go's `strings.Split(s, string(sep))`: the maximal separator-free runs, so always one more part than
      there are separators (an empty string gives one empty part). */
  function Split(s: string, sep: char): (parts: seq<string>)
    ensures |parts| >= 1
    ensures forall k :: 0 <= k < |parts| ==> sep !in parts[k]
    ensures Join(parts, sep) == s
    ensures |parts| == 1 + Occurrences(s, sep)
  {
    if |s| == 0 then
      [""]
    else
      var rest := Split(s[1..], sep);
      if s[0] == sep then
        assert s == [sep] + s[1..];
        [""] + rest
      else
        var parts := [[s[0]] + rest[0]] + rest[1..];
        assert parts[1..] == rest[1..];
        assert s == [s[0]] + s[1..];
        parts
  }

  lemma {:induction false} SplitWithoutSeparator(a: string, sep: char)
    requires sep !in a
    ensures Split(a, sep) == [a]
  {
    if |a| > 0 {
      SplitWithoutSeparator(a[1..], sep);
      assert [a[0]] + a[1..] == a;
    }
  }

  lemma {:induction false} SplitAtSeparator(a: string, sep: char, t: string)
    requires sep !in a
    ensures Split(a + [sep] + t, sep) == [a] + Split(t, sep)
  {
    var s := a + [sep] + t;
    if |a| == 0 {
      assert s[1..] == t;
    } else {
      assert s[1..] == a[1..] + [sep] + t;
      SplitAtSeparator(a[1..], sep, t);
      assert [a[0]] + a[1..] == a;
    }
  }

  /** `Split` undoes `Join` when no part contains the separator. */
  lemma {:induction false} SplitOfJoin(parts: seq<string>, sep: char)
    requires |parts| >= 1
    requires forall k :: 0 <= k < |parts| ==> sep !in parts[k]
    ensures Split(Join(parts, sep), sep) == parts
  {
    if |parts| == 1 {
      SplitWithoutSeparator(parts[0], sep);
    } else {
      SplitOfJoin(parts[1..], sep);
      SplitAtSeparator(parts[0], sep, Join(parts[1..], sep));
      assert [parts[0]] + parts[1..] == parts;
    }
  }

  /** The number of bytes the UTF-8 encoding of `c` takes. */
  function Utf8Width(c: char): nat {
    var n := c as int;
    if n < 0x80 then 1 else if n < 0x800 then 2 else if n < 0x10000 then 3 else 4
  }

  /** Go's `len` of a string: the length of its UTF-8 encoding, never less than its character count. */
  function ByteLen(s: string): (n: nat)
    ensures n >= |s|
  {
    if |s| == 0 then 0 else Utf8Width(s[0]) + ByteLen(s[1..])
  }

  predicate IsAscii(s: string) {
    forall i :: 0 <= i < |s| ==> s[i] as int < 0x80
  }

  /** For ASCII text the byte length is the character count. */
  lemma {:induction false} AsciiByteLen(s: string)
    requires IsAscii(s)
    ensures ByteLen(s) == |s|
  {
    if |s| > 0 {
      assert IsAscii(s[1..]) by {
        forall i | 0 <= i < |s[1..]| ensures s[1..][i] as int < 0x80 {
          assert s[1..][i] == s[i + 1];
        }
      }
      AsciiByteLen(s[1..]);
    }
  }

  /** `t` occurs somewhere inside `s` (Go's `strings.Contains`). */
  predicate HasInfix(s: string, t: string) {
    exists i :: 0 <= i <= |s| && InfixAt(s, t, i)
  }

  /** `t` occurs in `s` starting at position `i`. */
  predicate InfixAt(s: string, t: string, i: int) {
    0 <= i && i + |t| <= |s| && s[i..i + |t|] == t
  }
}

=== FILE: wrappers.dfy ===
/** Failure-compatible wrappers shared by every module of the model. */
module Wrappers {

  /** Go's nilable pointer or "value, ok" pair. */
  datatype Option<+T> = None | Some(value: T) {
    function GetOr(default: T): T {
      match this
      case Some(v) => v
      case None => default
    }
  }

  /** Go's `(value, error)` return pair. */
  datatype Result<+T, +E> = Ok(value: T) | Err(error: E) {
    predicate IsFailure() {
      Err?
    }

    function PropagateFailure<U>(): Result<U, E>
      requires Err?
    {
      Err(error)
    }

    function Extract(): T
      requires Ok?
    {
      value
    }
  }
}
